=== FILE: README.md ===
# Loom4 core logic in Dafny

Loom4 is a browser chat UI, made of ES modules and a legacy single-file
script, plus a small Python development server. This project models the
parts that carry sequential logic as pure functions over immutable values:

- the server's request decision (`do_GET`, `do_OPTIONS`, the content-type
  table, the custom 404 page);
- the shared helpers (`escapeHtml`, `capitalize`, dot-path `get`/`set`/`unset`,
  `range`, `unique`, `groupBy`);
- the state store with its dot paths, wildcard notifications and batching;
- the event bus with priorities, once-listeners, wildcards, namespaces and pipes;
- the prefixed `localStorage` manager with expiry, scopes, bounded push, pull
  and import;
- the plugin lifecycle with dependency checks;
- the hash router with guards, fallback and `#name?query` URLs;
- the resizable panel's width arithmetic;
- the list logic of the projects, chat and artifacts features and of the
  legacy script.

Time, generated ids, the user's answers to dialogs, guard results, dynamic
`import()`, the file system and the system MIME guess are all parameters or
oracles. JavaScript values are modelled with their reference identity
(`JsValue`), because the store decides whether to notify with `!==`.

Modules follow the source files:

- `DevServer` and `UrlParse` (server.py);
- `Helpers`, `Html` and `DotPath` (helpers.js);
- `StateStore` (state-manager.js);
- `EventBus` (event-bus.js);
- `Storage` (storage.js);
- `Plugins` (plugin-system.js);
- `Router` and `FormUrlencoded` (router.js and the URL serializer it calls);
- `ResizablePanel`;
- `FeatureList`, `Projects`, `Chats` with its history filter `ChatFilter`, and `Artifacts` (the feature modules);
- `LegacyScript` (script.js).

`Base`, `Text`, `Lists`, `Utf8` and `JsValue` stand for the language's own
primitives.

Where the code and its documentation disagree, the model follows the code.
Two examples:

- `formatStatus` in the projects feature knows four statuses, the legacy
  script only three.
- The router's `url` goes through `URLSearchParams`, so it percent-encodes
  the query in the form-urlencoded way.

## Model

| member | source | states |
|---|---|---|
| DevServer.StripSlashes | server.py:38 | `lstrip('/')` removes exactly the leading slashes and keeps the rest of the path as a suffix |
| DevServer.ContentType | server.py:80-97 | the first matching suffix among `.js`, `.css`, `.html`, `.json` decides; otherwise the system guess, or `text/plain` when there is none |
| DevServer.KnownSuffixIgnoresGuess | server.py:83-93 | for a known suffix the system guess never matters |
| DevServer.RootIsIndex | server.py:25-30 | a GET for `/`, with any query or fragment, gets exactly the response `/index.html` gets |
| DevServer.RootServesIndex | server.py:29-30 | the root path is served as `/index.html` |
| DevServer.QueryIgnored | server.py:25-26 | a query or fragment never changes which file is served |
| DevServer.TraversalForbidden | server.py:32-35 | a path containing `..` gets 403, and the file system is never consulted |
| DevServer.MissingIsNotFound | server.py:41-44 | a missing path or a directory is answered by the custom 404 handler for the resolved path, never by a listing |
| DevServer.NotFoundRendersPage | server.py:99-133 | the 404 handler replies with status 404, `Content-Type: text/html`, and a body that decodes to the page, with the path written into it |
| DevServer.NotFoundPageShowsPath | server.py:123 | the request path sits in the 404 page between the fixed text around it |
| DevServer.ReadFailureIsServerError | server.py:46-70 | a read failure after the existence check gives 500, with the failure text in the message |
| DevServer.SuccessfulGet | server.py:50-66 | a 200 happens exactly for a readable file at a path without `..`; its body is the file's bytes, `Content-Length` their count, and it carries the three cross-origin headers and `Cache-Control: no-cache` |
| DevServer.ServePathOk | server.py:41-66 | the path-level handler answers 200 exactly for a readable file, with that file's bytes |
| DevServer.FileHeadersValues | server.py:55-63 | a served file's headers carry its content type, its length in decimal, `no-cache` and the cross-origin headers in order |
| DevServer.FileLengthExact | server.py:52-57 | every 200 response announces exactly the number of bytes it sends |
| DevServer.NotFoundPageBytes | server.py:101-127 | the 404 page takes at least two bytes more than characters, because of the arrow |
| DevServer.NotFoundAsWrittenUndercounts | server.py:129-133 | as written, the 404 response announces fewer bytes than it sends |
| DevServer.NotFoundLengthExact | server.py:129-133 | the corrected 404 response announces exactly the bytes it sends |
| DevServer.OptionsIgnoresTarget | server.py:72-78 | OPTIONS on any target answers 200 with the three cross-origin headers, in the source's order and with its values, and no body |
| UrlParse.UrlPath | server.py:25-26 | `urlparse(target).path` holds no `?`, `#`, tab or line break |
| UrlParse.OriginFormPath | server.py:25-26 | an origin-form target is its own path, and whatever follows a `?` or `#` is dropped |
| UrlParse.AbsoluteFormPath | server.py:25-26 | an absolute-form `http://host/...` target has the path an origin-form target would have |
| UrlParse.OriginFormNoQuery | server.py:25-26 | without a query or fragment, an origin-form target's path is the target less its `;params` |
| UrlParse.ParamsDropped | server.py:25-26 | `;params` appended to an origin-form path are not part of the path the server checks, whatever they hold short of `/`, `?` or `#` |
| Utf8.DecodeEncode | server.py:133 | UTF-8 encoding loses nothing: decoding the bytes gives the text back |
| Html.EscapeHtmlHasNoMarkup | src/utils/helpers.js:200-207 | escaped text contains no `<`, `>`, `"` or `'` |
| Html.UnescapeEscape | src/utils/helpers.js:200-207 | because `&` is replaced first, reading the five entities back gives the original text |
| Html.EscapeHtmlPerChar | src/features/artifacts/artifacts.js:778-785 | the chain of five replacements escapes each character on its own, so no entity is escaped twice |
| Html.EscapeHtmlPlain | script.js:697-704 | text without any of the five special characters is left exactly as it is |
| Helpers.Capitalize | src/utils/helpers.js:167-170 | a non-string or empty string comes back unchanged; otherwise the first character is upper-cased and the rest kept |
| Helpers.CapitalizeIdempotent | src/utils/helpers.js:167-170 | capitalizing twice is capitalizing once |
| Helpers.Range | src/utils/helpers.js:426-440 | element `k` is `start + k*step`; with step > 0 all lie below `end` and the next would not; with step < 0 all lie above `end`; step 0 gives `[]` |
| Helpers.RangeLength | src/utils/helpers.js:426-440 | any list meeting `range`'s contract has the ceiling-division length, so the result is unique |
| Helpers.GroupBy | src/utils/helpers.js:448-459 | a group exists exactly for each key that occurs and holds exactly the items with that key, in input order; the call throws a `TypeError` exactly when a key read throws or a key names a property every object inherits (`constructor`, `toString`, `__proto__`, ...), whose truthy value has no `push` |
| Helpers.GroupByKeyGroups | src/utils/helpers.js:449-458 | the reduce loop creates a group per occurring key holding that key's items in order |
| Helpers.GroupSizes | src/utils/helpers.js:448-459 | every item lands in exactly one group: the group sizes add up to the input length |
| Helpers.Unique | src/utils/helpers.js:467-483 | without a key, the first copy of each value by `===` identity; with a key, the first item per key value; a throwing key read throws |
| Helpers.UniqueBy | src/utils/helpers.js:472-482 | the filter loop with a `seen` set keeps exactly the first occurrence of each key |
| Helpers.FirstOccurrencesKeys | src/utils/helpers.js:467-483 | every key of the input survives `unique` |
| Helpers.FirstOccurrencesDistinct | src/utils/helpers.js:467-483 | no two items kept by `unique` share a key |
| Helpers.FirstOccurrencesSubsequence | src/utils/helpers.js:467-483 | `unique` keeps only input items and never grows the list |
| DotPath.GetAfterSet | src/utils/helpers.js:321-356 | after `set(o, p, v)`, `get(o, p)` returns `v` |
| DotPath.SetKeys | src/utils/helpers.js:342-356 | a successful `set` needs an object root and returns that same object, by reference; array writes that leave holes or add named keys are `Unsupported` (see Left out) |
| DotPath.SetKeysOldValue | src/core/state-manager.js:77-86 | the previous value `set` reports is what reading the path gave before |
| DotPath.StepChild | src/utils/helpers.js:347-351 | the step `set` walks into is always an object: a missing or primitive value is replaced by a fresh one |
| DotPath.SetOtherTopLevel | src/utils/helpers.js:342-356 | a write leaves the other top-level properties as they were |
| DotPath.GetKeysNonObject | src/utils/helpers.js:321-333 | reading on through a primitive that does not throw yields `undefined`, whatever the rest of the path |
| DotPath.UnsetIffPresent | src/utils/helpers.js:364-382 | `unset` returns true iff the final key existed under object steps, and afterwards reading the path gives the default |
| DotPath.UnsetKeys | src/utils/helpers.js:364-382 | `unset` keeps the object's reference, and a false result leaves it unchanged; deleting an array element is `Unsupported` (see Left out) |
| DotPath.WildcardKeys | src/core/state-manager.js:179-191 | the prefix wildcards of `a.b.c` are `a.*`, `a.b.*`, `a.b.c.*`, one per segment |
| DotPath.WildcardIsPrefix | src/core/state-manager.js:179-181 | each wildcard names the path up to the end of one segment |
| DotPath.WildcardNotStar | src/core/state-manager.js:181 | a prefix wildcard ends in `.*`, so it is never the bare `*` |
| JsValue.Or | src/features/artifacts/artifacts.js:805-809 | `a \|\| b` is `a` when `a` is truthy and `b` otherwise |
| JsValue.StrictEqPrimitive | src/core/state-manager.js:89 | for primitives `!==` compares values |
| JsValue.StrictEqEquivalence | src/core/state-manager.js:89 | `===` is reflexive, symmetric and transitive on the modelled values |
| JsValue.HasProp | src/utils/helpers.js:326 | `key in v` throws for a non-object; on an object the model sees only its own keys (inherited names are not modelled, see Left out) |
| JsValue.Member | src/utils/helpers.js:329 | `v[k]` throws exactly for `null` and `undefined` |
| JsValue.PutProp | src/utils/helpers.js:354 | an assignment keeps the object's reference and makes the key hold the value; on a primitive it throws in strict mode; an array write past the end, to a named key or to `length` is `Unsupported` |
| JsValue.PutPropOthers | src/utils/helpers.js:354 | an assignment leaves every other property alone |
| JsValue.DeleteProp | src/utils/helpers.js:377 | `delete` removes exactly that key and keeps the reference |
| JsValue.Spread | src/core/state-manager.js:101 | `{...v}` copies an object's keys or an array's indices, and nothing from other primitives |
| JsValue.IdentityOfStrictEq | src/utils/helpers.js:469 | a `Set` treats two values as the same exactly when `===` holds |
| StateStore.GetAfterSetAt | src/core/state-manager.js:71-92 | after `set(p, v)`, `get(p)` returns `v` |
| StateStore.SetAt | src/core/state-manager.js:71-92 | `set` records a change exactly when `notify` is true and the new value is `!==` the old one |
| StateStore.SetAtReportsChange | src/core/state-manager.js:84-91 | the change `set` reports carries the value the path held before |
| StateStore.Merged | src/core/state-manager.js:99-103 | `{...current, ...updates}`: every key from `updates` wins, the other keys of `current` stay, and nothing else appears |
| StateStore.GetAfterUpdate | src/core/state-manager.js:99-103 | after `update`, the path holds the old object overwritten key by key with `updates` |
| StateStore.GetAfterPush | src/core/state-manager.js:111-115 | `push` stores a new array one longer, with the item first when `prepend` is set and last otherwise, and the old items in order |
| StateStore.GetAfterRemove | src/core/state-manager.js:122-133 | `remove` stores exactly the items the predicate rejects (or which are `!==` the value), in order |
| StateStore.Subscribe | src/core/state-manager.js:141-147 | subscribing adds the callback to its path and changes no other path |
| StateStore.UnsubscribeSubscribe | src/core/state-manager.js:141-158 | unsubscribing right after subscribing a new callback restores the listeners, including the removal of an emptied path |
| StateStore.Notify | src/core/state-manager.js:166-203 | one call per subscribed callback, each with the new value, the old value and the path |
| StateStore.NotifyOrder | src/core/state-manager.js:166-203 | the order is exact-path listeners, then `a.*`, `a.b.*`, ..., then `*` |
| StateStore.CalledIffWatching | src/core/state-manager.js:166-203 | a callback is called iff it watches the path, one of its prefix wildcards, or `*` |
| StateStore.StarNotifiedTwice | src/core/state-manager.js:302-311 | notifying the path `*` itself calls every `*` subscriber at least twice |
| StateStore.DeepMerge | src/core/state-manager.js:329-341 | the result is a new object holding exactly the keys of both; target keys the source lacks stay, and non-object source values replace |
| StateStore.DeepMergeNested | src/core/state-manager.js:333-334 | a nested source object is merged into the target's value there, or into `{}` when that is falsy |
| StateStore.DeepMergeSourceWins | src/core/state-manager.js:329-341 | along any path that ends at a source leaf, the merged object reads what the source reads |
| StateStore.Import | src/core/state-manager.js:302-311 | without `merge` the state becomes a copy of the imported object; listeners are unchanged |
| StateStore.ImportNotifiesStarTwice | src/core/state-manager.js:302-311 | `import` notifies `*`, so each `*` subscriber is called twice |
| StateStore.BatchDefersCalls | src/core/state-manager.js:256-276 | inside `batch`, no listener is called before the last write |
| StateStore.BatchMatchesDirect | src/core/state-manager.js:256-276 | `batch` ends in the same state and error as running the writes directly, and makes the same calls in the same order, even when a write throws |
| EventBus.On | src/core/event-bus.js:21-53 | `on` appends a new wrapper with its own id to that event's set and touches no other event |
| EventBus.Once | src/core/event-bus.js:61-63 | `once` is `on` with `once: true` and priority 0 |
| EventBus.Off | src/core/event-bus.js:70-89 | `off` removes exactly the first wrapper holding the callback, is a no-op for an unknown callback, and leaves other events alone |
| EventBus.OffUndoesOn | src/core/event-bus.js:21-89 | `off` right after `on` with a new callback restores the event table |
| EventBus.RemoveAllListeners | src/core/event-bus.js:95-107 | with a name, only that event's listeners go; without one, or with an empty one, all go |
| EventBus.ListenerCount | src/core/event-bus.js:259-261 | the count is 0 for an unknown event |
| EventBus.ListenerCounts | src/core/event-bus.js:21-89 | `on` raises the count by one; `off` lowers it by one exactly when the callback was there; other events keep theirs |
| EventBus.SortByPriorityStable | src/core/event-bus.js:124-127 | the sort puts higher priorities first, and keeps registration order among equal priorities |
| EventBus.EmitExactOrder | src/core/event-bus.js:121-157 | exact-name listeners are called first, without the event name, in descending priority, registration order among equals |
| EventBus.EmitRemovesOnce | src/core/event-bus.js:131-157 | after `emit` a once-listener is gone iff it ran without throwing; the event entry is dropped when it empties; other events are untouched |
| EventBus.EmitCallsIgnoreFailures | src/core/event-bus.js:134-147 | for a name not ending in `.*`, a throwing listener never stops later ones: the calls do not depend on which listeners throw |
| EventBus.EmitPlainCalls | src/core/event-bus.js:115-183 | for a name not ending in `.*`, the calls are the sorted exact listeners, then every listener on `a.*`, `a.b.*`, ... with the event name prepended |
| EventBus.EmitHadIff | src/core/event-bus.js:120-182 | `emit` returns true iff some exact or wildcard listener existed |
| EventBus.WildcardOnceKept | src/core/event-bus.js:159-180 | for a name not ending in `.*`, `emit` never removes a listener on one of the name's wildcard sets, even a once-listener |
| EventBus.EmitWildcardName | src/core/event-bus.js:123-180 | emitting a wildcard name `ns.*` calls each of its listeners in the exact phase, and calls again, with the name, exactly those still there: all but the once-listeners that returned normally |
| EventBus.EmitCallsFrom | src/core/event-bus.js:115-183 | every call goes to a listener of the event or of one of its prefix wildcards |
| EventBus.StarOnlyForStar | src/core/event-bus.js:159-180 | a listener on bare `*` is reached only by `emit('*')` |
| EventBus.NamespaceWildcard | src/core/event-bus.js:231-240 | every listener on `ns.*` is called by each `emit` through `namespace(ns)`: with the event name in the wildcard phase, or, for `emit('*')`, whose qualified name is `ns.*` itself, in the exact phase |
| EventBus.Qualified | src/core/event-bus.js:233-238 | the namespace forwards to `ns.` + the event name |
| EventBus.PipeSubscribes | src/core/event-bus.js:318-325 | piping a list of names adds one forwarding listener per name, keeping the existing ones |
| EventBus.PipeAllForwardsOnlyStar | src/core/event-bus.js:313-317 | `pipe(target, '*')` subscribes to `*` only, so no event except `*` is forwarded |
| EventBus.Forward | src/core/event-bus.js:313-325 | a forwarder emits on the target a name that starts with the prefix; one for a listed name passes on the arguments it received, the `*` one drops its first argument, which it takes as the event name |
| EventBus.PipeForwardsListed | src/core/event-bus.js:318-325 | emitting a piped name that is not a wildcard calls a forwarder, and every call on that name's set emits `prefix + name` on the target with the emit's own arguments |
| EventBus.PipeAllForwardsFirstArgument | src/core/event-bus.js:313-317 | after `pipe(target, '*', prefix)`, `emit('*', x, ...rest)` calls the new forwarder, and every call on the `*` set emits `prefix + String(x)` with `rest` on the target |
| Storage.KeyOf | src/utils/storage.js:33-35 | every entry is stored under `prefix + "_" + key` |
| Storage.KeyOfInjective | src/utils/storage.js:33-35 | distinct keys get distinct storage keys |
| Storage.Set | src/utils/storage.js:44-85 | `set` succeeds iff storage is available, and then stores the value with its timestamp under the prefixed key, leaving every other key alone |
| Storage.Get | src/utils/storage.js:93-119 | `get` changes storage only by removing an expired entry, and returns something other than the default only for a live record |
| Storage.GetAfterSet | src/utils/storage.js:44-119 | `get` after `set` returns the value until the expiry passes |
| Storage.GetAbsent | src/utils/storage.js:93-100 | `get` of an absent key returns the default and changes nothing |
| Storage.GetExpired | src/utils/storage.js:108-112 | an expired entry (a truthy `expires` the clock is past) is removed by `get`, which returns the default |
| Storage.GetZeroExpiryLive | src/utils/storage.js:108-112 | a stored record whose `expires` is 0 is falsy there, so `get` returns its value at any time and removes nothing |
| Storage.NoExpiryNeverExpires | src/utils/storage.js:52-56 | an `expires` of null or 0 never expires |
| Storage.Remove | src/utils/storage.js:126-139 | `remove` deletes exactly that prefixed key |
| Storage.Clear | src/utils/storage.js:159-180 | `clear` removes exactly the keys starting with `prefix_` and keeps every other entry |
| Storage.Keys | src/utils/storage.js:186-206 | `keys()` lists exactly the stored keys with the prefix, stripped |
| Storage.Scope | src/utils/storage.js:368-370 | a scope stores `key` where the parent stores `scope_key` |
| Storage.ScopeSharesParent | src/utils/storage.js:159-206 | a scoped entry shows in the parent's `keys()` and is deleted by the parent's `clear()` |
| Storage.IncrementValue | src/utils/storage.js:431-436 | `increment` adds to the stored number, counting a missing or non-numeric value as 0, and stores the sum |
| Storage.Bounded | src/utils/storage.js:445-457 | with a positive `maxLength` that is exceeded, only the last `maxLength` items stay; a negative `maxLength` leaves none; a zero one, or a list within the bound, keeps the list |
| Storage.PushAppends | src/utils/storage.js:445-457 | `push` appends the item to the stored list (a non-array counts as empty), then bounds it |
| Storage.PullKeeps | src/utils/storage.js:465-477 | `pull` keeps exactly the items the predicate rejects (or which differ from the item), in order |
| Storage.PullObjectRemovesNothing | src/utils/storage.js:465-477 | pulling by an object or array value removes nothing, because read-back values are fresh copies |
| Storage.Import | src/utils/storage.js:344-361 | `import` returns false, changing nothing, when storage is unavailable or `data` is missing |
| Storage.ImportKeepsExisting | src/utils/storage.js:344-361 | without `overwrite` an existing key is never changed; a new key gets the imported value |
| Plugins.Register | src/plugins/plugin-system.js:22-47 | a duplicate name is ignored, an invalid plugin is refused, and a valid one is recorded, not yet loaded; consistency is kept |
| Plugins.Load | src/plugins/plugin-system.js:54-112 | loading an already-loaded name is a no-op; after a load the name is loaded and, unless `autoEnable` is false, enabled; loaded and enabled only grow |
| Plugins.Enable | src/plugins/plugin-system.js:118-148 | enabling a name that is not loaded fails, an enabled one is a no-op, and enabled stays a subset of loaded |
| Plugins.CheckDependencies | src/plugins/plugin-system.js:299-318 | checking dependencies may load plugins but keeps enabled a subset of loaded |
| Plugins.LoadedDependenciesPass | src/plugins/plugin-system.js:299-318 | when every dependency is loaded, the check passes without changing anything, even for a loaded but disabled dependency |
| Plugins.FailedCheckHadMissing | src/plugins/plugin-system.js:299-318 | a failed check had a dependency that was not loaded |
| Plugins.EnableWithLoadedDependencies | src/plugins/plugin-system.js:118-148 | with all dependencies loaded and no enable hook, enabling succeeds |
| Plugins.Disable | src/plugins/plugin-system.js:154-184 | disabling a name that is not enabled is a no-op; a success removes just that name from enabled |
| Plugins.DisableBlockedByDependent | src/plugins/plugin-system.js:154-169 | disabling fails, changing nothing, while an enabled plugin depends on the name |
| Plugins.Dependents | src/plugins/plugin-system.js:325-335 | exactly the plugins whose dependency list contains the name |
| Plugins.Unload | src/plugins/plugin-system.js:190-216 | a successful unload leaves the name neither loaded nor enabled, and removes its instance |
| Plugins.UnloadDisablesFirst | src/plugins/plugin-system.js:190-216 | unload disables first, so a blocked disable blocks the unload; an unknown name is a no-op |
| Plugins.CallPluginMethod | src/plugins/plugin-system.js:369-384 | the checks come in this order: not found, not enabled, method not found |
| Router.Register | src/core/router.js:20-28 | registering adds or replaces that route only |
| Router.SetDefaultRoute | src/core/router.js:182-184 | only the default route changes |
| Router.Target | src/core/router.js:61-65 | an unregistered name falls back to the default route |
| Router.NavigateFallsBack | src/core/router.js:61-65 | navigating to an unregistered name is navigating to the default route |
| Router.Navigate | src/core/router.js:60-117 | navigation succeeds iff the target exists and neither guard refuses or throws; on failure the router is unchanged; on success the current route is the target with the data |
| Router.GuardRefusal | src/core/router.js:71-84 | a `beforeLeave` or `beforeEnter` answering false makes `navigate` return false with no event and the current route unchanged |
| Router.NeitherRegistered | src/core/router.js:62-68 | when neither the name nor the default is registered, `navigate` fails and the router is unchanged |
| Router.NavigateEventOrder | src/core/router.js:93-109 | a success emits `router:leave` (only with a previous route) before `router:enter` and `router:changed`, whose `from` is the previous name or null |
| Router.LeaveOnlyFromCurrent | src/core/router.js:99-102 | `router:leave` is emitted only for the previous route, and first |
| Router.NavigateValid | src/core/router.js:99-111 | navigation keeps the route table consistent, and a success leaves the target current |
| Router.Replace | src/core/router.js:138-142 | `replace` records `#name` for the requested name, then navigates without pushing history |
| Router.ReplaceUnregistered | src/core/router.js:138-142 | replacing with an unregistered name records the raw name while navigation lands on the default route |
| Router.Url | src/core/router.js:258-267 | `url` is `#name`, with `?` and the serialized parameters only when there are any |
| Router.RouteFromHash | src/core/router.js:156-159 | the route is the hash after `#`, and an empty hash gives null |
| Router.UrlRoundTrip | src/core/router.js:156-159 | reading back a parameterless URL gives its route |
| Router.UrlQueryRoundTrip | src/core/router.js:258-267 | the query of a URL with parameters parses back to the same parameters; the route read from the hash keeps the query attached, so it is `name?query` rather than `name` |
| FormUrlencoded.FormEncode | src/core/router.js:262-263 | the serializer never emits `=`, `&`, `?` or `#` inside a name or value |
| FormUrlencoded.EncodeByte | src/core/router.js:262-263 | a space becomes `+`, an unreserved byte stays, any other byte becomes `%HH` |
| FormUrlencoded.FormRoundTrip | src/core/router.js:262-263 | parsing a serialized text gives the text back |
| FormUrlencoded.ParseSerialize | src/core/router.js:262-263 | parsing the serialized parameter list gives back the same pairs in order |
| ResizablePanel.NewPanel | src/components/layout/ResizablePanel.js:10-51 | a new panel is closed, idle and at its default width |
| ResizablePanel.Clamp | src/components/layout/ResizablePanel.js:466-474 | the width is clamped between `minWidth` and `maxWidth`, and a width inside them is kept |
| ResizablePanel.ClampIdempotent | src/components/layout/ResizablePanel.js:466-474 | clamping twice is clamping once |
| ResizablePanel.SetWidth | src/components/layout/ResizablePanel.js:466-474 | `setWidth` applies the clamped width, changes nothing else, and saves it |
| ResizablePanel.MinimizeMaximize | src/components/layout/ResizablePanel.js:479-488 | `minimize` sets `minWidth` and `maximize` sets `maxWidth` |
| ResizablePanel.SnapSize | src/components/layout/ResizablePanel.js:292-299 | the first snap size within the threshold, inclusive, or none iff no size is that near |
| ResizablePanel.StartResize | src/components/layout/ResizablePanel.js:217-237 | a drag records the start position and width and sets both drag flags |
| ResizablePanel.DragWidth | src/components/layout/ResizablePanel.js:263-277 | the drag width is `startWidth + (startX - clientX)` clamped, then replaced by a snap size when one is near |
| ResizablePanel.DragWithinBounds | src/components/layout/ResizablePanel.js:263-277 | with snap sizes inside the bounds, a drag never leaves them |
| ResizablePanel.DragWithoutSnap | src/components/layout/ResizablePanel.js:263-277 | away from the snap sizes the drag width is just the clamped width |
| ResizablePanel.Move | src/components/layout/ResizablePanel.js:242-277 | a move does nothing unless a drag is active |
| ResizablePanel.EndResize | src/components/layout/ResizablePanel.js:322-346 | ending a drag clears both flags, keeps the width and saves it |
| ResizablePanel.Release | src/components/layout/ResizablePanel.js:304-308 | releasing does nothing unless a drag is active |
| ResizablePanel.DragSequence | src/components/layout/ResizablePanel.js:217-346 | press, one move applied before the release, then release leaves the panel idle at the drag width, with that width saved |
| ResizablePanel.DragBackToStart | src/components/layout/ResizablePanel.js:263-277 | moving back to the start point restores the start width |
| ResizablePanel.PresetStates | src/components/layout/ResizablePanel.js:387-393 | a preset button is active iff the preset is within 10 pixels of the width |
| ResizablePanel.ChosenPresetAlone | src/components/layout/ResizablePanel.js:387-393 | after choosing a preset, that button alone is active |
| ResizablePanel.Margin | src/components/layout/ResizablePanel.js:376-382 | the main-content margin is the width when open and 0 when closed |
| ResizablePanel.Open | src/components/layout/ResizablePanel.js:428-439 | `open` sets the panel open and changes nothing else; the main content's margin becomes the panel's width |
| ResizablePanel.Close | src/components/layout/ResizablePanel.js:444-450 | `close` sets the panel closed and changes nothing else; the main content's margin becomes 0 |
| ResizablePanel.Toggle | src/components/layout/ResizablePanel.js:455-461 | `toggle` flips `isOpen` and changes nothing else |
| ResizablePanel.ToggleTwice | src/components/layout/ResizablePanel.js:455-461 | toggling twice restores the panel; a toggle moves the margin between 0 and the width |
| ResizablePanel.LoadState | src/components/layout/ResizablePanel.js:530-536 | with no saved state the panel stays; otherwise a falsy width falls back to the default and a missing `isOpen` to false |
| ResizablePanel.SaveLoadRoundTrip | src/components/layout/ResizablePanel.js:530-547 | loading what was saved restores `isOpen` and the width, except that a zero width comes back as the default |
| ResizablePanel.SetWidthLoadsBack | src/components/layout/ResizablePanel.js:466-547 | the width `setWidth` saves is the width a later load restores |
| FeatureList.NotifiesIffNewArray | src/core/state-manager.js:89 | writing an array back notifies iff it is a different array from the one stored |
| FeatureList.FindIndex | src/features/projects/projects.js:324 | the index of the first match, or none iff nothing matches |
| FeatureList.UpdateFirst | src/features/projects/projects.js:324-328 | only the first match is changed, and the length is kept |
| FeatureList.RemoveAll | src/features/chat/chat.js:485 | `filter` keeps exactly the items that do not match, and is shorter when one matches |
| FeatureList.UnshiftInPlace | src/features/projects/projects.js:308-310 | `unshift` then `set` of the same array puts the item first and notifies nobody |
| FeatureList.WriteNew | src/features/chat/chat.js:485-486 | writing a new array notifies the key's subscribers |
| Projects.CreateProjectAsWritten | src/features/projects/projects.js:307-311 | as written, the project goes first but the store's subscribers are not told |
| Projects.CreateProject | src/features/projects/projects.js:307-311 | the new project goes first, the others follow in order, and subscribers are told |
| Projects.UpdateProjectAsWritten | src/features/projects/projects.js:322-336 | as written, the first project with the id is replaced but subscribers are not told |
| Projects.UpdateProject | src/features/projects/projects.js:322-336 | the first project with the same id is replaced where it stands; an unknown id is a no-op |
| Projects.UpdateKeepsOthers | src/features/projects/projects.js:322-336 | an update keeps the length and every project with another id |
| Projects.DeleteProject | src/features/projects/projects.js:341-366 | a confirmed delete removes every project with the id; an unknown id or a cancel changes nothing |
| Projects.Copy | src/features/projects/projects.js:433-439 | the copy has the new id, title + " (Copy)", a new creation time, empty `lastActive`, and every other field copied |
| Projects.DuplicateProject | src/features/projects/projects.js:429-444 | the copy of the first project with the id goes first; an unknown id is a no-op |
| Projects.DuplicateCopiesFields | src/features/projects/projects.js:429-444 | the copy keeps description, instructions, status and knowledge base, and differs from the original |
| Projects.FormatStatus | src/features/projects/projects.js:449-457 | active, planned, completed and paused get a capitalised label; any other value passes through |
| Projects.Submit | src/features/projects/projects.js:261-302 | a blank trimmed name is refused with nothing changed; otherwise the project is updated when editing and created otherwise |
| Projects.EditKeepsIdentity | src/features/projects/projects.js:280-292 | editing keeps id, status and `createdAt`, takes the trimmed name, and fills a blank description with "No description provided" |
| Projects.StartProjectChat | src/features/projects/projects.js:371-398 | an unknown project is a no-op; otherwise a chat titled "Chat: " + title, with the project's id and knowledge base, goes first, written as a new array so subscribers are told |
| Projects.StartProjectChatAsWritten | src/features/projects/projects.js:384-388 | as written, the project's chat goes first but subscribers are not told |
| Chats.CreateNewChatAsWritten | src/features/chat/chat.js:345-359 | as written, the chat goes first but subscribers are not told |
| Chats.CreateNewChat | src/features/chat/chat.js:345-374 | a chat titled "New Chat ..." with an empty message list goes first and becomes current |
| Chats.WithMessage | src/features/chat/chat.js:283-290 | the message is appended, and a missing list is created |
| Chats.AddMessage | src/features/chat/chat.js:283-297 | without a current chat that the list holds nothing changes; otherwise only that chat's messages change, in the stored array itself, so no subscriber is told |
| Chats.AddMessageAppends | src/features/chat/chat.js:283-297 | the current chat's messages gain the message at the end and other chats are untouched |
| Chats.TitleFrom | src/features/chat/chat.js:332-335 | the first 30 characters of the message, with "..." iff it is longer than 30 |
| Chats.UpdateChatMetadata | src/features/chat/chat.js:322-340 | without a current chat that the list holds nothing changes; otherwise the first chat with the current id, and no other, is summarized, written as a new array so subscribers are told |
| Chats.UpdateChatMetadataAsWritten | src/features/chat/chat.js:322-340 | as written, the same chats are stored but subscribers are not told |
| Chats.MetadataAsWrittenSilent | src/features/chat/chat.js:322-340 | the as-written and corrected summaries store the same chats; only the corrected one is heard |
| Chats.MetadataAfterReply | src/features/chat/chat.js:322-335 | the last message becomes "AI: " + the first 50 characters of the reply + "...", the timestamp becomes the reply's time, the title is replaced only while it starts with "New Chat", and no other chat changes |
| Chats.DeleteChat | src/features/chat/chat.js:478-509 | a cancel or an unknown id changes nothing; a delete only removes chats |
| Chats.DeleteChatRemoves | src/features/chat/chat.js:478-509 | a confirmed delete removes exactly the chats with the id and clears `currentChatId` when it was current |
| Chats.RenameChat | src/features/chat/chat.js:514-528 | only the first chat with the id gets the new title, written as a new array so subscribers are told |
| Chats.RenameChatAsWritten | src/features/chat/chat.js:514-521 | as written, the chat is retitled but subscribers are not told |
| Chats.RenameAsWrittenSilent | src/features/chat/chat.js:514-521 | the as-written and corrected renames store the same chats; only the corrected one is heard |
| Chats.RenameFromPrompt | src/features/chat/chat.js:669-677 | a cancelled, empty or blank answer changes nothing; otherwise the trimmed answer becomes the title |
| Chats.Sidebar | src/features/chat/chat.js:571 | the sidebar shows the first 5 chats, or all when there are fewer |
| ChatFilter.FilterChats | src/features/chat/chat.js:533-546 | a row shows iff the lower-cased query occurs at some index of its lower-cased title or subtitle |
| ChatFilter.EmptyQueryShowsAll | src/features/chat/chat.js:533-546 | an empty query shows every row |
| ChatFilter.FilterNarrows | src/features/chat/chat.js:533-546 | a row shown for a query is shown for every prefix of that query, so typing more only hides rows |
| ChatFilter.TitleMatchShown | src/features/chat/chat.js:533-546 | a row whose title equals the query, ignoring ASCII case, is shown |
| ChatFilter.FilterIgnoresCase | src/features/chat/chat.js:537-543 | upper- or lower-casing the query shows the same rows |
| Artifacts.FileExtension | src/features/artifacts/artifacts.js:589-598 | html, css, javascript and markdown map to html, css, js and md; anything else to txt |
| Artifacts.MimeType | src/features/artifacts/artifacts.js:603-612 | each of the four known kinds maps to `text/` followed by the kind itself; anything else to `text/plain` |
| Artifacts.TablesAgree | src/features/artifacts/artifacts.js:589-612 | the two tables agree: every type is `text/...`, and an unknown kind is plain text in both |
| Artifacts.SafeName | src/features/artifacts/artifacts.js:572 | only ASCII letters, digits and `_` remain, one underscore per UTF-16 unit replaced |
| Artifacts.SafeNameKeepsAlnum | src/features/artifacts/artifacts.js:572 | a title of ASCII letters and digits is kept as it is |
| Artifacts.DownloadName | src/features/artifacts/artifacts.js:572 | the file name is the safe title, then `.` and the extension |
| Artifacts.CalculateSize | src/features/artifacts/artifacts.js:830-832 | below 1024 UTF-8 bytes the label is the byte count + " B" |
| Artifacts.AsciiSize | src/features/artifacts/artifacts.js:830-832 | for ASCII content the byte count is the length |
| Artifacts.OrElse | src/features/artifacts/artifacts.js:805-808 | a missing or empty field takes the fallback |
| Artifacts.EmptyDraftDefaults | src/features/artifacts/artifacts.js:802-811 | each missing or empty field takes its default: "Untitled Artifact", "text", "" and "", and an empty content is labelled "0 B" |
| Artifacts.ViewArtifact | src/features/artifacts/artifacts.js:449-462 | an unknown id changes nothing; otherwise the artifact becomes both current and last |
| Artifacts.CreateArtifactAsWritten | src/features/artifacts/artifacts.js:802-816 | as written, the artifact goes first but subscribers are not told |
| Artifacts.CreateArtifact | src/features/artifacts/artifacts.js:802-816 | the artifact goes first, subscribers are told, and it becomes current and last |
| Artifacts.LastArtifactButton | src/features/artifacts/artifacts.js:790-797 | the button is disabled iff there is no last artifact, and offers "Open " + its title, or "No recent artifacts" |
| Artifacts.ButtonAfterView | src/features/artifacts/artifacts.js:790-797 | viewing a known artifact enables the button under that artifact's title; an unknown id leaves the button as it was |
| Artifacts.ButtonAfterCreate | src/features/artifacts/artifacts.js:790-797 | after `createArtifact` the button opens the new artifact, under its title or "Untitled Artifact" |
| LegacyScript.FormatStatus | script.js:246-253 | active, planned and completed get a capitalised label; any other value passes through |
| LegacyScript.StatusTablesAgree | script.js:246-253 | the legacy table agrees with the projects feature's except that "paused" passes through |
| LegacyScript.Initials | script.js:191 | the upper-cased first character of each space-separated word |
| LegacyScript.InitialsOfWords | script.js:191 | words joined by single spaces give one initial each, in order |
| LegacyScript.FormatTimeAgo | script.js:270-279 | in whole hours: under 1 is "Just now", under 24 is "<n>h ago", under 48 is "Yesterday", older is a date; a future time is "Just now" |
| LegacyScript.HoursShownInRange | script.js:273-276 | the hour count shown lies between 1 and 23 |
| LegacyScript.ViewArtifactContent | script.js:671-683 | markdown turns newlines into `<br>` inside a div; every other type is escaped inside its wrapper |
| LegacyScript.ViewedContentIsEscaped | script.js:677-683 | outside markdown the wrapped content has no raw markup and unescapes to the content |
| LegacyScript.MarkdownKeepsMarkup | script.js:673-674 | markdown content without line breaks reaches the viewer unescaped, exactly as written, markup included |
| LegacyScript.DeleteChat | script.js:501-519 | a confirmed delete removes exactly that id's chats and clears `currentChatId` when it was open; an unknown id or a cancel changes nothing |
| LegacyScript.RenameChat | script.js:524-547 | with no dialog or a blank name nothing changes; otherwise the chat gets the trimmed name and the dialog closes |
| LegacyScript.RenameChatTitles | script.js:524-547 | a rename is refused iff the name is all whitespace; otherwise only the chat being renamed changes |
| LegacyScript.AddNewChat | script.js:608-617 | a chat titled "New Chat " + time with no project goes first and is opened |
| LegacyScript.StartProjectChat | script.js:324-339 | an unknown project is a no-op; otherwise a chat about the project goes first and is opened |
| LegacyScript.AddThenDelete | script.js:501-617 | deleting a chat just added with a new id restores the list and closes it |

## Left out

- Rendering, `innerHTML` templates, DOM lookups, notifications and listener wiring in every module; the modal, sidebar and main-content components; application bootstrap and sample data.
- The socket server and `main()` of server.py, `send_error`'s page text, and `log_message`: output only.
- `mimetypes.guess_type` and the file system: oracles.
- `urlparse` checks of malformed network locations in absolute-form targets other than the unbalanced-bracket one (for example a bad bracketed host or a non-ASCII netloc that NFKC-normalises to a separator), which a browser never sends: for those the source raises `ValueError` and `do_GET` never answers, while the model answers them as usual.
- Timing and concurrency: `setTimeout`, `emitAsync`, `waitFor`, `retry`, `sleep`, `debounce`, `throttle`, `storage.watch`, the animation frame. Every `await` is taken in order.
- `Date.now`, `Math.random`, `generateId`, locale time labels and the simulated AI replies: parameters.
- JSON (de)serialisation and `localStorage` quotas: `localStorage` is a map of parsed records.
- Storage `getSize`, `cleanup` and `export`, state-store `computed`, `export` and `reset`, the event bus's `use` middleware and `setMaxListeners` warning: utilities that none of the operations modelled above calls.
- Floating point: the KB and MB labels of `calculateSize`, `formatFileSize`, and `formatDate`'s locale date.
- The artifacts feature's regex markdown renderer: a chain of replacements with no stated contract.
- Text.Upper: covers ASCII letters only, because `toUpperCase` and `toLowerCase` follow the full Unicode tables.
- Text.Take: counts characters, while JavaScript's `substring` and `length` count UTF-16 units; the two agree inside the Basic Multilingual Plane.
- JsValue.Lookup: ignores keys inherited from `Object.prototype` (for example `statusMap['constructor']`), so `formatStatus('constructor')`, `getFileExtension('constructor')` and `getMimeType('constructor')` do not return the inherited function as the source does.
- JsValue.HasProp: sees an object's own keys only, while `in` walks the prototype chain: `'toString' in {}` and `'push' in []` are true in JavaScript and false in the model. So `get(state, 'toString')` (src/core/state-manager.js:56-59) returns the inherited function in the source and the default in the model.
- DotPath.UnsetIffPresent: stated for own keys only. `unset({}, 'toString')` passes the `in` test in the source, deletes nothing and returns true (src/utils/helpers.js:376-379); the model returns false.
- Artifacts.MimeType: `getMimeType` of an inherited name such as `constructor` or `toString` returns the inherited function, which is truthy, instead of `text/plain` (src/features/artifacts/artifacts.js:611); the model returns `text/plain`.
- Artifacts.FileExtension: likewise, `getFileExtension('constructor')` returns the inherited function instead of `txt` (src/features/artifacts/artifacts.js:597); the model returns `txt`.
- Projects.FormatStatus: likewise, `formatStatus('constructor')` returns the inherited function instead of passing the value through (src/features/projects/projects.js:456); the model passes it through.
- LegacyScript.FormatStatus: the same gap for the legacy script's `formatStatus` (script.js:252).
- JsValue.PutProp: an array write past the end (which leaves holes, for example `set({a:[1]}, 'a.3', 5)`), to a named key such as `a.x`, or to `length` succeeds in JavaScript (src/utils/helpers.js:354, src/core/state-manager.js:86) but is `Err(Unsupported)` in the model, because arrays are modelled as dense sequences with no named properties. The contracts built on it, `DotPath.GetAfterSet`, `StateStore.SetAt`, `StateStore.GetAfterSetAt` and the "same error" of `StateStore.BatchMatchesDirect`, hold only for the writes the model accepts.
- DotPath.SetKeys: refuses, as `Unsupported`, the same array writes `JsValue.PutProp` refuses, which the source performs.
- DotPath.UnsetKeys: deleting an array element, for example `unset({a:[1]}, 'a.0')`, leaves a hole and returns true in the source (src/utils/helpers.js:376-379); the model returns `Err(Unsupported)`.
- JsValue numbers are integers: fractions, NaN and `-0` are not modelled.
- Router.Navigate: models only guards that settle before the next navigation starts. It omits the default `data = {}` as an object identity, the `start`/`popstate` wiring, and section hiding throwing part-way.
- ResizablePanel.LoadState: does not model saved widths that are not numbers.
- FormUrlencoded.Parse: fails on malformed UTF-8 where the standard parser would substitute U+FFFD; only the round trip is stated.
- Artifacts.CreateArtifact: does not model the case where the artifacts key is missing. `get` then returns a fresh default array, so even the in-place write notifies.
- LegacyScript.RenameChat: the dialog holds a reference to the chat object; the model finds the chat by id.
- Plugins: `setConfig`, `getConfig`, `import`, `export`, hot reload and the plugin API object are left out; an instance is described by which methods it has and which throw.
- Plugins: the lifecycle's mirror in the state store (`push`/`remove` on `plugins.loaded` and `plugins.enabled`) and its `plugin:*` events are left out; they report the lifecycle the model states to the UI.
- DevServer.HandleGet: takes `self.path` as `http.server` hands it to `do_GET`; the request-line parsing before that is not modelled. Recent CPython releases reduce a leading `//` to `/` there, so `GET //index.html` serves `/index.html`, while the model reads `index.html` as a network location.
- Router.UrlRoundTrip: assumes `location.hash` returns the text `url()` built. Browsers percent-encode spaces, quotes, `<`, `>`, `` ` `` and non-ASCII characters in a fragment, so for route names holding them the route read back is the encoded name.
- Router.UrlQueryRoundTrip: makes the same assumption about the route-name part of the fragment. It states what `url()` and the query parser agree on, not navigation: `getParams` reads `location.search`, not the hash (src/core/router.js:273-282), and navigating to `url(name, params)` looks up the route `name?query`; unless a route was registered under that very name, `navigate` falls back to the default route (src/core/router.js:62-65).
- EventBus.EmitCallsIgnoreFailures: stated for names not ending in `.*`; for such a name the set runs twice and the second run depends on which once-listeners threw (EventBus.EmitWildcardName).
- EventBus.EmitPlainCalls: stated for names not ending in `.*`, for the same reason.
- EventBus.WildcardOnceKept: stated for names not ending in `.*`; emitting `ns.*` itself removes that set's once-listeners that returned.
- EventBus.On: callbacks are identities, so `on`'s throw for a callback that is not a function is not modelled.
- EventBus.Pipe: the target bus is not modelled; what a forwarder does is the call it makes on it (`Forward`). All forwarders of one `pipe` share the identity `fwd`.
- DotPath.SetOtherTopLevel: values have no heap, so an object reachable by two paths is two independent copies. When `a` and `b` hold the same object, `set(root, 'a.x', 1)` makes `get(root, 'b.x')` 1 in the source, while the model leaves `b` as it was.
- JsValue: an object's `Ref` is only its identity for `===`; objects reachable by two paths are modelled as independent copies, so a write through one path is not seen through the other.
- DevServer.HandleOptions: the `Server` and `Date` headers that `send_response` adds before the handler's own are not modelled; the response lists only the headers server.py writes.
- DevServer.FileHeadersValues: "in order" is the order of the headers server.py writes; `send_response`'s `Server` and `Date` headers come before them and are not modelled.
- ResizablePanel.DragSequence: applies the move before the release. In the source a move sets the width in an animation frame behind a 16 ms `throttle` with no trailing call, so a release before that frame, or a move the throttle drops, saves an earlier width.

## Findings

| source | as written | input that shows it | evidently intended | confidence | as-written member | corrected member |
|---|---|---|---|---|---|---|
| server.py:129-133 | `Content-Length` is `len()` of the page string, a count of characters | any missing path, e.g. `/missing`: the page contains "←", three bytes in UTF-8, so the header is two bytes short | `Content-Length` equal to the number of UTF-8 bytes written | high, not executed | DevServer.NotFoundAsWrittenUndercounts | DevServer.NotFoundLengthExact |
| src/features/projects/projects.js:307-311 | `unshift` on the stored array, then `set` of that same array | create a project while the list is shown: `oldValue === value`, so `renderProjects` is never called | store a new array so the subscribers re-render | medium, not executed | Projects.CreateProjectAsWritten | Projects.CreateProject |
| src/features/projects/projects.js:322-336 | `projects[index] = projectData` on the stored array, then `set` of that same array | edit a project: the store sees the same array and tells no subscriber | store a new array so the subscribers re-render | medium, not executed | Projects.UpdateProjectAsWritten | Projects.UpdateProject |
| src/features/chat/chat.js:345-359 | `unshift` on the stored array, then `set` of that same array | create a chat: `renderChatHistory` is not called through the store | store a new array so the subscribers re-render | medium, not executed | Chats.CreateNewChatAsWritten | Chats.CreateNewChat |
| src/features/artifacts/artifacts.js:802-816 | `unshift` on the stored array, then `set` of that same array | create an artifact: `renderArtifacts` is not called through the store | store a new array so the subscribers re-render | medium, not executed | Artifacts.CreateArtifactAsWritten | Artifacts.CreateArtifact |
| src/features/chat/chat.js:322-340 | the current chat's fields changed in place, then `set` of that same array | a reply in a chat still called "New Chat ...": the history keeps the old title and last message, because `renderChatHistory` is not called through the store | store a new array so the subscribers re-render | medium, not executed | Chats.UpdateChatMetadataAsWritten | Chats.UpdateChatMetadata |
| src/features/chat/chat.js:514-521 | `chat.title = newTitle` on the stored array, then `set` of that same array | rename a chat: the history keeps showing the old title | store a new array so the subscribers re-render | medium, not executed | Chats.RenameChatAsWritten | Chats.RenameChat |
| src/features/projects/projects.js:384-388 | `unshift` on the stored chat array, then `set` of that same array | start a chat from a project: the chat history does not gain the new chat through the store | store a new array so the subscribers re-render | medium, not executed | Projects.StartProjectChatAsWritten | Projects.StartProjectChat |

`addMessage` (src/features/chat/chat.js:283-297) writes back the same way; the chat history does not show messages, so nothing is lost there, and `Chats.AddMessage` models it as written. The corrected members write a new array, as the store's own `push` does (src/core/state-manager.js:111-115).
`Projects.DuplicateProject` and `Projects.Submit` are built on the corrected `Projects.CreateProject` and `Projects.UpdateProject`. In the source, `duplicateProject` (src/features/projects/projects.js:429-443) and the submit handler (src/features/projects/projects.js:295-299) call `createProject` and `updateProject` as written, so they too change the stored array in place and notify no subscriber.

=== FILE: artifacts.dfy ===
/**
 * The artifacts feature's data rules: the type tables for file extensions
 * and MIME types, the download file name, the defaults `createArtifact`
 * fills in, the size label for small contents, and which artifact is
 * current and last viewed.
 *
 * Escaping is `Html.EscapeHtml`; the panel, the DOM and the notifications
 * are left to the browser.
 */
module Artifacts {
  import opened Base
  import opened Text
  import JsValue
  import Utf8
  import FeatureList

  /** A size label: the byte count for small contents; the kilobyte and megabyte labels are not modelled. */
  datatype Size = Bytes(text: string) | Scaled(bytes: nat)

  datatype Artifact = Artifact(
    id: string,
    title: string,
    kind: string,
    content: string,
    preview: string,
    createdAt: string,
    size: Size)

  // ---------------------------------------------------------------- type tables

  /** `getFileExtension(type)`. */
  function FileExtension(kind: string): (ext: string)
    ensures kind == "html" ==> ext == "html"
    ensures kind == "css" ==> ext == "css"
    ensures kind == "javascript" ==> ext == "js"
    ensures kind == "markdown" ==> ext == "md"
    ensures kind !in {"html", "css", "javascript", "markdown"} ==> ext == "txt"
  {
    if kind == "html" then "html"
    else if kind == "css" then "css"
    else if kind == "javascript" then "js"
    else if kind == "markdown" then "md"
    else "txt"
  }

  /** `getMimeType(type)`: each known kind names its own `text/` subtype; anything else is plain text. */
  function MimeType(kind: string): (mime: string)
    ensures kind in {"html", "css", "javascript", "markdown"} ==> mime == "text/" + kind
    ensures kind !in {"html", "css", "javascript", "markdown"} ==> mime == "text/plain"
  {
    "text/" + (if kind in {"html", "css", "javascript", "markdown"} then kind else "plain")
  }

  /** The two tables agree: the MIME type is `text/` followed by a name for the same kind, and an unknown kind is plain text in both. */
  lemma TablesAgree(kind: string)
    ensures StartsWith(MimeType(kind), "text/")
    ensures FileExtension(kind) == "txt" <==> MimeType(kind) == "text/plain"
    ensures FileExtension(kind) == "txt" <==> kind !in {"html", "css", "javascript", "markdown"}
  {
    assert MimeType(kind)[..5] == "text/";
  }

  // ---------------------------------------------------------------- download name

  predicate AsciiAlnum(c: char) {
    ('a' <= c <= 'z') || ('A' <= c <= 'Z') || ('0' <= c <= '9')
  }

  /** UTF-16 code units of a character: the regular expression sees a surrogate pair as two. */
  function Utf16Units(c: char): nat {
    if c as int >= 0x10000 then 2 else 1
  }

  function Underscores(n: nat): (r: string)
    ensures |r| == n && forall i :: 0 <= i < n ==> r[i] == '_'
  {
    if n == 0 then "" else "_" + Underscores(n - 1)
  }

  /** `title.replace(/[^a-z0-9]/gi, '_')`: one underscore per code unit outside the ASCII letters and digits. */
  function SafeName(title: string): (r: string)
    ensures forall i :: 0 <= i < |r| ==> AsciiAlnum(r[i]) || r[i] == '_'
    ensures |r| >= |title|
    ensures (forall i :: 0 <= i < |title| ==> title[i] as int < 0x10000) ==> |r| == |title|
  {
    if |title| == 0 then ""
    else (if AsciiAlnum(title[0]) then [title[0]] else Underscores(Utf16Units(title[0]))) + SafeName(title[1..])
  }

  /** A title made of ASCII letters and digits is kept as it is. */
  lemma {:induction false} SafeNameKeepsAlnum(title: string)
    requires forall i :: 0 <= i < |title| ==> AsciiAlnum(title[i])
    ensures SafeName(title) == title
  {
    if |title| > 0 {
      SafeNameKeepsAlnum(title[1..]);
      assert title == [title[0]] + title[1..];
    }
  }

  /** The file name of the download action. */
  function DownloadName(a: Artifact): (name: string)
    ensures EndsWith(name, "." + FileExtension(a.kind))
    ensures StartsWith(name, SafeName(a.title))
    ensures forall i :: 0 <= i < |name| - |FileExtension(a.kind)| - 1 ==> AsciiAlnum(name[i]) || name[i] == '_'
  {
    var base := SafeName(a.title);
    var ext := "." + FileExtension(a.kind);
    var name := base + ext;
    assert name[|name| - |ext|..] == ext;
    assert name[..|base|] == base;
    name
  }

  // ---------------------------------------------------------------- create

  /** `calculateSize(content)`: the UTF-8 byte count, labelled in bytes below 1024. */
  function CalculateSize(content: string): (s: Size)
    ensures Utf8.ByteLength(content) < 1024 <==> s.Bytes?
    ensures s.Bytes? ==> s.text == Decimal(Utf8.ByteLength(content)) + " B"
  {
    var bytes := Utf8.ByteLength(content);
    if bytes < 1024 then Bytes(Decimal(bytes) + " B") else Scaled(bytes)
  }

  /** An ASCII content is labelled with its length. */
  lemma AsciiSize(content: string)
    requires |content| < 1024 && forall i :: 0 <= i < |content| ==> content[i] as int < 0x80
    ensures CalculateSize(content) == Bytes(Decimal(|content|) + " B")
  {
    Utf8.ByteLengthAscii(content);
  }

  /** What the caller of `createArtifact` hands over; a missing field is `None`. */
  datatype Draft = Draft(title: Option<string>, kind: Option<string>, content: Option<string>, preview: Option<string>)

  /** `x || fallback` for an optional string: missing and empty both fall back. */
  function OrElse(x: Option<string>, fallback: string): (r: string)
    ensures x.Some? && x.value != "" ==> r == x.value
    ensures x.None? || x.value == "" ==> r == fallback
  {
    if x.Some? && x.value != "" then x.value else fallback
  }

  function FromDraft(d: Draft, id: string, now: string): Artifact {
    var content := OrElse(d.content, "");
    Artifact(id, OrElse(d.title, "Untitled Artifact"), OrElse(d.kind, "text"), content,
             OrElse(d.preview, ""), now, CalculateSize(content))
  }

  /** The feature's state: the stored list and the artifacts being and last shown. */
  datatype View = View(artifacts: FeatureList.Stored<Artifact>, current: Option<Artifact>, last: Option<Artifact>)

  function WithId(id: string): Artifact -> bool {
    (a: Artifact) => a.id == id
  }

  /** `viewArtifact(id)`: a known artifact becomes both current and last; an unknown id changes nothing. */
  function ViewArtifact(v: View, id: string): (r: View)
    ensures r.artifacts == v.artifacts
    ensures FeatureList.Find(v.artifacts.items, WithId(id)).None? ==> r == v
    ensures FeatureList.Find(v.artifacts.items, WithId(id)).Some? ==>
      r.current == r.last == FeatureList.Find(v.artifacts.items, WithId(id))
  {
    match FeatureList.Find(v.artifacts.items, WithId(id))
    case None => v
    case Some(a) => v.(current := Some(a), last := Some(a))
  }

  /** `createArtifact(data)` as written: `unshift` on the stored array, then `set` of that same array. */
  function CreateArtifactAsWritten(v: View, d: Draft, id: string, now: string): (r: View)
    ensures r.artifacts.items == [FromDraft(d, id, now)] + v.artifacts.items
    ensures !FeatureList.Notifies(v.artifacts, r.artifacts)
  {
    ViewArtifact(v.(artifacts := FeatureList.UnshiftInPlace(v.artifacts, FromDraft(d, id, now))), id)
  }

  /** `createArtifact(data)`: the defaults filled in, the artifact put first and then shown. */
  function CreateArtifact(v: View, d: Draft, id: string, now: string, newRef: JsValue.Ref): (r: View)
    requires newRef != v.artifacts.ref
    ensures r.artifacts.items == [FromDraft(d, id, now)] + v.artifacts.items
    ensures FeatureList.Notifies(v.artifacts, r.artifacts)
    ensures r.current == r.last == Some(FromDraft(d, id, now))
  {
    var a := FromDraft(d, id, now);
    var w := v.(artifacts := FeatureList.WriteNew(v.artifacts, [a] + v.artifacts.items, newRef));
    assert FeatureList.FindIndex(w.artifacts.items, WithId(id)) == Some(0);
    ViewArtifact(w, id)
  }

  /** A missing or empty field takes its default; an empty content is labelled "0 B". */
  lemma EmptyDraftDefaults(d: Draft, id: string, now: string)
    ensures var a := FromDraft(d, id, now);
      a.id == id && a.createdAt == now
      && (d.title.None? || d.title == Some("") ==> a.title == "Untitled Artifact")
      && (d.kind.None? || d.kind == Some("") ==> a.kind == "text")
      && (d.content.None? || d.content == Some("") ==> a.content == "" && a.size == Bytes("0 B"))
      && (d.preview.None? || d.preview == Some("") ==> a.preview == "")
  {
    assert Decimal(0) == "0";
  }

  /** The last-artifact button: disabled exactly when nothing has been viewed yet. */
  datatype Button = Button(disabled: bool, hint: string)

  function LastArtifactButton(v: View): (b: Button)
    ensures b.disabled <==> v.last.None?
    ensures v.last.Some? ==> b.hint == "Open " + v.last.value.title
    ensures v.last.None? ==> b.hint == "No recent artifacts"
  {
    match v.last
    case None => Button(true, "No recent artifacts")
    case Some(a) => Button(false, "Open " + a.title)
  }

  /** Viewing a known artifact enables the button and names that artifact; an unknown id leaves the button as it was. */
  lemma ButtonAfterView(v: View, id: string)
    ensures var found := FeatureList.Find(v.artifacts.items, WithId(id));
      found.Some? ==> LastArtifactButton(ViewArtifact(v, id)) == Button(false, "Open " + found.value.title)
    ensures FeatureList.Find(v.artifacts.items, WithId(id)).None? ==> LastArtifactButton(ViewArtifact(v, id)) == LastArtifactButton(v)
  {
  }

  /** After `createArtifact` the button opens the new artifact, under its title or "Untitled Artifact". */
  lemma ButtonAfterCreate(v: View, d: Draft, id: string, now: string, newRef: JsValue.Ref)
    requires newRef != v.artifacts.ref
    ensures LastArtifactButton(CreateArtifact(v, d, id, now, newRef)) == Button(false, "Open " + OrElse(d.title, "Untitled Artifact"))
  {
  }
}

=== FILE: base.dfy ===
/**
 * Small failure-carrying datatypes shared by every module of the model.
 * `Option` stands for a JavaScript value that may be `null`/`undefined` (or a
 * Python `None`); `Result` stands for an operation that may throw.
 */
module Base {

  datatype Option<+T> = None | Some(value: T) {

    /** The wrapped value, or `default` when there is none. */
    function GetOr(default: T): T {
      match this
      case Some(v) => v
      case None => default
    }
  }

  datatype Result<+T, +E> = Ok(value: T) | Err(error: E) {

    predicate IsFailure() {
      Err?
    }

    function PropagateFailure<U>(): Result<U, E>
      requires Err?
    {
      Err(error)
    }

    function Extract(): T
      requires Ok?
    {
      value
    }
  }
}

=== FILE: chat.dfy ===
/**
 * The chat feature's list logic: creating and opening a chat, storing a
 * message, the metadata written after a reply, deleting and renaming, the
 * sidebar's slice. The history's search filter is `ChatFilter`.
 *
 * Ids, clock readings and the locale time label are parameters; so is the
 * user's answer to a confirmation or rename dialog.
 *
 * The source changes the stored chat array in place and writes that same
 * array back, so the store's subscribers (the chat history) hear of none of
 * these writes. `AddMessage` is modelled that way, since the history does not
 * show messages. For creating, summarizing, renaming and the project chat the
 * `...AsWritten` members are the in-place writes, and the members without the
 * suffix write a new array, so that the history is re-rendered.
 */
module Chats {
  import opened Base
  import opened Text
  import JsValue
  import FeatureList

  datatype Message = Message(id: string, role: string, content: string, timestamp: string)

  /** A chat record; a chat started from a project has no `messages` until the first one is stored. */
  datatype Chat = Chat(
    id: string,
    title: string,
    lastMessage: string,
    timestamp: string,
    projectId: Option<string>,
    knowledgeBase: Option<string>,
    messages: Option<seq<Message>>)

  datatype ChatState = ChatState(chats: FeatureList.Stored<Chat>, currentChatId: Option<string>)

  function WithId(id: string): Chat -> bool {
    (c: Chat) => c.id == id
  }

  /** `if (this.currentChatId)`: an empty id is falsy. */
  predicate HasCurrent(st: ChatState) {
    st.currentChatId.Some? && st.currentChatId.value != ""
  }

  const DefaultTitlePrefix: string := "New Chat"

  function NewChat(id: string, timeLabel: string, now: string): Chat {
    Chat(id, DefaultTitlePrefix + " " + timeLabel, "No messages yet", now, None, None, Some([]))
  }

  /** `createNewChat()` as the source writes it: `unshift` on the stored array. */
  function CreateNewChatAsWritten(st: ChatState, id: string, timeLabel: string, now: string): (r: ChatState)
    ensures r.chats.items == [NewChat(id, timeLabel, now)] + st.chats.items
    ensures !FeatureList.Notifies(st.chats, r.chats)
  {
    ChatState(FeatureList.UnshiftInPlace(st.chats, NewChat(id, timeLabel, now)), Some(id))
  }

  /** `createNewChat()`: the new chat comes first, with no messages, and is opened. */
  function CreateNewChat(st: ChatState, id: string, timeLabel: string, now: string, newRef: JsValue.Ref): (r: ChatState)
    requires newRef != st.chats.ref
    ensures |r.chats.items| == |st.chats.items| + 1
    ensures r.chats.items[0].id == id && r.chats.items[0].messages == Some([])
    ensures StartsWith(r.chats.items[0].title, DefaultTitlePrefix)
    ensures r.chats.items[1..] == st.chats.items
    ensures r.currentChatId == Some(id)
    ensures FeatureList.Notifies(st.chats, r.chats)
  {
    var c := NewChat(id, timeLabel, now);
    assert StartsWith(c.title, DefaultTitlePrefix) by {
      assert c.title[..|DefaultTitlePrefix|] == DefaultTitlePrefix;
    }
    ChatState(FeatureList.WriteNew(st.chats, [c] + st.chats.items, newRef), Some(id))
  }

  /** The message list with `m` added, created when the chat had none. */
  function WithMessage(c: Chat, m: Message): (r: Chat)
    ensures r.messages.Some?
    ensures r.messages.value == (if c.messages.Some? then c.messages.value else []) + [m]
    ensures r.(messages := c.messages) == c
  {
    var before := if c.messages.Some? then c.messages.value else [];
    c.(messages := Some(before + [m]))
  }

  /** `addMessage(role, content)`: stored in the current chat, if there is one and it exists, in place. */
  function AddMessage(st: ChatState, role: string, content: string, messageId: string, now: string): (r: ChatState)
    ensures r.currentChatId == st.currentChatId
    ensures !HasCurrent(st) || FeatureList.FindIndex(st.chats.items, WithId(st.currentChatId.value)).None? ==> r == st
    ensures HasCurrent(st) && FeatureList.FindIndex(st.chats.items, WithId(st.currentChatId.value)).Some? ==>
      r.chats.items == FeatureList.UpdateFirst(st.chats.items, WithId(st.currentChatId.value),
                                               (c: Chat) => WithMessage(c, Message(messageId, role, content, now)))
      && !FeatureList.Notifies(st.chats, r.chats)
  {
    if !HasCurrent(st) then st
    else
      var find := WithId(st.currentChatId.value);
      if FeatureList.FindIndex(st.chats.items, find).None? then st
      else
        var m := Message(messageId, role, content, now);
        var items := FeatureList.UpdateFirst(st.chats.items, find, (c: Chat) => WithMessage(c, m));
        st.(chats := FeatureList.MutateInPlace(st.chats, items))
  }

  /** A stored message lands at the end of the current chat's list; nothing else changes. */
  lemma AddMessageAppends(st: ChatState, role: string, content: string, messageId: string, now: string)
    requires HasCurrent(st)
    requires FeatureList.FindIndex(st.chats.items, WithId(st.currentChatId.value)).Some?
    ensures var i := FeatureList.FindIndex(st.chats.items, WithId(st.currentChatId.value)).value;
      var r := AddMessage(st, role, content, messageId, now);
      var before := st.chats.items[i].messages;
      |r.chats.items| == |st.chats.items|
      && r.chats.items[i].messages.Some?
      && r.chats.items[i].messages.value ==
           (if before.Some? then before.value else []) + [Message(messageId, role, content, now)]
      && (forall j :: 0 <= j < |st.chats.items| && j != i ==> r.chats.items[j] == st.chats.items[j])
  {
  }

  /** The title a reply gives a chat still called "New Chat...": the first 30 characters, marked when cut. */
  function TitleFrom(userMessage: string): (t: string)
    ensures |userMessage| <= 30 ==> t == userMessage
    ensures |userMessage| > 30 ==> t == userMessage[..30] + "..."
  {
    Take(userMessage, 30) + (if |userMessage| > 30 then "..." else "")
  }

  function Summarized(c: Chat, userMessage: string, aiResponse: string, now: string): Chat {
    c.(lastMessage := "AI: " + Take(aiResponse, 50) + "...",
       timestamp := now,
       title := if StartsWith(c.title, DefaultTitlePrefix) then TitleFrom(userMessage) else c.title)
  }

  function Summarizer(userMessage: string, aiResponse: string, now: string): Chat -> Chat {
    (c: Chat) => Summarized(c, userMessage, aiResponse, now)
  }

  /** Whether `st` has a current chat that the list holds. */
  predicate CurrentFound(st: ChatState) {
    HasCurrent(st) && FeatureList.FindIndex(st.chats.items, WithId(st.currentChatId.value)).Some?
  }

  /** `updateChatMetadata(userMessage, aiResponse)` as written: the current chat changed in place, the same array written back. */
  function UpdateChatMetadataAsWritten(st: ChatState, userMessage: string, aiResponse: string, now: string): (r: ChatState)
    ensures !CurrentFound(st) ==> r == st
    ensures CurrentFound(st) ==>
      r.chats.items == FeatureList.UpdateFirst(st.chats.items, WithId(st.currentChatId.value), Summarizer(userMessage, aiResponse, now))
      && !FeatureList.Notifies(st.chats, r.chats)
  {
    if !CurrentFound(st) then st
    else
      var items := FeatureList.UpdateFirst(st.chats.items, WithId(st.currentChatId.value), Summarizer(userMessage, aiResponse, now));
      st.(chats := FeatureList.MutateInPlace(st.chats, items))
  }

  /** `updateChatMetadata(userMessage, aiResponse)` for the current chat, written back as a new array. */
  function UpdateChatMetadata(st: ChatState, userMessage: string, aiResponse: string, now: string, newRef: JsValue.Ref): (r: ChatState)
    requires newRef != st.chats.ref
    ensures !CurrentFound(st) ==> r == st
    ensures r.currentChatId == st.currentChatId && |r.chats.items| == |st.chats.items|
    ensures CurrentFound(st) ==>
      r.chats.items == FeatureList.UpdateFirst(st.chats.items, WithId(st.currentChatId.value), Summarizer(userMessage, aiResponse, now))
      && FeatureList.Notifies(st.chats, r.chats)
  {
    if !CurrentFound(st) then st
    else
      var items := FeatureList.UpdateFirst(st.chats.items, WithId(st.currentChatId.value), Summarizer(userMessage, aiResponse, now));
      st.(chats := FeatureList.WriteNew(st.chats, items, newRef))
  }

  /**
   * After a reply, the current chat's last message is "AI: " with at most 50
   * characters of the reply and "...", its timestamp is the reply's time, its
   * title changes only while it still starts with "New Chat", and no other
   * chat changes.
   */
  lemma MetadataAfterReply(st: ChatState, userMessage: string, aiResponse: string, now: string, newRef: JsValue.Ref)
    requires newRef != st.chats.ref && CurrentFound(st)
    ensures var i := FeatureList.FindIndex(st.chats.items, WithId(st.currentChatId.value)).value;
      var c := st.chats.items[i];
      var r := UpdateChatMetadata(st, userMessage, aiResponse, now, newRef).chats.items;
      var d := r[i];
      StartsWith(d.lastMessage, "AI: ") && EndsWith(d.lastMessage, "...")
      && d.lastMessage[4..|d.lastMessage| - 3] == Take(aiResponse, 50)
      && d.timestamp == now
      && (StartsWith(c.title, DefaultTitlePrefix) ==> d.title == TitleFrom(userMessage))
      && (!StartsWith(c.title, DefaultTitlePrefix) ==> d.title == c.title)
      && d.id == c.id && d.messages == c.messages
      && |r| == |st.chats.items|
      && (forall j :: 0 <= j < |st.chats.items| && j != i ==> r[j] == st.chats.items[j])
  {
    var i := FeatureList.FindIndex(st.chats.items, WithId(st.currentChatId.value)).value;
    var d := UpdateChatMetadata(st, userMessage, aiResponse, now, newRef).chats.items[i];
    var t := Take(aiResponse, 50);
    assert d == Summarized(st.chats.items[i], userMessage, aiResponse, now);
    assert d.lastMessage == "AI: " + t + "...";
    assert d.lastMessage[..4] == "AI: ";
    assert d.lastMessage[|d.lastMessage| - 3..] == "...";
    assert d.lastMessage[4..|d.lastMessage| - 3] == t;
  }

  /** The source's summary write and the corrected one store the same chats; only the corrected one is heard. */
  lemma MetadataAsWrittenSilent(st: ChatState, userMessage: string, aiResponse: string, now: string, newRef: JsValue.Ref)
    requires newRef != st.chats.ref && CurrentFound(st)
    ensures var w := UpdateChatMetadataAsWritten(st, userMessage, aiResponse, now);
      var r := UpdateChatMetadata(st, userMessage, aiResponse, now, newRef);
      w.chats.items == r.chats.items && !FeatureList.Notifies(st.chats, w.chats) && FeatureList.Notifies(st.chats, r.chats)
  {
  }

  /** `deleteChat(id)` after the user answered the confirmation. */
  function DeleteChat(st: ChatState, id: string, confirmed: bool, newRef: JsValue.Ref): (r: ChatState)
    requires newRef != st.chats.ref
    ensures FeatureList.FindIndex(st.chats.items, WithId(id)).None? || !confirmed ==> r == st
    ensures forall c :: c in r.chats.items ==> c in st.chats.items
  {
    if FeatureList.FindIndex(st.chats.items, WithId(id)).None? || !confirmed then st
    else
      var rest := FeatureList.RemoveAll(st.chats.items, WithId(id));
      var current := if st.currentChatId == Some(id) then None else st.currentChatId;
      ChatState(FeatureList.WriteNew(st.chats, rest, newRef), current)
  }

  /** A confirmed delete removes exactly the chats with that id and leaves no current chat pointing at it. */
  lemma DeleteChatRemoves(st: ChatState, id: string, newRef: JsValue.Ref)
    requires newRef != st.chats.ref
    requires FeatureList.FindIndex(st.chats.items, WithId(id)).Some?
    ensures var r := DeleteChat(st, id, true, newRef);
      (forall c :: c in r.chats.items <==> c in st.chats.items && c.id != id)
      && |r.chats.items| < |st.chats.items|
      && r.currentChatId == (if st.currentChatId == Some(id) then None else st.currentChatId)
  {
  }

  function Retitled(title: string): Chat -> Chat {
    (c: Chat) => c.(title := title)
  }

  /** `renameChat(id, title)` as written: the chat retitled in place, the same array written back. */
  function RenameChatAsWritten(st: ChatState, id: string, title: string): (r: ChatState)
    ensures FeatureList.FindIndex(st.chats.items, WithId(id)).None? ==> r == st
    ensures FeatureList.FindIndex(st.chats.items, WithId(id)).Some? ==>
      r.chats.items == FeatureList.UpdateFirst(st.chats.items, WithId(id), Retitled(title))
      && r.currentChatId == st.currentChatId && !FeatureList.Notifies(st.chats, r.chats)
  {
    if FeatureList.FindIndex(st.chats.items, WithId(id)).None? then st
    else st.(chats := FeatureList.MutateInPlace(st.chats, FeatureList.UpdateFirst(st.chats.items, WithId(id), Retitled(title))))
  }

  /** `renameChat(id, title)`: the first chat with that id takes the title, as a new array; nothing else changes. */
  function RenameChat(st: ChatState, id: string, title: string, newRef: JsValue.Ref): (r: ChatState)
    requires newRef != st.chats.ref
    ensures r.currentChatId == st.currentChatId
    ensures FeatureList.FindIndex(st.chats.items, WithId(id)).None? ==> r == st
    ensures FeatureList.FindIndex(st.chats.items, WithId(id)).Some? ==>
      var i := FeatureList.FindIndex(st.chats.items, WithId(id)).value;
      |r.chats.items| == |st.chats.items|
      && r.chats.items[i] == st.chats.items[i].(title := title)
      && (forall j :: 0 <= j < |st.chats.items| && j != i ==> r.chats.items[j] == st.chats.items[j])
      && FeatureList.Notifies(st.chats, r.chats)
  {
    if FeatureList.FindIndex(st.chats.items, WithId(id)).None? then st
    else st.(chats := FeatureList.WriteNew(st.chats, FeatureList.UpdateFirst(st.chats.items, WithId(id), Retitled(title)), newRef))
  }

  /** The source's rename and the corrected one store the same chats; only the corrected one is heard. */
  lemma RenameAsWrittenSilent(st: ChatState, id: string, title: string, newRef: JsValue.Ref)
    requires newRef != st.chats.ref && FeatureList.FindIndex(st.chats.items, WithId(id)).Some?
    ensures var w := RenameChatAsWritten(st, id, title);
      var r := RenameChat(st, id, title, newRef);
      w.chats.items == r.chats.items && !FeatureList.Notifies(st.chats, w.chats) && FeatureList.Notifies(st.chats, r.chats)
  {
  }

  /** The rename dialog: a cancelled, empty or blank answer changes nothing; any other is trimmed. */
  function RenameFromPrompt(st: ChatState, id: string, answer: Option<string>, newRef: JsValue.Ref): (r: ChatState)
    requires newRef != st.chats.ref
    ensures answer.None? ==> r == st
    ensures answer.Some? && (forall i :: 0 <= i < |answer.value| ==> IsJsWhitespace(answer.value[i])) ==> r == st
    ensures answer.Some? && Trim(answer.value) != "" ==> r == RenameChat(st, id, Trim(answer.value), newRef)
  {
    TrimEmptyIff(if answer.Some? then answer.value else "");
    match answer
    case None => st
    case Some(a) => if a != "" && Trim(a) != "" then RenameChat(st, id, Trim(a), newRef) else st
  }

  /** The sidebar lists the first five chats. */
  function Sidebar(chats: seq<Chat>): (r: seq<Chat>)
    ensures |r| == if |chats| < 5 then |chats| else 5
    ensures r == chats[..|r|]
  {
    if |chats| <= 5 then chats else chats[..5]
  }
}

=== FILE: chat_filter.dfy ===
/**
 * The chat history's search box (`filterChats`): which history rows stay
 * visible for a query. The rows' title and subtitle texts stand for the
 * rendered items the source looks up.
 */
module ChatFilter {
  import opened Text

  /** One history row as the filter sees it: its title and subtitle text. */
  datatype Row = Row(title: string, subtitle: string)

  /** `title.includes(q) || subtitle.includes(q)` on the lower-cased row. */
  predicate RowIncludes(r: Row, q: string) {
    Contains(Lower(r.title), q) || Contains(Lower(r.subtitle), q)
  }

  lemma RowIncludesOccurs(r: Row, q: string)
    ensures RowIncludes(r, q) <==>
      Occurs(Lower(r.title), q) || Occurs(Lower(r.subtitle), q)
  {
    ContainsIffOccurs(Lower(r.title), q);
    assert Contains(Lower(r.title), q) <==> exists k :: OccursAt(Lower(r.title), q, k);
    ContainsIffOccurs(Lower(r.subtitle), q);
    assert Contains(Lower(r.subtitle), q) <==> exists k :: OccursAt(Lower(r.subtitle), q, k);
  }

  /**
   * `filterChats(query)`: a row stays visible when the lower-cased query
   * occurs somewhere in its lower-cased title or subtitle.
   */
  function FilterChats(rows: seq<Row>, query: string): (shown: seq<bool>)
    ensures |shown| == |rows|
    ensures forall i :: 0 <= i < |rows| ==>
      (shown[i] <==>
        Occurs(Lower(rows[i].title), Lower(query)) ||
        Occurs(Lower(rows[i].subtitle), Lower(query)))
  {
    var q := Lower(query);
    var shown := seq(|rows|, i requires 0 <= i < |rows| => RowIncludes(rows[i], q));
    assert forall i :: 0 <= i < |rows| ==> (shown[i] <==> RowIncludes(rows[i], q));
    RowsIncludeOccurs(rows, q);
    shown
  }

  lemma RowsIncludeOccurs(rows: seq<Row>, q: string)
    ensures forall i :: 0 <= i < |rows| ==> (RowIncludes(rows[i], q) <==>
      Occurs(Lower(rows[i].title), q) || Occurs(Lower(rows[i].subtitle), q))
  {
    forall i | 0 <= i < |rows| ensures RowIncludes(rows[i], q) <==>
      Occurs(Lower(rows[i].title), q) || Occurs(Lower(rows[i].subtitle), q)
    {
      RowIncludesOccurs(rows[i], q);
    }
  }

  /** An empty query shows every row. */
  lemma EmptyQueryShowsAll(rows: seq<Row>)
    ensures forall i :: 0 <= i < |rows| ==> FilterChats(rows, "")[i]
  {
    forall i | 0 <= i < |rows| ensures FilterChats(rows, "")[i] {
      assert OccursAt(Lower(rows[i].title), Lower(""), 0);
    }
  }

  /** Typing more can only hide rows: a row shown for a query is shown for every prefix of it. */
  lemma FilterNarrows(rows: seq<Row>, query: string, pre: string, i: int)
    requires StartsWith(query, pre) && 0 <= i < |rows| && FilterChats(rows, query)[i]
    ensures FilterChats(rows, pre)[i]
  {
    var q, p := Lower(query), Lower(pre);
    assert p == q[..|p|];
    if Occurs(Lower(rows[i].title), q) {
      var k :| OccursAt(Lower(rows[i].title), q, k);
      OccursAtPrefix(Lower(rows[i].title), q, p, k);
    } else {
      var k :| OccursAt(Lower(rows[i].subtitle), q, k);
      OccursAtPrefix(Lower(rows[i].subtitle), q, p, k);
    }
  }

  /** A row whose title equals the query, ignoring case, is shown. */
  lemma TitleMatchShown(rows: seq<Row>, query: string, i: int)
    requires 0 <= i < |rows| && Lower(rows[i].title) == Lower(query)
    ensures FilterChats(rows, query)[i]
  {
    var t := Lower(rows[i].title);
    assert t[0..|t|] == t;
    assert OccursAt(t, Lower(query), 0);
  }

  /** The filter ignores the query's case: upper- or lower-casing it shows the same rows. */
  lemma FilterIgnoresCase(rows: seq<Row>, query: string)
    ensures FilterChats(rows, Upper(query)) == FilterChats(rows, query)
    ensures FilterChats(rows, Lower(query)) == FilterChats(rows, query)
  {
    LowerOfUpper(query);
    LowerOfLower(query);
  }
}

=== FILE: dot_path.dfy ===
/**
 * Dot-notation paths into nested objects (`'user.name'`, `'plugins.enabled'`),
 * as both the shared helpers (`get`, `set`, `unset`) and the state store walk
 * them. A path is split on every `.`; reading stops with the default at the
 * first `null`, `undefined` or missing key, writing replaces every missing or
 * non-object step by a new empty object, and deleting gives up at the first
 * missing or non-object step.
 */
module DotPath {
  import opened Base
  import opened Text
  import opened JsValue

  function Keys(path: string): (keys: seq<string>)
    ensures |keys| >= 1
  {
    Split(path, '.')
  }

  /** The read loop: `in` on a non-object throws, anything missing gives `default`. */
  function GetKeys(v: Value, keys: seq<string>, default: Value): Result<Value, JsError>
    decreases |keys|
  {
    if |keys| == 0 then Ok(v)
    else if v.Null? || v.Undefined? then Ok(default)
    else match HasProp(v, keys[0])
      case Err(e) => Err(e)
      case Ok(has) => if has then GetKeys(Lookup(v, keys[0]), keys[1..], default) else Ok(default)
  }

  function Get(root: Value, path: string, default: Value): Result<Value, JsError> {
    GetKeys(root, Keys(path), default)
  }

  /** The steps of `keys` all exist, through objects and arrays, down to the last key. */
  predicate Present(v: Value, keys: seq<string>)
    decreases |keys|
  {
    |keys| >= 1 && HasProp(v, keys[0]) == Ok(true) &&
    (|keys| == 1 || (IsObject(Lookup(v, keys[0])) && Present(Lookup(v, keys[0]), keys[1..])))
  }

  /** The container the write loop ends in for a step that is missing or not an object. */
  function StepChild(cur: Value, k: string, stamp: nat, at: seq<string>): (child: Value)
    ensures IsObject(child)
  {
    if HasProp(cur, k) == Ok(true) && IsObject(Lookup(cur, k)) then Lookup(cur, k)
    else Obj(Ref(stamp, at + [k]), map[])
  }

  /**
   * The write loop, giving the updated object and the value the last key held
   * before (`undefined` when it was missing). Objects on the way keep their
   * references; the ones it creates get `Ref(stamp, <their path>)`.
   */
  function SetKeys(cur: Value, keys: seq<string>, x: Value, stamp: nat, at: seq<string>): (r: Result<(Value, Value), JsError>)
    requires |keys| >= 1
    ensures r.Ok? ==> IsObject(cur) && IsObject(r.value.0) && r.value.0.ref == cur.ref
    decreases |keys|
  {
    var k := keys[0];
    if |keys| == 1 then
      match PutProp(cur, k, x)
      case Err(e) => Err(e)
      case Ok(updated) => Ok((updated, Lookup(cur, k)))
    else match HasProp(cur, k)
      case Err(e) => Err(e)
      case Ok(_) =>
        match SetKeys(StepChild(cur, k, stamp, at), keys[1..], x, stamp, at + [k])
        case Err(e) => Err(e)
        case Ok((child, prev)) =>
          match PutProp(cur, k, child)
          case Err(e) => Err(e)
          case Ok(updated) => Ok((updated, prev))
  }

  /** `set(obj, path, value)`: the object after the write and the previous value at the path. */
  function Set(root: Value, path: string, x: Value, stamp: nat): Result<(Value, Value), JsError> {
    SetKeys(root, Keys(path), x, stamp, [])
  }

  /** The delete loop: whether a property was removed, and the object afterwards. */
  function UnsetKeys(cur: Value, keys: seq<string>): (r: Result<(bool, Value), JsError>)
    requires |keys| >= 1
    ensures r.Ok? ==> IsObject(cur) && IsObject(r.value.1) && r.value.1.ref == cur.ref
    ensures r.Ok? && !r.value.0 ==> r.value.1 == cur
    decreases |keys|
  {
    var k := keys[0];
    match HasProp(cur, k)
    case Err(e) => Err(e)
    case Ok(has) =>
      if |keys| == 1 then
        if !has then Ok((false, cur))
        else if cur.Obj? then Ok((true, DeleteProp(cur, k)))
        else if k == "length" then Err(TypeError)
        else Err(Unsupported)
      else if !has || !IsObject(Lookup(cur, k)) then Ok((false, cur))
      else match UnsetKeys(Lookup(cur, k), keys[1..])
        case Err(e) => Err(e)
        case Ok((removed, child)) =>
          if !removed then Ok((false, cur))
          else match PutProp(cur, k, child)
            case Err(e) => Err(e)
            case Ok(updated) => Ok((true, updated))
  }

  function Unset(root: Value, path: string): Result<(bool, Value), JsError> {
    UnsetKeys(root, Keys(path))
  }

  // ---------------------------------------------------------------- properties

  /** Reading a path after writing it gives the value written. */
  lemma {:induction false} GetAfterSetKeys(cur: Value, keys: seq<string>, x: Value, stamp: nat, at: seq<string>, d: Value)
    requires |keys| >= 1 && SetKeys(cur, keys, x, stamp, at).Ok?
    ensures GetKeys(SetKeys(cur, keys, x, stamp, at).value.0, keys, d) == Ok(x)
    decreases |keys|
  {
    var k := keys[0];
    var updated := SetKeys(cur, keys, x, stamp, at).value.0;
    assert GetKeys(updated, keys, d) == GetKeys(Lookup(updated, k), keys[1..], d);
    if |keys| > 1 {
      GetAfterSetKeys(StepChild(cur, k, stamp, at), keys[1..], x, stamp, at + [k], d);
    }
  }

  lemma GetAfterSet(root: Value, path: string, x: Value, stamp: nat, d: Value)
    requires Set(root, path, x, stamp).Ok?
    ensures Get(Set(root, path, x, stamp).value.0, path, d) == Ok(x)
  {
    GetAfterSetKeys(root, Keys(path), x, stamp, [], d);
  }

  /** The previous value the write reports is what reading the path gave before. */
  lemma {:induction false} SetKeysOldValue(cur: Value, keys: seq<string>, x: Value, stamp: nat, at: seq<string>)
    requires |keys| >= 1 && SetKeys(cur, keys, x, stamp, at).Ok? && GetKeys(cur, keys, Undefined).Ok?
    ensures SetKeys(cur, keys, x, stamp, at).value.1 == GetKeys(cur, keys, Undefined).value
    decreases |keys|
  {
    var k := keys[0];
    if |keys| > 1 {
      var child := StepChild(cur, k, stamp, at);
      if HasProp(cur, k) == Ok(true) && IsObject(Lookup(cur, k)) {
        SetKeysOldValue(child, keys[1..], x, stamp, at + [k]);
      } else {
        FreshStepOld(child, keys[1..], x, stamp, at + [k]);
        if HasProp(cur, k) == Ok(true) {
          GetKeysNonObject(Lookup(cur, k), keys[1..]);
        }
      }
    }
  }

  /** Writing into a new empty object reports `undefined` as the previous value. */
  lemma {:induction false} FreshStepOld(child: Value, keys: seq<string>, x: Value, stamp: nat, at: seq<string>)
    requires |keys| >= 1 && child.Obj? && child.props == map[]
    requires SetKeys(child, keys, x, stamp, at).Ok?
    ensures SetKeys(child, keys, x, stamp, at).value.1 == Undefined
    decreases |keys|
  {
    if |keys| > 1 {
      FreshStepOld(StepChild(child, keys[0], stamp, at), keys[1..], x, stamp, at + [keys[0]]);
    }
  }

  /** Reading on through a value that is not an object either throws or yields the default. */
  lemma GetKeysNonObject(v: Value, keys: seq<string>)
    requires |keys| >= 1 && !IsObject(v) && GetKeys(v, keys, Undefined).Ok?
    ensures GetKeys(v, keys, Undefined).value == Undefined
  {
  }

  /** A write leaves the other top-level properties of an object as they were. */
  lemma SetOtherTopLevel(root: Value, path: string, x: Value, stamp: nat, other: string, d: Value)
    requires root.Obj? && Set(root, path, x, stamp).Ok?
    requires Keys(other)[0] != Keys(path)[0]
    ensures Get(Set(root, path, x, stamp).value.0, other, d) == Get(root, other, d)
  {
    var updated := Set(root, path, x, stamp).value.0;
    var k := Keys(path)[0];
    var j := Keys(other)[0];
    assert updated.Obj? && updated.props == root.props[k := updated.props[k]];
    assert HasProp(updated, j) == HasProp(root, j);
    assert Lookup(updated, j) == Lookup(root, j);
  }

  /** A delete reports removal exactly when the path was there. */
  lemma {:induction false} UnsetKeysIffPresent(cur: Value, keys: seq<string>)
    requires |keys| >= 1 && UnsetKeys(cur, keys).Ok?
    ensures UnsetKeys(cur, keys).value.0 <==> Present(cur, keys)
    decreases |keys|
  {
    if |keys| > 1 && HasProp(cur, keys[0]) == Ok(true) && IsObject(Lookup(cur, keys[0])) {
      UnsetKeysIffPresent(Lookup(cur, keys[0]), keys[1..]);
    }
  }

  /** After a delete the path is gone, so reading it gives the default. */
  lemma {:induction false} GetAfterUnsetKeys(cur: Value, keys: seq<string>, d: Value)
    requires |keys| >= 1 && UnsetKeys(cur, keys).Ok? && UnsetKeys(cur, keys).value.0
    ensures !Present(UnsetKeys(cur, keys).value.1, keys)
    ensures GetKeys(UnsetKeys(cur, keys).value.1, keys, d) == Ok(d)
    decreases |keys|
  {
    var k := keys[0];
    var after := UnsetKeys(cur, keys).value.1;
    if |keys| > 1 {
      var child := UnsetKeys(Lookup(cur, k), keys[1..]).value.1;
      GetAfterUnsetKeys(Lookup(cur, k), keys[1..], d);
      assert Lookup(after, k) == child;
      assert HasProp(after, k) == Ok(true);
    }
  }

  lemma UnsetIffPresent(root: Value, path: string, d: Value)
    requires Unset(root, path).Ok?
    ensures Unset(root, path).value.0 <==> Present(root, Keys(path))
    ensures Unset(root, path).value.0 ==> Get(Unset(root, path).value.1, path, d) == Ok(d)
  {
    UnsetKeysIffPresent(root, Keys(path));
    if Unset(root, path).value.0 {
      GetAfterUnsetKeys(root, Keys(path), d);
    }
  }

  // ---------------------------------------------------------------- prefix wildcards

  /** The prefix wildcards of a dotted name, as listeners subscribe to them: `a.*`, `a.b.*`, … one per segment. */
  function WildcardKeys(path: string): (keys: seq<string>)
    ensures |keys| == |Split(path, '.')|
    ensures forall i :: 0 <= i < |keys| ==> keys[i] == Join(Split(path, '.')[..i + 1], ".") + ".*"
  {
    var parts := Split(path, '.');
    seq(|parts|, i requires 0 <= i < |parts| => Join(parts[..i + 1], ".") + ".*")
  }

  /** The wildcard for segment `i` names the path up to the end of that segment. */
  lemma WildcardIsPrefix(path: string, i: nat)
    requires i < |Split(path, '.')|
    ensures var key := WildcardKeys(path)[i];
      EndsWith(key, ".*") && StartsWith(path, key[..|key| - 2]) &&
      (|key| - 2 == |path| || path[|key| - 2] == '.')
  {
    var parts := Split(path, '.');
    var key := WildcardKeys(path)[i];
    var front := Join(parts[..i + 1], ".");
    assert key == front + ".*";
    assert key[..|key| - 2] == front;
    assert key[|key| - 2..] == ".*";
    JoinSplit(path, '.');
    if i + 1 < |parts| {
      assert parts == parts[..i + 1] + parts[i + 1..];
      JoinAppend(parts[..i + 1], parts[i + 1..], ".");
      assert path == front + "." + Join(parts[i + 1..], ".");
      assert path[..|front|] == front;
    } else {
      assert parts[..i + 1] == parts;
      assert path == front;
    }
  }

  /** A prefix wildcard always ends in `.*`, so it is never the bare `*`. */
  lemma WildcardNotStar(path: string, i: nat)
    requires i < |Split(path, '.')|
    ensures WildcardKeys(path)[i] != "*"
  {
    var key := WildcardKeys(path)[i];
    assert |key| >= 2;
  }
}

=== FILE: event_bus.dfy ===
/**
 * The event bus (`EventBus`): per-event sets of listener wrappers, emitted in
 * descending priority, with once-listeners and dotted prefix wildcards.
 *
 * Every `on` creates a new wrapper object, so a bus holds wrappers, each with
 * its own identity, and the same callback may be wrapped several times.
 * Whether a listener throws during an emit is a parameter (the set of wrappers
 * that throw); what listeners do besides is outside the model.
 */
module EventBus {
  import opened Base
  import opened Text
  import opened Lists
  import DotPath
  import JsValue

  type Callback = nat

  datatype Wrapper = Wrapper(id: nat, callback: Callback, once: bool, priority: int)

  /** The event map, and the identity the next wrapper gets. */
  datatype Bus = Bus(events: map<string, seq<Wrapper>>, next: nat)

  /**
   * One listener call: the set it was taken from, the wrapper, and whether the
   * event name was passed first (as it is to wildcard listeners).
   */
  datatype Invocation = Invocation(key: string, wrapper: Wrapper, withName: bool)

  /** What `emit` leaves behind: the bus, the calls in order, and its return value. */
  datatype Emitted = Emitted(bus: Bus, calls: seq<Invocation>, had: bool)

  /** Every wrapper set is non-empty and holds distinct wrappers with identities below `next`. */
  predicate Valid(b: Bus) {
    forall e :: e in b.events ==> ValidSet(b.events[e], b.next)
  }

  predicate ValidSet(ws: seq<Wrapper>, next: nat) {
    |ws| > 0 && (forall i :: 0 <= i < |ws| ==> ws[i].id < next) && DistinctIds(ws)
  }

  predicate DistinctIds(ws: seq<Wrapper>) {
    forall i, j :: 0 <= i < j < |ws| ==> ws[i].id != ws[j].id
  }

  function Wrappers(b: Bus, e: string): seq<Wrapper> {
    if e in b.events then b.events[e] else []
  }

  // ---------------------------------------------------------------- priority order

  /** Non-increasing priority. */
  predicate SortedByPriority(ws: seq<Wrapper>) {
    forall i, j :: 0 <= i < j < |ws| ==> ws[i].priority >= ws[j].priority
  }

  function WithPriority(p: int): Wrapper -> bool {
    (w: Wrapper) => w.priority == p
  }

  /** Puts `w` after every wrapper of at least its priority. */
  function Insert(w: Wrapper, ws: seq<Wrapper>): (r: seq<Wrapper>)
    ensures multiset(r) == multiset(ws) + multiset{w}
  {
    if |ws| == 0 then [w]
    else if ws[0].priority >= w.priority then
      assert ws == [ws[0]] + ws[1..];
      [ws[0]] + Insert(w, ws[1..])
    else [w] + ws
  }

  /** `listeners.sort((a, b) => b.priority - a.priority)`, which is stable. */
  function SortByPriority(ws: seq<Wrapper>): (r: seq<Wrapper>)
    ensures multiset(r) == multiset(ws)
  {
    if |ws| == 0 then []
    else
      var n := |ws| - 1;
      assert ws == ws[..n] + [ws[n]];
      Insert(ws[n], SortByPriority(ws[..n]))
  }

  lemma {:induction false} InsertSorted(w: Wrapper, ws: seq<Wrapper>)
    requires SortedByPriority(ws)
    ensures SortedByPriority(Insert(w, ws))
  {
    if |ws| > 0 && ws[0].priority >= w.priority {
      InsertSorted(w, ws[1..]);
      var r := Insert(w, ws);
      forall i, j | 0 <= i < j < |r| ensures r[i].priority >= r[j].priority {
        if i == 0 {
          assert r[j] in multiset(ws[1..]) + multiset{w};
          assert r[j] in ws[1..] || r[j] == w;
        }
      }
    }
  }

  /** Filtering a single wrapper. */
  lemma FilterOne(w: Wrapper, p: int)
    ensures Filter([w], WithPriority(p)) == if w.priority == p then [w] else []
  {
    assert [w][1..] == [];
  }

  /** Inserting keeps the wrappers of each priority in their order and puts `w` last among its own. */
  lemma {:induction false} InsertFilter(w: Wrapper, ws: seq<Wrapper>, p: int)
    requires SortedByPriority(ws)
    ensures Filter(Insert(w, ws), WithPriority(p)) == Filter(ws, WithPriority(p)) + (if w.priority == p then [w] else [])
    decreases |ws|, 1
  {
    FilterOne(w, p);
    if |ws| == 0 {
      assert Insert(w, ws) == [w];
      assert Filter(ws, WithPriority(p)) == [];
    } else if ws[0].priority >= w.priority {
      InsertFilterSkip(w, ws, p);
    } else {
      assert Insert(w, ws) == [w] + ws;
      FilterAppend([w], ws, WithPriority(p));
      if w.priority == p {
        FilterNone(ws, p);
      }
    }
  }

  /** The step of `InsertFilter` that passes over the head. */
  lemma {:induction false} InsertFilterSkip(w: Wrapper, ws: seq<Wrapper>, p: int)
    requires SortedByPriority(ws) && |ws| > 0 && ws[0].priority >= w.priority
    ensures Filter(Insert(w, ws), WithPriority(p)) == Filter(ws, WithPriority(p)) + (if w.priority == p then [w] else [])
    decreases |ws|, 0
  {
    var f := WithPriority(p);
    var head, tail := [ws[0]], ws[1..];
    var extra := if w.priority == p then [w] else [];
    SortedTail(ws);
    InsertFilter(w, tail, p);
    assert Insert(w, ws) == head + Insert(w, tail);
    FilterAppend(head, Insert(w, tail), f);
    assert ws == head + tail;
    FilterAppend(head, tail, f);
    SeqAssoc(Filter(head, f), Filter(tail, f), extra);
  }

  lemma SortedTail(ws: seq<Wrapper>)
    requires SortedByPriority(ws) && |ws| > 0
    ensures SortedByPriority(ws[1..])
  {
  }

  lemma SeqAssoc<T>(a: seq<T>, b: seq<T>, c: seq<T>)
    ensures a + (b + c) == (a + b) + c
  {
  }

  /** In a sorted list headed by a lower priority, no wrapper has priority `p`. */
  lemma FilterNone(ws: seq<Wrapper>, p: int)
    requires SortedByPriority(ws) && |ws| > 0 && ws[0].priority < p
    ensures Filter(ws, WithPriority(p)) == []
  {
    var r := Filter(ws, WithPriority(p));
    if |r| > 0 {
      FilterMembers(ws, WithPriority(p), r[0]);
    }
  }

  /**
   * The emit order: highest priority first, and wrappers of equal priority in
   * the order they were added.
   */
  lemma {:induction false} SortByPriorityStable(ws: seq<Wrapper>, p: int)
    ensures SortedByPriority(SortByPriority(ws))
    ensures Filter(SortByPriority(ws), WithPriority(p)) == Filter(ws, WithPriority(p))
  {
    SortByPrioritySorted(ws);
    if |ws| > 0 {
      var n, f := |ws| - 1, WithPriority(p);
      var front, last := ws[..n], ws[n];
      var s := SortByPriority(front);
      var extra := if last.priority == p then [last] else [];
      SortByPriorityStable(front, p);
      SortStep(ws);
      assert SortByPriority(ws) == Insert(last, s);
      InsertFilter(last, s, p);
      FrontLast(ws);
      FilterAppend(front, [last], f);
      FilterOne(last, p);
    }
  }

  lemma {:induction false} SortByPrioritySorted(ws: seq<Wrapper>)
    ensures SortedByPriority(SortByPriority(ws))
  {
    if |ws| > 0 {
      var n := |ws| - 1;
      SortByPrioritySorted(ws[..n]);
      SortStep(ws);
      InsertSorted(ws[n], SortByPriority(ws[..n]));
    }
  }

  /** The sort puts the last wrapper into the sorted rest. */
  lemma SortStep(ws: seq<Wrapper>)
    requires |ws| > 0
    ensures SortByPriority(ws) == Insert(ws[|ws| - 1], SortByPriority(ws[..|ws| - 1]))
  {
  }

  // ---------------------------------------------------------------- subscriptions

  /** The empty bus. */
  function NewBus(): (b: Bus)
    ensures Valid(b) && forall e :: ListenerCount(b, e) == 0
  {
    Bus(map[], 0)
  }

  /** `on(eventName, callback, {once, priority})`: a new wrapper joins the end of the event's set. */
  function On(b: Bus, name: string, cb: Callback, once: bool, priority: int): (r: Bus)
    ensures r.next == b.next + 1
    ensures Wrappers(r, name) == Wrappers(b, name) + [Wrapper(b.next, cb, once, priority)]
    ensures forall e :: e != name ==> Wrappers(r, e) == Wrappers(b, e)
  {
    Bus(b.events[name := Wrappers(b, name) + [Wrapper(b.next, cb, once, priority)]], b.next + 1)
  }

  /** `once(eventName, callback)`: `on` with `once` set and the default priority 0. */
  function Once(b: Bus, name: string, cb: Callback): (r: Bus)
    ensures Wrappers(r, name) == Wrappers(b, name) + [Wrapper(b.next, cb, true, 0)]
    ensures forall e :: e != name ==> Wrappers(r, e) == Wrappers(b, e)
  {
    On(b, name, cb, true, 0)
  }

  /** Position of the first wrapper holding `cb`, in insertion order. */
  function FindCallback(ws: seq<Wrapper>, cb: Callback): (r: Option<nat>)
    ensures r.Some? ==> (r.value < |ws| && ws[r.value].callback == cb &&
      forall i :: 0 <= i < r.value ==> ws[i].callback != cb)
    ensures r.None? ==> forall i :: 0 <= i < |ws| ==> ws[i].callback != cb
  {
    if |ws| == 0 then None
    else if ws[0].callback == cb then Some(0)
    else match FindCallback(ws[1..], cb)
      case Some(i) => Some(i + 1)
      case None => None
  }

  /** `off(eventName, callback)`: the first wrapper holding the callback leaves; an emptied set is dropped. */
  function Off(b: Bus, name: string, cb: Callback): (r: Bus)
    ensures r.next == b.next
    ensures forall e :: e != name ==> Wrappers(r, e) == Wrappers(b, e)
    ensures FindCallback(Wrappers(b, name), cb).None? ==> r == b
    ensures FindCallback(Wrappers(b, name), cb).Some? ==>
      var i := FindCallback(Wrappers(b, name), cb).value;
      Wrappers(r, name) == Wrappers(b, name)[..i] + Wrappers(b, name)[i + 1..]
  {
    if name !in b.events then b
    else
      var ws := b.events[name];
      match FindCallback(ws, cb)
      case None => b
      case Some(i) =>
        var rest := ws[..i] + ws[i + 1..];
        if |rest| == 0 then Bus(b.events - {name}, b.next)
        else Bus(b.events[name := rest], b.next)
  }

  /** `removeAllListeners(eventName)`: a name drops its own set; no name (or the empty one) drops them all. */
  function RemoveAllListeners(b: Bus, name: Option<string>): (r: Bus)
    ensures r.next == b.next
    ensures name.None? || name == Some("") ==> r.events == map[]
    ensures name.Some? && name.value != "" ==>
      Wrappers(r, name.value) == [] && forall e :: e != name.value ==> Wrappers(r, e) == Wrappers(b, e)
  {
    match name
    case Some(e) =>
      if e != "" then Bus(b.events - {e}, b.next) else Bus(map[], b.next)
    case None => Bus(map[], b.next)
  }

  /** `listenerCount(eventName)`. */
  function ListenerCount(b: Bus, name: string): (n: nat)
    ensures name !in b.events ==> n == 0
  {
    if name in b.events then |b.events[name]| else 0
  }

  /** Every operation keeps the bus well formed. */
  lemma OnValid(b: Bus, name: string, cb: Callback, once: bool, priority: int)
    requires Valid(b)
    ensures Valid(On(b, name, cb, once, priority))
  {
    var r := On(b, name, cb, once, priority);
    var ws := Wrappers(b, name);
    assert forall i :: 0 <= i < |ws| ==> ws[i].id < b.next;
    assert ValidSet(ws + [Wrapper(b.next, cb, once, priority)], r.next);
    forall e | e in r.events ensures ValidSet(r.events[e], r.next) {
      if e != name {
        assert ValidSet(b.events[e], b.next);
      }
    }
  }

  lemma OffValid(b: Bus, name: string, cb: Callback)
    requires Valid(b)
    ensures Valid(Off(b, name, cb))
  {
    if name in b.events && FindCallback(b.events[name], cb).Some? {
      var ws := b.events[name];
      var i := FindCallback(ws, cb).value;
      var rest := ws[..i] + ws[i + 1..];
      assert ValidSet(ws, b.next);
      forall x, y | 0 <= x < y < |rest| ensures rest[x].id != rest[y].id {
        var x' := if x < i then x else x + 1;
        var y' := if y < i then y else y + 1;
        assert rest[x] == ws[x'] && rest[y] == ws[y'];
      }
      assert forall x :: 0 <= x < |rest| ==> rest[x].id < b.next by {
        forall x | 0 <= x < |rest| ensures rest[x].id < b.next {
          var x' := if x < i then x else x + 1;
          assert rest[x] == ws[x'];
        }
      }
    }
  }

  /** The unsubscribe function `on` returns undoes the subscription when the callback was not listening already. */
  lemma OffUndoesOn(b: Bus, name: string, cb: Callback, once: bool, priority: int)
    requires Valid(b) && FindCallback(Wrappers(b, name), cb).None?
    ensures Off(On(b, name, cb, once, priority), name, cb).events == b.events
  {
    var r := On(b, name, cb, once, priority);
    var ws := Wrappers(b, name);
    var added := ws + [Wrapper(b.next, cb, once, priority)];
    assert r.events[name] == added;
    FindAppended(ws, Wrapper(b.next, cb, once, priority), cb);
    assert added[..|ws|] + added[|ws| + 1..] == ws;
    var o := Off(r, name, cb);
    if name in b.events {
      assert ValidSet(b.events[name], b.next);
      assert o == Bus(r.events[name := ws], r.next);
      assert b.events[name := ws] == b.events;
    } else {
      assert o.events == r.events - {name};
    }
  }

  lemma FindAppended(ws: seq<Wrapper>, w: Wrapper, cb: Callback)
    requires FindCallback(ws, cb).None? && w.callback == cb
    ensures FindCallback(ws + [w], cb) == Some(|ws|)
  {
    assert (ws + [w])[|ws|] == w;
    forall k | 0 <= k < |ws| ensures (ws + [w])[k].callback != cb {
      assert (ws + [w])[k] == ws[k];
    }
  }

  /** `listenerCount` follows `on`, `off` and `removeAllListeners`. */
  lemma ListenerCounts(b: Bus, name: string, other: string, cb: Callback, once: bool, priority: int)
    requires Valid(b) && other != name
    ensures ListenerCount(On(b, name, cb, once, priority), name) == ListenerCount(b, name) + 1
    ensures ListenerCount(Off(b, name, cb), name) ==
      if FindCallback(Wrappers(b, name), cb).Some? then ListenerCount(b, name) - 1 else ListenerCount(b, name)
    ensures name != "" ==> ListenerCount(RemoveAllListeners(b, Some(name)), other) == ListenerCount(b, other)
    ensures ListenerCount(RemoveAllListeners(b, Some(name)), name) == 0
  {
    var o := Off(b, name, cb);
    var ws := Wrappers(b, name);
    assert ListenerCount(o, name) == |Wrappers(o, name)|;
    if FindCallback(ws, cb).Some? {
      var i := FindCallback(ws, cb).value;
      assert |ws[..i] + ws[i + 1..]| == |ws| - 1;
    }
  }

  // ---------------------------------------------------------------- emit

  /** A wrapper stays after an emit unless it is a once-listener that returned normally. */
  function Stays(fails: set<nat>): Wrapper -> bool {
    (w: Wrapper) => !w.once || w.id in fails
  }

  function Invocations(key: string, ws: seq<Wrapper>, withName: bool): (r: seq<Invocation>)
    ensures |r| == |ws|
    ensures forall i :: 0 <= i < |r| ==> r[i] == Invocation(key, ws[i], withName)
  {
    seq(|ws|, i requires 0 <= i < |ws| => Invocation(key, ws[i], withName))
  }

  /** The wildcard phase: each wildcard set in turn, in insertion order (no priority sort). */
  function WildcardCalls(events: map<string, seq<Wrapper>>, keys: seq<string>): seq<Invocation> {
    if |keys| == 0 then []
    else
      (if keys[0] in events then Invocations(keys[0], events[keys[0]], true) else []) + WildcardCalls(events, keys[1..])
  }

  /**
   * `emit(eventName, ...args)`; `fails` are the wrappers whose callback
   * throws, which is caught and logged. Exact listeners run in priority
   * order, then once-listeners that returned are deleted, then the wildcard
   * sets `a.*`, `a.b.*`, … of the remaining map run with the name prepended.
   */
  function Emit(b: Bus, name: string, fails: set<nat>): Emitted {
    var exact := Wrappers(b, name);
    var kept := Filter(exact, Stays(fails));
    var events :=
      if name !in b.events then b.events
      else if |kept| == 0 then b.events - {name}
      else b.events[name := kept];
    var wild := WildcardCalls(events, DotPath.WildcardKeys(name));
    Emitted(Bus(events, b.next), Invocations(name, SortByPriority(exact), false) + wild, |exact| > 0 || |wild| > 0)
  }

  function WrappersOf(calls: seq<Invocation>): (ws: seq<Wrapper>)
    ensures |ws| == |calls| && forall i :: 0 <= i < |calls| ==> ws[i] == calls[i].wrapper
  {
    seq(|calls|, i requires 0 <= i < |calls| => calls[i].wrapper)
  }

  /**
   * The exact listeners are called first, without the name, highest priority
   * first and in registration order within a priority, each exactly once.
   */
  lemma EmitExactOrder(b: Bus, name: string, fails: set<nat>, p: int)
    ensures var calls := Emit(b, name, fails).calls;
      var n := |Wrappers(b, name)|;
      var order := WrappersOf(calls[..n]);
      && n <= |calls|
      && (forall i :: 0 <= i < n ==> !calls[i].withName)
      && multiset(order) == multiset(Wrappers(b, name))
      && SortedByPriority(order)
      && Filter(order, WithPriority(p)) == Filter(Wrappers(b, name), WithPriority(p))
  {
    var exact := Wrappers(b, name);
    var calls := Emit(b, name, fails).calls;
    var sorted := SortByPriority(exact);
    SortByPriorityStable(exact, p);
    assert WrappersOf(calls[..|exact|]) == sorted;
  }

  /** What an emit leaves: once-listeners of the name that returned are gone, every other set is untouched. */
  lemma EmitRemovesOnce(b: Bus, name: string, fails: set<nat>)
    requires Valid(b)
    ensures var r := Emit(b, name, fails).bus;
      && r.next == b.next
      && (forall e :: e != name ==> Wrappers(r, e) == Wrappers(b, e))
      && (forall w :: w in Wrappers(r, name) <==> w in Wrappers(b, name) && (!w.once || w.id in fails))
      && (name in r.events <==> exists w :: w in Wrappers(b, name) && (!w.once || w.id in fails))
  {
    var kept := Filter(Wrappers(b, name), Stays(fails));
    forall w ensures w in kept <==> w in Wrappers(b, name) && (!w.once || w.id in fails) {
      FilterMembers(Wrappers(b, name), Stays(fails), w);
    }
    if |kept| > 0 {
      assert kept[0] in kept;
    }
  }

  /** Once-listeners on the wildcard sets are never removed by an emit (unless the name is itself that wildcard). */
  lemma WildcardOnceKept(b: Bus, name: string, fails: set<nat>, i: nat)
    requires Valid(b) && i < |DotPath.WildcardKeys(name)| && !EndsWith(name, ".*")
    ensures Wrappers(Emit(b, name, fails).bus, DotPath.WildcardKeys(name)[i]) == Wrappers(b, DotPath.WildcardKeys(name)[i])
  {
    WildcardNotName(name, i);
    EmitRemovesOnce(b, name, fails);
  }

  /** Every wildcard key ends in `.*`, so it differs from a name that does not. */
  lemma WildcardNotName(name: string, i: nat)
    requires i < |DotPath.WildcardKeys(name)| && !EndsWith(name, ".*")
    ensures DotPath.WildcardKeys(name)[i] != name
  {
    DotPath.WildcardIsPrefix(name, i);
  }

  /** Exactly the wrappers of the consulted wildcard sets are called, all with the name. */
  lemma {:induction false} WildcardCallsMembers(events: map<string, seq<Wrapper>>, keys: seq<string>, c: Invocation)
    ensures c in WildcardCalls(events, keys) <==>
      c.withName && c.key in keys && c.key in events && c.wrapper in events[c.key]
  {
    if |keys| > 0 {
      WildcardCallsMembers(events, keys[1..], c);
      var head := if keys[0] in events then Invocations(keys[0], events[keys[0]], true) else [];
      assert c in head <==> c.withName && c.key == keys[0] && keys[0] in events && c.wrapper in events[keys[0]] by {
        if keys[0] in events && c.withName && c.key == keys[0] && c.wrapper in events[keys[0]] {
          var j :| 0 <= j < |events[keys[0]]| && events[keys[0]][j] == c.wrapper;
          assert head[j] == c;
        }
      }
      assert c.key in keys <==> c.key == keys[0] || c.key in keys[1..] by {
        assert keys == [keys[0]] + keys[1..];
      }
    }
  }

  /** The wildcard phase calls nobody exactly when none of its keys has a non-empty set. */
  lemma {:induction false} WildcardCallsEmpty(events: map<string, seq<Wrapper>>, keys: seq<string>)
    ensures |WildcardCalls(events, keys)| == 0 <==>
      forall i :: 0 <= i < |keys| && keys[i] in events ==> |events[keys[i]]| == 0
  {
    if |keys| > 0 {
      WildcardCallsEmpty(events, keys[1..]);
      assert forall i :: 1 <= i < |keys| ==> keys[i] == keys[1..][i - 1];
    }
  }

  /** Two maps that agree on the keys consulted give the same wildcard phase. */
  lemma {:induction false} WildcardCallsAgree(e1: map<string, seq<Wrapper>>, e2: map<string, seq<Wrapper>>, keys: seq<string>)
    requires forall i :: 0 <= i < |keys| ==> (keys[i] in e1 <==> keys[i] in e2)
    requires forall i :: 0 <= i < |keys| && keys[i] in e1 ==> e1[keys[i]] == e2[keys[i]]
    ensures WildcardCalls(e1, keys) == WildcardCalls(e2, keys)
  {
    if |keys| > 0 {
      assert forall i :: 1 <= i < |keys| ==> keys[i] == keys[1..][i - 1];
      WildcardCallsAgree(e1, e2, keys[1..]);
    }
  }

  /** `emit` returns true exactly when the name or one of its wildcards has listeners. */
  lemma EmitHadIff(b: Bus, name: string, fails: set<nat>)
    requires Valid(b)
    ensures var keys := DotPath.WildcardKeys(name);
      Emit(b, name, fails).had <==>
        name in b.events || exists i :: 0 <= i < |keys| && keys[i] in b.events
  {
    var keys := DotPath.WildcardKeys(name);
    var r := Emit(b, name, fails);
    EmitRemovesOnce(b, name, fails);
    if name !in b.events {
      var wild := WildcardCalls(r.bus.events, keys);
      assert r.bus.events == b.events;
      WildcardCallsEmpty(b.events, keys);
      assert r.had == (|wild| > 0);
    }
  }

  /**
   * Which listener throws changes nothing about who is called, unless the
   * name is itself a wildcard whose once-listeners would be called twice.
   */
  lemma EmitCallsIgnoreFailures(b: Bus, name: string, f1: set<nat>, f2: set<nat>)
    requires Valid(b) && !EndsWith(name, ".*")
    ensures Emit(b, name, f1).calls == Emit(b, name, f2).calls
    ensures Emit(b, name, f1).had == Emit(b, name, f2).had
  {
    EmitPlainCalls(b, name, f1);
    EmitPlainCalls(b, name, f2);
  }

  /** For a name that is not a wildcard, the wildcard phase sees the sets as they were before the emit. */
  lemma EmitPlainCalls(b: Bus, name: string, fails: set<nat>)
    requires Valid(b) && !EndsWith(name, ".*")
    ensures var keys := DotPath.WildcardKeys(name);
      var wild := WildcardCalls(b.events, keys);
      && Emit(b, name, fails).calls == Invocations(name, SortByPriority(Wrappers(b, name)), false) + wild
      && Emit(b, name, fails).had == (|Wrappers(b, name)| > 0 || |wild| > 0)
  {
    var keys := DotPath.WildcardKeys(name);
    var r := Emit(b, name, fails).bus;
    EmitRemovesOnce(b, name, fails);
    forall i | 0 <= i < |keys| ensures keys[i] in r.events <==> keys[i] in b.events {
      WildcardNotName(name, i);
      assert Wrappers(r, keys[i]) == Wrappers(b, keys[i]);
      assert ValidSet(Wrappers(b, keys[i]), b.next) || keys[i] !in b.events;
    }
    forall i | 0 <= i < |keys| && keys[i] in r.events ensures r.events[keys[i]] == b.events[keys[i]] {
      WildcardNotName(name, i);
      assert Wrappers(r, keys[i]) == Wrappers(b, keys[i]);
    }
    WildcardCallsAgree(r.events, b.events, keys);
  }

  /** A wrapper is called by an emit only when it belongs to the name's set or one of its wildcard sets. */
  lemma EmitCallsFrom(b: Bus, name: string, fails: set<nat>, c: Invocation)
    requires Valid(b) && c in Emit(b, name, fails).calls
    ensures (!c.withName && c.key == name && c.wrapper in Wrappers(b, name)) ||
      (c.withName && c.key in DotPath.WildcardKeys(name) && c.wrapper in Wrappers(b, c.key))
  {
    var keys := DotPath.WildcardKeys(name);
    var r := Emit(b, name, fails);
    var sorted := SortByPriority(Wrappers(b, name));
    var exact := Invocations(name, sorted, false);
    assert r.calls == exact + WildcardCalls(r.bus.events, keys);
    if c in exact {
      var j :| 0 <= j < |exact| && exact[j] == c;
      assert c.wrapper in multiset(sorted);
    } else {
      WildcardCallsMembers(r.bus.events, keys, c);
      EmitRemovesOnce(b, name, fails);
      assert c.wrapper in Wrappers(r.bus, c.key);
    }
  }

  /**
   * A listener on the bare name `*` is reached only by `emit('*')`: the
   * wildcards of any name end in `.*`.
   */
  lemma StarOnlyForStar(b: Bus, name: string, fails: set<nat>)
    requires Valid(b)
    ensures (exists c :: c in Emit(b, name, fails).calls && c.key == "*") ==> name == "*"
  {
    if c :| c in Emit(b, name, fails).calls && c.key == "*" {
      EmitCallsFrom(b, name, fails, c);
    }
  }

  // ---------------------------------------------------------------- namespace and pipe

  /** The event name `namespace(ns)` uses for `eventName`. */
  function Qualified(ns: string, name: string): (q: string)
    ensures StartsWith(q, ns + ".")
  {
    ns + "." + name
  }

  /** The namespaced `on`, `once`, `off` and `emit` act on the qualified name. */
  function NsOn(b: Bus, ns: string, name: string, cb: Callback, once: bool, priority: int): Bus {
    On(b, Qualified(ns, name), cb, once, priority)
  }

  function NsOnce(b: Bus, ns: string, name: string, cb: Callback): Bus {
    Once(b, Qualified(ns, name), cb)
  }

  function NsOff(b: Bus, ns: string, name: string, cb: Callback): Bus {
    Off(b, Qualified(ns, name), cb)
  }

  function NsEmit(b: Bus, ns: string, name: string, fails: set<nat>): Emitted {
    Emit(b, Qualified(ns, name), fails)
  }

  /** `ns.*` is among the wildcard sets consulted for any name qualified by `ns`. */
  lemma NamespaceWildcardKey(ns: string, name: string)
    ensures ns + ".*" in DotPath.WildcardKeys(Qualified(ns, name))
  {
    var q := Qualified(ns, name);
    assert q == ns + ['.'] + name;
    SplitAround(ns, name, '.');
    var parts := Split(q, '.');
    var n := |Split(ns, '.')|;
    assert parts[..n] == Split(ns, '.');
    JoinSplit(ns, '.');
    assert DotPath.WildcardKeys(q)[n - 1] == Join(Split(ns, '.'), ".") + ".*";
  }

  /** Every wrapper of the name's own set is called in the exact phase, without the name. */
  lemma ExactCalled(b: Bus, name: string, fails: set<nat>, w: Wrapper)
    requires w in Wrappers(b, name)
    ensures Invocation(name, w, false) in Emit(b, name, fails).calls
  {
    var calls := Emit(b, name, fails).calls;
    var n := |Wrappers(b, name)|;
    EmitExactOrder(b, name, fails, 0);
    var order := WrappersOf(calls[..n]);
    assert w in multiset(order);
    var k :| 0 <= k < |order| && order[k] == w;
    assert calls[k] == Invocation(name, SortByPriority(Wrappers(b, name))[k], false);
  }

  /** A wrapper in a set that the emit leaves in place is called in the wildcard phase when that set is one of the name's wildcards. */
  lemma WildcardCalled(b: Bus, name: string, fails: set<nat>, k: string, w: Wrapper)
    requires Valid(b) && k in DotPath.WildcardKeys(name) && w in Wrappers(Emit(b, name, fails).bus, k)
    ensures Invocation(k, w, true) in Emit(b, name, fails).calls
  {
    var r := Emit(b, name, fails);
    var keys := DotPath.WildcardKeys(name);
    var exact := Invocations(name, SortByPriority(Wrappers(b, name)), false);
    assert r.calls == exact + WildcardCalls(r.bus.events, keys);
    WildcardCallsMembers(r.bus.events, keys, Invocation(k, w, true));
  }

  /**
   * A listener on `ns.*` hears every event emitted through `namespace(ns)`,
   * with the event name; for `emit('*')` through the namespace the name is
   * `ns.*` itself, and its listeners are called in the exact phase.
   */
  lemma NamespaceWildcard(b: Bus, ns: string, name: string, fails: set<nat>, w: Wrapper)
    requires Valid(b) && w in Wrappers(b, ns + ".*")
    ensures Qualified(ns, name) != ns + ".*" ==> Invocation(ns + ".*", w, true) in NsEmit(b, ns, name, fails).calls
    ensures Qualified(ns, name) == ns + ".*" ==> Invocation(ns + ".*", w, false) in NsEmit(b, ns, name, fails).calls
  {
    var q := Qualified(ns, name);
    if q == ns + ".*" {
      ExactCalled(b, q, fails, w);
    } else {
      NamespaceWildcardKey(ns, name);
      EmitRemovesOnce(b, q, fails);
      WildcardCalled(b, q, fails, ns + ".*", w);
    }
  }

  /**
   * Emitting a wildcard name `ns.*` runs its set twice: every listener in the
   * exact phase, and again, with the name, each one that stayed, that is,
   * all but the once-listeners that returned normally.
   */
  lemma EmitWildcardName(b: Bus, ns: string, fails: set<nat>, w: Wrapper)
    requires Valid(b) && w in Wrappers(b, ns + ".*")
    ensures Invocation(ns + ".*", w, false) in Emit(b, ns + ".*", fails).calls
    ensures Invocation(ns + ".*", w, true) in Emit(b, ns + ".*", fails).calls <==> !w.once || w.id in fails
  {
    var k := ns + ".*";
    var r := Emit(b, k, fails);
    var keys := DotPath.WildcardKeys(k);
    ExactCalled(b, k, fails, w);
    NamespaceWildcardKey(ns, "*");
    assert Qualified(ns, "*") == k;
    EmitRemovesOnce(b, k, fails);
    if !w.once || w.id in fails {
      WildcardCalled(b, k, fails, k, w);
    }
    var exact := Invocations(k, SortByPriority(Wrappers(b, k)), false);
    assert r.calls == exact + WildcardCalls(r.bus.events, keys);
    assert Invocation(k, w, true) !in exact;
    WildcardCallsMembers(r.bus.events, keys, Invocation(k, w, true));
  }

  /** What `pipe` forwards: everything (`'*'`), one event name, or a list of them. */
  datatype PipeEvents = AllEvents | OneEvent(name: string) | EventList(names: seq<string>)

  /**
   * `pipe(targetBus, events, prefix)` subscribes forwarders on this bus; each
   * forwarder re-emits on the target under `prefix + eventName`. The
   * forwarders are new closures; `fwd` stands for their identity.
   */
  function Pipe(b: Bus, events: PipeEvents, fwd: Callback): (r: Bus)
    decreases match events case EventList(names) => |names| case _ => 0
  {
    match events
    case AllEvents => On(b, "*", fwd, false, 0)
    case OneEvent(name) => if name == "*" then On(b, "*", fwd, false, 0) else On(b, name, fwd, false, 0)
    case EventList(names) =>
      if |names| == 0 then b
      else Pipe(On(b, names[0], fwd, false, 0), EventList(names[1..]), fwd)
  }

  /** Each listed name gains one forwarder, and nothing else changes. */
  lemma {:induction false} PipeSubscribes(b: Bus, names: seq<string>, fwd: Callback, e: string)
    decreases |names|
    ensures Pipe(b, EventList(names), fwd).next == b.next + |names|
    ensures |Wrappers(Pipe(b, EventList(names), fwd), e)| == |Wrappers(b, e)| + multiset(names)[e]
    ensures Wrappers(b, e) <= Wrappers(Pipe(b, EventList(names), fwd), e)
  {
    if |names| > 0 {
      var b1 := On(b, names[0], fwd, false, 0);
      PipeSubscribes(b1, names[1..], fwd, e);
      assert names == [names[0]] + names[1..];
    }
  }

  /**
   * `pipe(target, '*')` puts a single listener on `*`, so it forwards only
   * `emit('*')`: no other emit calls it.
   */
  lemma PipeAllForwardsOnlyStar(b: Bus, fwd: Callback, name: string, fails: set<nat>)
    requires Valid(b) && name != "*"
    ensures var piped := Pipe(b, AllEvents, fwd);
      && Wrappers(piped, "*") == Wrappers(b, "*") + [Wrapper(b.next, fwd, false, 0)]
      && (forall e :: e != "*" ==> Wrappers(piped, e) == Wrappers(b, e))
      && forall c :: c in Emit(piped, name, fails).calls ==> c.key != "*"
  {
    var piped := Pipe(b, AllEvents, fwd);
    OnValid(b, "*", fwd, false, 0);
    StarOnlyForStar(piped, name, fails);
  }

  // ---------------------------------------------------------------- forwarding

  /**
   * The closure `pipe(targetBus, events, prefix)` subscribes: piping `'*'`
   * takes the event name from its first argument; a listed name is fixed
   * when the closure is made.
   */
  datatype Forwarder = ForwardAll(prefix: string) | ForwardName(prefix: string, name: string)

  /** A call `targetBus.emit(name, ...args)`. */
  datatype Forwarded = Forwarded(name: string, args: seq<JsValue.Value>)

  /** The arguments a listener receives from `emit(emitted, ...args)`: a wildcard listener gets the name first. */
  function Received(c: Invocation, emitted: string, args: seq<JsValue.Value>): (r: seq<JsValue.Value>)
    ensures c.withName ==> |r| == |args| + 1 && r[0] == JsValue.Str(emitted) && r[1..] == args
    ensures !c.withName ==> r == args
  {
    if c.withName then [JsValue.Str(emitted)] + args else args
  }

  /** What a forwarder passes to `targetBus.emit` when it receives `received`; the prefix is joined by string concatenation. */
  function Forward(f: Forwarder, received: seq<JsValue.Value>): (out: Forwarded)
    ensures StartsWith(out.name, f.prefix)
    ensures f.ForwardName? ==> out.args == received
    ensures f.ForwardAll? ==> out.args == if |received| == 0 then [] else received[1..]
  {
    match f
    case ForwardName(prefix, name) =>
      assert (prefix + name)[..|prefix|] == prefix;
      Forwarded(prefix + name, received)
    case ForwardAll(prefix) =>
      var first := if |received| == 0 then JsValue.Undefined else received[0];
      assert (prefix + JsValue.JsString(first))[..|prefix|] == prefix;
      Forwarded(prefix + JsValue.JsString(first), if |received| == 0 then [] else received[1..])
  }

  /** Piping keeps the bus well formed. */
  lemma {:induction false} PipeValid(b: Bus, events: PipeEvents, fwd: Callback)
    requires Valid(b)
    ensures Valid(Pipe(b, events, fwd))
    decreases match events case EventList(names) => |names| case _ => 0
  {
    match events
    case AllEvents => OnValid(b, "*", fwd, false, 0);
    case OneEvent(name) => OnValid(b, if name == "*" then "*" else name, fwd, false, 0);
    case EventList(names) =>
      if |names| > 0 {
        OnValid(b, names[0], fwd, false, 0);
        PipeValid(On(b, names[0], fwd, false, 0), EventList(names[1..]), fwd);
      }
  }

  /** After piping a list, each listed name holds a forwarder. */
  lemma {:induction false} PipeListedHasForwarder(b: Bus, names: seq<string>, fwd: Callback, n: string)
    requires n in names
    ensures exists w :: w in Wrappers(Pipe(b, EventList(names), fwd), n) && w.callback == fwd
    decreases |names|
  {
    var b1 := On(b, names[0], fwd, false, 0);
    assert Pipe(b, EventList(names), fwd) == Pipe(b1, EventList(names[1..]), fwd);
    if names[0] == n {
      var w := Wrapper(b.next, fwd, false, 0);
      assert Wrappers(b1, n)[|Wrappers(b1, n)| - 1] == w;
      PipeSubscribes(b1, names[1..], fwd, n);
      var after := Wrappers(Pipe(b1, EventList(names[1..]), fwd), n);
      assert after[|Wrappers(b1, n)| - 1] == w;
    } else {
      assert n in names[1..] by { assert names == [names[0]] + names[1..]; }
      PipeListedHasForwarder(b1, names[1..], fwd, n);
    }
  }

  /**
   * `pipe(target, names, prefix)`: emitting a listed name that is not itself
   * a wildcard calls a forwarder, and every call on that name's set passes
   * the prefixed name and the emit's own arguments on to the target.
   */
  lemma PipeForwardsListed(b: Bus, names: seq<string>, fwd: Callback, prefix: string, n: string, fails: set<nat>, args: seq<JsValue.Value>)
    requires Valid(b) && n in names && !EndsWith(n, ".*")
    ensures var calls := Emit(Pipe(b, EventList(names), fwd), n, fails).calls;
      (exists c :: c in calls && c.key == n && c.wrapper.callback == fwd)
      && forall c :: c in calls && c.key == n ==>
        !c.withName && Forward(ForwardName(prefix, n), Received(c, n, args)) == Forwarded(prefix + n, args)
  {
    var piped := Pipe(b, EventList(names), fwd);
    var calls := Emit(piped, n, fails).calls;
    PipeValid(b, EventList(names), fwd);
    PipeListedHasForwarder(b, names, fwd, n);
    var w :| w in Wrappers(piped, n) && w.callback == fwd;
    ExactCalled(piped, n, fails, w);
    forall c | c in calls && c.key == n
      ensures !c.withName
    {
      EmitCallsFrom(piped, n, fails, c);
      if c.withName {
        var keys := DotPath.WildcardKeys(n);
        var i :| 0 <= i < |keys| && keys[i] == c.key;
        WildcardNotName(n, i);
      }
    }
  }

  /**
   * `pipe(target, '*', prefix)`: `emit('*', x, ...rest)` calls the new
   * forwarder, and every call on the `*` set passes `prefix + String(x)` and
   * `rest` on to the target, because the forwarder reads its first argument
   * as the event name.
   */
  lemma PipeAllForwardsFirstArgument(b: Bus, fwd: Callback, prefix: string, fails: set<nat>, x: JsValue.Value, rest: seq<JsValue.Value>)
    requires Valid(b)
    ensures var calls := Emit(Pipe(b, AllEvents, fwd), "*", fails).calls;
      Invocation("*", Wrapper(b.next, fwd, false, 0), false) in calls
      && forall c :: c in calls && c.key == "*" ==>
        !c.withName && Forward(ForwardAll(prefix), Received(c, "*", [x] + rest)) == Forwarded(prefix + JsValue.JsString(x), rest)
  {
    var piped := Pipe(b, AllEvents, fwd);
    var calls := Emit(piped, "*", fails).calls;
    OnValid(b, "*", fwd, false, 0);
    ExactCalled(piped, "*", fails, Wrapper(b.next, fwd, false, 0));
    assert "*" !in DotPath.WildcardKeys("*");
    forall c | c in calls && c.key == "*"
      ensures !c.withName
    {
      EmitCallsFrom(piped, "*", fails, c);
    }
    assert ([x] + rest)[1..] == rest;
  }
}

=== FILE: feature_list.dfy ===
/**
 * The list operations the feature modules share: an array kept in the state
 * store under one key (projects, chats, artifacts), the first-match search
 * the features use to find an item by id, and what writing the array back
 * tells the store's subscribers.
 *
 * The store tells the subscribers of a key about a write only when the value
 * written is not `===` the one it replaces; for arrays that means "is not the
 * same array". A feature that mutates the stored array in place and writes it
 * back therefore tells nobody.
 */
module FeatureList {
  import opened Base
  import JsValue
  import Lists

  /** The array stored under a key: its identity and its items. */
  datatype Stored<T> = Stored(ref: JsValue.Ref, items: seq<T>)

  /** Whether `stateManager.set(key, after)` over `before` reaches the key's subscribers. */
  predicate Notifies<T>(before: Stored<T>, after: Stored<T>) {
    !JsValue.StrictEq(JsValue.Arr(before.ref, []), JsValue.Arr(after.ref, []))
  }

  lemma NotifiesIffNewArray<T>(before: Stored<T>, after: Stored<T>)
    ensures Notifies(before, after) <==> before.ref != after.ref
  {
  }

  /** `xs.findIndex(p)`, with no match as `None`. */
  function FindIndex<T>(xs: seq<T>, p: T -> bool): (r: Option<nat>)
    ensures r.Some? ==> r.value < |xs| && p(xs[r.value]) && forall j :: 0 <= j < r.value ==> !p(xs[j])
    ensures r.None? <==> forall j :: 0 <= j < |xs| ==> !p(xs[j])
  {
    if |xs| == 0 then None
    else if p(xs[0]) then Some(0)
    else match FindIndex(xs[1..], p)
      case None => None
      case Some(i) => Some(i + 1)
  }

  /** `xs.find(p)`. */
  function Find<T>(xs: seq<T>, p: T -> bool): (r: Option<T>)
    ensures r.None? <==> FindIndex(xs, p).None?
    ensures r.Some? ==> r.value == xs[FindIndex(xs, p).value]
  {
    match FindIndex(xs, p)
    case None => None
    case Some(i) => Some(xs[i])
  }

  /** The first item `p` accepts, changed by `f`; without a match the list stays as it is. */
  function UpdateFirst<T>(xs: seq<T>, p: T -> bool, f: T -> T): (r: seq<T>)
    ensures |r| == |xs|
    ensures FindIndex(xs, p).None? ==> r == xs
    ensures FindIndex(xs, p).Some? ==>
      var i := FindIndex(xs, p).value;
      r[i] == f(xs[i]) && forall j :: 0 <= j < |xs| && j != i ==> r[j] == xs[j]
  {
    match FindIndex(xs, p)
    case None => xs
    case Some(i) => xs[i := f(xs[i])]
  }

  /** The test `x => !p(x)`. */
  function Rejects<T>(p: T -> bool): T -> bool {
    (x: T) => !p(x)
  }

  /** `xs.filter(x => !p(x))`: the items `p` rejects, in order. */
  function RemoveAll<T(!new)>(xs: seq<T>, p: T -> bool): (r: seq<T>)
    ensures |r| <= |xs|
    ensures forall x :: x in r <==> x in xs && !p(x)
    ensures FindIndex(xs, p).Some? ==> |r| < |xs|
  {
    var keep := Rejects(p);
    var r := Lists.Filter(xs, keep);
    assert forall x :: x in r <==> x in xs && !p(x) by {
      forall x ensures x in r <==> x in xs && !p(x) {
        Lists.FilterMembers(xs, keep, x);
      }
    }
    if FindIndex(xs, p).Some? then
      Lists.FilterDrops(xs, keep, FindIndex(xs, p).value);
      r
    else r
  }

  /** Removing what nothing matches leaves the list as it is. */
  lemma RemoveNothing<T(!new)>(xs: seq<T>, p: T -> bool)
    requires FindIndex(xs, p).None?
    ensures RemoveAll(xs, p) == xs
  {
    Lists.FilterAll(xs, Rejects(p));
  }

  /** An item that matches is dropped from the front. */
  lemma RemoveFirst<T(!new)>(x: T, xs: seq<T>, p: T -> bool)
    requires p(x)
    ensures RemoveAll([x] + xs, p) == RemoveAll(xs, p)
  {
    assert ([x] + xs)[1..] == xs;
  }

  /** `list.unshift(x)` on the stored array, then `set(key, list)`: the same array, one item longer. */
  function UnshiftInPlace<T>(s: Stored<T>, x: T): (r: Stored<T>)
    ensures r.items == [x] + s.items
    ensures !Notifies(s, r)
  {
    Stored(s.ref, [x] + s.items)
  }

  /** `list[i] = x` (or a field of an item changed) on the stored array, then `set(key, list)`. */
  function MutateInPlace<T>(s: Stored<T>, items: seq<T>): (r: Stored<T>)
    ensures r.items == items
    ensures !Notifies(s, r)
  {
    Stored(s.ref, items)
  }

  /** Writing a new array, as `[x, ...list]`, `list.filter(…)` or `list.map(…)` build one. */
  function WriteNew<T>(s: Stored<T>, items: seq<T>, newRef: JsValue.Ref): (r: Stored<T>)
    requires newRef != s.ref
    ensures r.items == items
    ensures Notifies(s, r)
  {
    Stored(newRef, items)
  }
}

=== FILE: form_urlencoded.dfy ===
/**
 * The `application/x-www-form-urlencoded` serializer that
 * `URLSearchParams.toString()` uses (section 5.2 of the WHATWG URL Standard),
 * and its parser (section 5.1) as the partner that reads a query back.
 * Both work on the UTF-8 bytes of the text.
 */
module FormUrlencoded {
  import opened Base
  import opened Text
  import Lists
  import Utf8

  type Byte = Utf8.Byte

  /** Bytes the serializer leaves as they are: ASCII alphanumerics and `*-._`. */
  predicate Unreserved(b: Byte) {
    (0x30 <= b <= 0x39) || (0x41 <= b <= 0x5A) || (0x61 <= b <= 0x7A)
    || b == 0x2A || b == 0x2D || b == 0x2E || b == 0x5F
  }

  /** Upper-case hexadecimal digits, as the percent-encoder writes them. */
  const HexDigits: string := "0123456789ABCDEF"

  predicate IsHexDigit(c: char) {
    ('0' <= c <= '9') || ('A' <= c <= 'F') || ('a' <= c <= 'f')
  }

  /** Value of a hexadecimal digit of either case. */
  function HexValue(c: char): (r: Option<nat>)
    ensures r.Some? ==> r.value < 16
    ensures r.Some? <==> IsHexDigit(c)
  {
    if '0' <= c <= '9' then Some(c as int - '0' as int)
    else if 'A' <= c <= 'F' then Some(c as int - 'A' as int + 10)
    else if 'a' <= c <= 'f' then Some(c as int - 'a' as int + 10)
    else None
  }

  /** Characters a serialized string is made of; `&`, `=`, `#` and `?` are not among them. */
  predicate Safe(c: char) {
    c == '+' || c == '%' || (c as int < 0x80 && Unreserved(c as int))
  }

  function EncodeByte(b: Byte): (r: string)
    ensures 1 <= |r| <= 3
    ensures forall i :: 0 <= i < |r| ==> Safe(r[i])
    ensures r == "+" <==> b == 0x20
    ensures |r| == 1 && r != "+" <==> Unreserved(b)
  {
    if b == 0x20 then "+"
    else if Unreserved(b) then [b as char]
    else "%" + [HexDigits[b / 16], HexDigits[b % 16]]
  }

  function PercentEncode(bs: seq<Byte>): (r: string)
    ensures forall i :: 0 <= i < |r| ==> Safe(r[i])
    ensures |bs| <= |r| <= 3 * |bs|
  {
    if |bs| == 0 then "" else EncodeByte(bs[0]) + PercentEncode(bs[1..])
  }

  /** The serializer's output for one name or value. */
  function FormEncode(s: string): (r: string)
    ensures '=' !in r && '&' !in r && '?' !in r && '#' !in r
  {
    var r := PercentEncode(Utf8.Encode(s));
    assert forall i :: 0 <= i < |r| ==> Safe(r[i]);
    r
  }

  /**
   * The parser's byte step: `+` is a space, `%` with two hexadecimal digits
   * is that byte, and any other character stands for its own UTF-8 bytes
   * (so a `%` without two digits after it stays a `%`).
   */
  function DecodeBytes(s: string): seq<Byte> {
    if |s| == 0 then []
    else if s[0] == '+' then [0x20] + DecodeBytes(s[1..])
    else if s[0] == '%' && |s| >= 3 && HexValue(s[1]).Some? && HexValue(s[2]).Some? then
      [HexValue(s[1]).value * 16 + HexValue(s[2]).value] + DecodeBytes(s[3..])
    else Utf8.EncodeChar(s[0]) + DecodeBytes(s[1..])
  }

  /** The parser's output for one name or value; malformed UTF-8 is an error here. */
  function FormDecode(s: string): Option<string> {
    Utf8.Decode(DecodeBytes(s))
  }

  lemma HexDigitValue(n: nat)
    requires n < 16
    ensures HexValue(HexDigits[n]) == Some(n)
  {
    if n < 10 {
      assert HexDigits[n] as int == '0' as int + n;
    } else {
      assert HexDigits[n] as int == 'A' as int + n - 10;
    }
  }

  lemma EncodeByteDecodes(b: Byte, rest: string)
    ensures DecodeBytes(EncodeByte(b) + rest) == [b] + DecodeBytes(rest)
  {
    if b == 0x20 {
      DecodeSpace(rest);
    } else if Unreserved(b) {
      DecodeUnreserved(b, rest);
    } else {
      DecodePercent(b, rest);
    }
  }

  lemma DecodeSpace(rest: string)
    ensures DecodeBytes("+" + rest) == [0x20] + DecodeBytes(rest)
  {
    assert ("+" + rest)[1..] == rest;
  }

  lemma DecodeUnreserved(b: Byte, rest: string)
    requires Unreserved(b)
    ensures DecodeBytes([b as char] + rest) == [b] + DecodeBytes(rest)
  {
    var s := [b as char] + rest;
    assert s[0] == b as char && s[1..] == rest;
    assert Utf8.EncodeChar(b as char) == [b];
  }

  lemma DecodePercent(b: Byte, rest: string)
    ensures DecodeBytes("%" + [HexDigits[b / 16], HexDigits[b % 16]] + rest) == [b] + DecodeBytes(rest)
  {
    HexDigitValue(b / 16);
    HexDigitValue(b % 16);
    DecodeEscape(HexDigits[b / 16], HexDigits[b % 16], rest);
  }

  /** A `%` with two hexadecimal digits after it is one byte. */
  lemma DecodeEscape(hi: char, lo: char, rest: string)
    requires HexValue(hi).Some? && HexValue(lo).Some?
    ensures DecodeBytes("%" + [hi, lo] + rest) == [HexValue(hi).value * 16 + HexValue(lo).value] + DecodeBytes(rest)
  {
    var s := "%" + [hi, lo] + rest;
    assert s[0] == '%' && s[1] == hi && s[2] == lo;
    assert s[3..] == rest;
  }

  lemma {:induction false} DecodePercentEncode(bs: seq<Byte>)
    ensures DecodeBytes(PercentEncode(bs)) == bs
  {
    if |bs| > 0 {
      EncodeByteDecodes(bs[0], PercentEncode(bs[1..]));
      DecodePercentEncode(bs[1..]);
    }
  }

  /** A name or value comes back from the parser as it went into the serializer. */
  lemma FormRoundTrip(s: string)
    ensures FormDecode(FormEncode(s)) == Some(s)
  {
    DecodePercentEncode(Utf8.Encode(s));
    Utf8.DecodeEncode(s);
  }

  // ---------------------------------------------------------------- pairs

  function PairText(p: (string, string)): (r: string)
    ensures '&' !in r && |r| > 0
  {
    FormEncode(p.0) + "=" + FormEncode(p.1)
  }

  function PairTexts(pairs: seq<(string, string)>): (r: seq<string>)
    ensures |r| == |pairs|
    ensures forall i :: 0 <= i < |r| ==> r[i] == PairText(pairs[i])
  {
    if |pairs| == 0 then [] else [PairText(pairs[0])] + PairTexts(pairs[1..])
  }

  /** `new URLSearchParams(pairs).toString()`. */
  function Serialize(pairs: seq<(string, string)>): string {
    Join(PairTexts(pairs), "&")
  }

  /** One `name=value` piece; a piece without `=` is a name with an empty value. */
  function ParsePiece(piece: string): Option<(string, string)> {
    var name := if '=' in piece then piece[..IndexOf(piece, '=')] else piece;
    var value := if '=' in piece then piece[IndexOf(piece, '=') + 1..] else "";
    match (FormDecode(name), FormDecode(value))
    case (Some(n), Some(v)) => Some((n, v))
    case _ => None
  }

  function ParsePieces(pieces: seq<string>): Option<seq<(string, string)>> {
    if |pieces| == 0 then Some([])
    else match (ParsePiece(pieces[0]), ParsePieces(pieces[1..]))
      case (Some(p), Some(ps)) => Some([p] + ps)
      case _ => None
  }

  /** `new URLSearchParams(query)`: empty pieces between `&`s are skipped. */
  function Parse(query: string): Option<seq<(string, string)>> {
    ParsePieces(Lists.Filter(Split(query, '&'), (p: string) => |p| > 0))
  }

  /** A piece splits at its first `=`, so a name without one comes out whole. */
  lemma ParsePieceAt(name: string, value: string)
    requires '=' !in name
    ensures ParsePiece(name + "=" + value) ==
      if FormDecode(name).Some? && FormDecode(value).Some?
      then Some((FormDecode(name).value, FormDecode(value).value)) else None
  {
    var piece := name + "=" + value;
    assert piece == name + ("=" + value);
    IndexOfPrefix(name, "=" + value, '=');
    assert IndexOf(piece, '=') == |name|;
    assert piece[..|name|] == name;
    assert piece[|name| + 1..] == value;
  }

  lemma ParsePairText(p: (string, string))
    ensures ParsePiece(PairText(p)) == Some(p)
  {
    ParsePieceAt(FormEncode(p.0), FormEncode(p.1));
    FormRoundTrip(p.0);
    FormRoundTrip(p.1);
  }

  lemma ParsePiecesCons(piece: string, rest: seq<string>, p: (string, string), ps: seq<(string, string)>)
    requires ParsePiece(piece) == Some(p) && ParsePieces(rest) == Some(ps)
    ensures ParsePieces([piece] + rest) == Some([p] + ps)
  {
    assert ([piece] + rest)[1..] == rest;
  }

  lemma {:induction false} ParsePairTexts(pairs: seq<(string, string)>)
    ensures ParsePieces(PairTexts(pairs)) == Some(pairs)
  {
    if |pairs| > 0 {
      var texts := PairTexts(pairs);
      ParsePairText(pairs[0]);
      ParsePairTexts(pairs[1..]);
      assert texts == [PairText(pairs[0])] + PairTexts(pairs[1..]);
      ParsePiecesCons(PairText(pairs[0]), PairTexts(pairs[1..]), pairs[0], pairs[1..]);
      assert pairs == [pairs[0]] + pairs[1..];
    }
  }

  /** Parsing a serialized list of pairs gives the same pairs, in the same order. */
  lemma ParseSerialize(pairs: seq<(string, string)>)
    ensures Parse(Serialize(pairs)) == Some(pairs)
  {
    var texts := PairTexts(pairs);
    var keep := (p: string) => |p| > 0;
    if |pairs| == 0 {
      assert Split("", '&') == [""];
      assert Lists.Filter([""], keep) == [];
    } else {
      SplitJoin(texts, '&');
      Lists.FilterAll(texts, keep);
      ParsePairTexts(pairs);
    }
  }
}

=== FILE: helpers.dfy ===
/**
 * The general-purpose helpers the features rely on: `capitalize`, `range`,
 * `groupBy` and `unique`. (`get`, `set` and `unset` are in `DotPath`,
 * `escapeHtml` in `Html`.)
 */
module Helpers {
  import opened Base
  import opened Text
  import opened JsValue

  /** `capitalize(str)`: non-strings and the empty string come back unchanged. */
  function Capitalize(v: Value): (r: Value)
    ensures !v.Str? || v.s == "" ==> r == v
    ensures v.Str? && v.s != "" ==> r.Str? && |r.s| == |v.s| && r.s[0] == UpperChar(v.s[0]) && r.s[1..] == v.s[1..]
  {
    if !Truthy(v) || !v.Str? then v else Str([UpperChar(v.s[0])] + v.s[1..])
  }

  /** Capitalizing twice is capitalizing once. */
  lemma CapitalizeIdempotent(v: Value)
    ensures Capitalize(Capitalize(v)) == Capitalize(v)
  {
    if v.Str? && v.s != "" {
      var r := Capitalize(v);
      assert UpperChar(r.s[0]) == r.s[0];
      assert r.s == [r.s[0]] + r.s[1..];
    }
  }

  // ---------------------------------------------------------------- range

  /** `range(start, end, step)`: the arithmetic progression from `start` stopping before `end`; nothing for step 0. */
  method Range(start: int, end: int, step: int) returns (r: seq<int>)
    ensures step == 0 ==> r == []
    ensures forall k :: 0 <= k < |r| ==> r[k] == start + k * step
    ensures step > 0 ==> (forall k :: 0 <= k < |r| ==> r[k] < end) && start + |r| * step >= end
    ensures step < 0 ==> (forall k :: 0 <= k < |r| ==> r[k] > end) && start + |r| * step <= end
  {
    r := [];
    if step > 0 {
      var i := start;
      while i < end
        invariant i == start + |r| * step
        invariant forall k :: 0 <= k < |r| ==> r[k] == start + k * step && r[k] < end
        decreases end - i
      {
        r := r + [i];
        i := i + step;
      }
    } else if step < 0 {
      var i := start;
      while i > end
        invariant i == start + |r| * step
        invariant forall k :: 0 <= k < |r| ==> r[k] == start + k * step && r[k] > end
        decreases i - end
      {
        r := r + [i];
        i := i + step;
      }
    }
  }

  /** The number of elements `range` produces, by ceiling division. */
  function RangeCount(start: int, end: int, step: int): nat {
    if step > 0 && start < end then (end - start + step - 1) / step
    else if step < 0 && start > end then (start - end - step - 1) / -step
    else 0
  }

  /** The length of any progression with `range`'s contract is `RangeCount`. */
  lemma RangeLength(start: int, end: int, step: int, r: seq<int>)
    requires forall k :: 0 <= k < |r| ==> r[k] == start + k * step
    requires step > 0 ==> (forall k :: 0 <= k < |r| ==> r[k] < end) && start + |r| * step >= end
    requires step < 0 ==> (forall k :: 0 <= k < |r| ==> r[k] > end) && start + |r| * step <= end
    requires step == 0 ==> r == []
    ensures |r| == RangeCount(start, end, step)
  {
    var n := |r|;
    if step > 0 {
      if n > 0 {
        assert r[n - 1] == start + (n - 1) * step < end;
        CeilDiv(end - start, step, n);
      }
    } else if step < 0 {
      if n > 0 {
        assert r[n - 1] == start + (n - 1) * step > end;
        CeilDiv(start - end, -step, n);
      }
    }
  }

  /** `n` is the ceiling of `d / s` when `(n - 1) * s < d <= n * s`. */
  lemma CeilDiv(d: int, s: int, n: nat)
    requires s > 0 && n > 0 && (n - 1) * s < d <= n * s
    ensures (d + s - 1) / s == n
  {
    var x := d + s - 1;
    var q := x / s;
    assert n * s <= x < n * s + s by { MulPred(n, s); }
    assert q * s <= x < q * s + s by { assert q * s + x % s == x; }
    MulStep(q, n, s);
    MulStep(n, q, s);
  }

  lemma MulPred(n: int, s: int)
    ensures (n - 1) * s == n * s - s
  {
  }

  lemma NonNegProduct(x: int, y: int)
    requires x >= 0 && y >= 0
    ensures x * y >= 0
  {
  }

  /** Between two multiples of `s` lies at least `s`. */
  lemma MulStep(a: int, b: int, s: int)
    ensures a < b && s > 0 ==> a * s + s <= b * s
  {
    if a < b && s > 0 {
      var k := b - a;
      NonNegProduct(k - 1, s);
      assert k * s == (k - 1) * s + s;
      assert b * s == a * s + k * s;
    }
  }

  // ---------------------------------------------------------------- keys

  /** How `groupBy` and `unique` read an item's key: a property name or a function. */
  datatype KeySpec = ByProp(name: string) | ByFn(f: Value -> Value)

  /** The key of `item`; reading a property of `null` or `undefined` throws. */
  function KeyValue(spec: KeySpec, item: Value): Result<Value, JsError> {
    match spec
    case ByProp(name) => Member(item, name)
    case ByFn(f) => Ok(f(item))
  }

  /** Whether reading the key of some item throws. */
  predicate AnyKeyThrows(spec: KeySpec, items: seq<Value>) {
    exists i :: 0 <= i < |items| && KeyValue(spec, items[i]).Err?
  }

  function KeyOrUndefined(spec: KeySpec, item: Value): Value {
    match KeyValue(spec, item)
    case Ok(k) => k
    case Err(_) => Undefined
  }

  // ---------------------------------------------------------------- groupBy

  /** The items whose key is `k`, in their original order. */
  function WithKey<T>(items: seq<T>, key: T -> string, k: string): (r: seq<T>)
    ensures forall x :: x in r ==> x in items && key(x) == k
  {
    if |items| == 0 then []
    else WithKey(items[..|items| - 1], key, k) + (if key(items[|items| - 1]) == k then [items[|items| - 1]] else [])
  }

  /** The reduce loop of `groupBy`: each item is pushed onto the group of its key. */
  function GroupByKey<T>(items: seq<T>, key: T -> string): (groups: map<string, seq<T>>) {
    if |items| == 0 then map[]
    else
      var n := |items| - 1;
      var g := GroupByKey(items[..n], key);
      var k := key(items[n]);
      g[k := (if k in g then g[k] else []) + [items[n]]]
  }

  /** A group exists for exactly the keys that occur, and holds exactly the items with that key. */
  lemma GroupByKeyGroups<T>(items: seq<T>, key: T -> string)
    ensures forall k :: k in GroupByKey(items, key) <==> exists i :: 0 <= i < |items| && key(items[i]) == k
    ensures forall k :: k in GroupByKey(items, key) ==> GroupByKey(items, key)[k] == WithKey(items, key, k)
  {
    GroupByKeyDomain(items, key);
    GroupByKeyValues(items, key);
  }

  lemma {:induction false} GroupByKeyDomain<T>(items: seq<T>, key: T -> string)
    ensures forall k :: k in GroupByKey(items, key) <==> exists i :: 0 <= i < |items| && key(items[i]) == k
  {
    if |items| > 0 {
      var n := |items| - 1;
      var front := items[..n];
      GroupByKeyDomain(front, key);
      var k := key(items[n]);
      var g' := GroupByKey(items, key);
      assert forall i :: 0 <= i < n ==> front[i] == items[i];
      var g := GroupByKey(front, key);
      assert g' == g[k := (if k in g then g[k] else []) + [items[n]]];
      forall j
        ensures j in g' <==> exists i :: 0 <= i < |items| && key(items[i]) == j
      {
        if j == k {
          assert key(items[n]) == j;
        } else if j in g {
          var i :| 0 <= i < |front| && key(front[i]) == j;
          assert key(items[i]) == j;
        }
      }
    }
  }

  lemma {:induction false} GroupByKeyValues<T>(items: seq<T>, key: T -> string)
    ensures forall k :: k in GroupByKey(items, key) ==> GroupByKey(items, key)[k] == WithKey(items, key, k)
  {
    if |items| > 0 {
      var n := |items| - 1;
      var front, last := items[..n], items[n];
      GroupByKeyValues(front, key);
      var g := GroupByKey(front, key);
      var k := key(last);
      if k !in g {
        GroupByKeyDomain(front, key);
        WithKeyEmpty(front, key, k);
      }
    }
  }

  lemma {:induction false} WithKeyEmpty<T>(items: seq<T>, key: T -> string, k: string)
    requires forall i :: 0 <= i < |items| ==> key(items[i]) != k
    ensures WithKey(items, key, k) == []
  {
    if |items| > 0 {
      WithKeyEmpty(items[..|items| - 1], key, k);
    }
  }

  /**
   * Whether some item's group name is a property `{}` inherits: `groups[name]`
   * is then already truthy, so no array is made, and `.push` is not a function.
   */
  predicate AnyGroupInherited(spec: KeySpec, items: seq<Value>) {
    exists i :: 0 <= i < |items| && JsString(KeyOrUndefined(spec, items[i])) in ObjectPrototypeNames
  }

  /**
   * `groupBy(array, key)`: the groups, keyed by the key's string form, or the
   * `TypeError` thrown when an item's key cannot be read or names a property
   * that `{}` inherits.
   */
  function GroupBy(items: seq<Value>, spec: KeySpec): (r: Result<map<string, seq<Value>>, JsError>)
    ensures r.Err? <==> AnyKeyThrows(spec, items) || AnyGroupInherited(spec, items)
    ensures r.Err? ==> r.error == TypeError
    ensures r.Ok? ==> forall k :: k in r.value <==> exists i :: 0 <= i < |items| && JsString(KeyOrUndefined(spec, items[i])) == k
    ensures r.Ok? ==> forall k :: k in r.value ==> k !in ObjectPrototypeNames && r.value[k] == WithKey(items, x => JsString(KeyOrUndefined(spec, x)), k)
  {
    if AnyKeyThrows(spec, items) || AnyGroupInherited(spec, items) then Err(TypeError)
    else
      GroupByKeyGroups(items, x => JsString(KeyOrUndefined(spec, x)));
      Ok(GroupByKey(items, x => JsString(KeyOrUndefined(spec, x))))
  }

  /** Every item lands in exactly one group: the group sizes add up to the number of items. */
  lemma {:induction false} GroupSizes<T>(items: seq<T>, key: T -> string, k: string)
    ensures |WithKey(items, key, k)| + |Others(items, key, k)| == |items|
  {
    if |items| > 0 {
      GroupSizes(items[..|items| - 1], key, k);
    }
  }

  /** The items whose key is not `k`. */
  function Others<T>(items: seq<T>, key: T -> string, k: string): seq<T> {
    if |items| == 0 then []
    else Others(items[..|items| - 1], key, k) + (if key(items[|items| - 1]) != k then [items[|items| - 1]] else [])
  }

  // ---------------------------------------------------------------- unique

  /** The keys of a sequence of items. */
  function KeySet<T>(items: seq<T>, key: T -> Identity): set<Identity> {
    if |items| == 0 then {} else KeySet(items[..|items| - 1], key) + {key(items[|items| - 1])}
  }

  /** `KeySet` holds the key of each item and nothing else. */
  lemma {:induction false} KeySetMembers<T>(items: seq<T>, key: T -> Identity)
    ensures forall i :: 0 <= i < |items| ==> key(items[i]) in KeySet(items, key)
    ensures forall id :: id in KeySet(items, key) ==> exists i :: 0 <= i < |items| && key(items[i]) == id
  {
    if |items| > 0 {
      var n := |items| - 1;
      KeySetMembers(items[..n], key);
      assert forall i :: 0 <= i < n ==> items[..n][i] == items[i];
    }
  }

  /** Reference definition: the items whose key did not occur earlier, in order. */
  function FirstOccurrences<T>(items: seq<T>, key: T -> Identity): seq<T> {
    if |items| == 0 then []
    else
      var n := |items| - 1;
      FirstOccurrences(items[..n], key) + (if key(items[n]) in KeySet(items[..n], key) then [] else [items[n]])
  }

  /** The filter loop of `unique` with a `seen` set of keys. */
  method UniqueBy<T>(items: seq<T>, key: T -> Identity) returns (r: seq<T>)
    ensures r == FirstOccurrences(items, key)
  {
    r := [];
    var seen: set<Identity> := {};
    var i := 0;
    while i < |items|
      invariant 0 <= i <= |items|
      invariant seen == KeySet(items[..i], key)
      invariant r == FirstOccurrences(items[..i], key)
    {
      assert items[..i + 1][..i] == items[..i];
      if key(items[i]) !in seen {
        seen := seen + {key(items[i])};
        r := r + [items[i]];
      }
      i := i + 1;
    }
    assert items[..|items|] == items;
  }

  /** Every key of the input is kept. */
  lemma {:induction false} FirstOccurrencesKeys<T>(items: seq<T>, key: T -> Identity)
    ensures KeySet(FirstOccurrences(items, key), key) == KeySet(items, key)
  {
    if |items| > 0 {
      var n := |items| - 1;
      var front := items[..n];
      var seen := KeySet(front, key);
      var tail := if key(items[n]) in seen then [] else [items[n]];
      FirstOccurrencesKeys(front, key);
      KeySetAppend(FirstOccurrences(front, key), tail, key);
      assert KeySet(items, key) == seen + {key(items[n])};
      if key(items[n]) in seen {
        assert KeySet(tail, key) == {};
      } else {
        assert KeySet(tail, key) == {key(items[n])} by { assert tail[..0] == []; }
      }
    }
  }

  /** No two kept items share a key. */
  lemma {:induction false} FirstOccurrencesDistinct<T>(items: seq<T>, key: T -> Identity)
    ensures forall i, j :: 0 <= i < j < |FirstOccurrences(items, key)| ==>
      key(FirstOccurrences(items, key)[i]) != key(FirstOccurrences(items, key)[j])
  {
    if |items| > 0 {
      var n := |items| - 1;
      var front := FirstOccurrences(items[..n], key);
      FirstOccurrencesDistinct(items[..n], key);
      FirstOccurrencesKeys(items[..n], key);
      KeySetMembers(front, key);
      if key(items[n]) in KeySet(items[..n], key) {
        assert FirstOccurrences(items, key) == front + [];
        assert front + [] == front;
      } else {
        DistinctAppend(front, items[n], key);
      }
    }
  }

  /** Appending an item whose key is new keeps the keys distinct. */
  lemma DistinctAppend<T>(front: seq<T>, x: T, key: T -> Identity)
    requires forall i, j :: 0 <= i < j < |front| ==> key(front[i]) != key(front[j])
    requires key(x) !in KeySet(front, key)
    ensures forall i, j :: 0 <= i < j < |front + [x]| ==> key((front + [x])[i]) != key((front + [x])[j])
  {
    KeySetMembers(front, key);
    var r := front + [x];
    assert forall i :: 0 <= i < |front| ==> r[i] == front[i];
  }

  lemma {:induction false} KeySetAppend<T>(a: seq<T>, b: seq<T>, key: T -> Identity)
    ensures KeySet(a + b, key) == KeySet(a, key) + KeySet(b, key)
    decreases |b|
  {
    if |b| == 0 {
      assert a + b == a;
    } else {
      var m := |b| - 1;
      assert (a + b)[..|a + b| - 1] == a + b[..m];
      KeySetAppend(a, b[..m], key);
    }
  }

  /** The kept items are items of the input, in the input's order. */
  lemma {:induction false} FirstOccurrencesSubsequence<T>(items: seq<T>, key: T -> Identity)
    ensures |FirstOccurrences(items, key)| <= |items|
    ensures forall x :: x in FirstOccurrences(items, key) ==> x in items
  {
    if |items| > 0 {
      var n := |items| - 1;
      FirstOccurrencesSubsequence(items[..n], key);
      assert forall x :: x in items[..n] ==> x in items;
    }
  }

  /**
   * `unique(array, key)`: without a key (or with a falsy one) the first copy of
   * each value, as a `Set` keeps them; with a key, the first item of each key.
   */
  method Unique(items: seq<Value>, key: Option<KeySpec>) returns (r: Result<seq<Value>, JsError>)
    ensures key.None? || key == Some(ByProp("")) ==> r == Ok(FirstOccurrences(items, IdentityOf))
    ensures key.Some? && key != Some(ByProp("")) ==>
      (r.Err? <==> AnyKeyThrows(key.value, items)) &&
      (r.Ok? ==> r.value == FirstOccurrences(items, x => IdentityOf(KeyOrUndefined(key.value, x))))
  {
    if key.None? || key == Some(ByProp("")) {
      var u := UniqueBy(items, IdentityOf);
      r := Ok(u);
    } else if AnyKeyThrows(key.value, items) {
      r := Err(TypeError);
    } else {
      var spec := key.value;
      var u := UniqueBy(items, x => IdentityOf(KeyOrUndefined(spec, x)));
      r := Ok(u);
    }
  }
}

=== FILE: html.dfy ===
/**
 * The `escapeHtml` helper: five global `replace` calls, ampersand first. The
 * same function is defined in the shared helpers, in the artifacts feature and
 * in the legacy single-file script; all three are this one definition.
 */
module Html {
  import opened Text

  /** The entity each special character is written as; other characters stay. */
  function EscapeChar(c: char): string {
    if c == '&' then "&amp;"
    else if c == '<' then "&lt;"
    else if c == '>' then "&gt;"
    else if c == '"' then "&quot;"
    else if c == '\'' then "&#039;"
    else [c]
  }

  /** `s.replace(/c/g, r)`. */
  function ReplaceAll(s: string, c: char, r: string): string {
    MapChars(s, x => if x == c then r else [x])
  }

  /** The source's chain of replacements, in the source's order. */
  function EscapeHtml(s: string): string {
    ReplaceAll(ReplaceAll(ReplaceAll(ReplaceAll(ReplaceAll(s, '&', "&amp;"), '<', "&lt;"), '>', "&gt;"), '"', "&quot;"), '\'', "&#039;")
  }

  predicate HasNoMarkup(s: string) {
    forall i :: 0 <= i < |s| ==> s[i] != '<' && s[i] != '>' && s[i] != '"' && s[i] != '\''
  }

  /** Reads the five entities back; any other text is kept as it is. */
  function UnescapeHtml(s: string): string
    decreases |s|
  {
    if |s| == 0 then ""
    else if StartsWith(s, "&amp;") then "&" + UnescapeHtml(s[5..])
    else if StartsWith(s, "&lt;") then "<" + UnescapeHtml(s[4..])
    else if StartsWith(s, "&gt;") then ">" + UnescapeHtml(s[4..])
    else if StartsWith(s, "&quot;") then "\"" + UnescapeHtml(s[6..])
    else if StartsWith(s, "&#039;") then "'" + UnescapeHtml(s[6..])
    else [s[0]] + UnescapeHtml(s[1..])
  }

  lemma {:induction false} ReplaceAllAppend(a: string, b: string, c: char, r: string)
    ensures ReplaceAll(a + b, c, r) == ReplaceAll(a, c, r) + ReplaceAll(b, c, r)
  {
    MapCharsAppend(a, b, x => if x == c then r else [x]);
  }

  lemma ReplaceAllOne(x: char, c: char, r: string)
    ensures ReplaceAll([x], c, r) == if x == c then r else [x]
  {
    assert [x][1..] == "";
  }

  /** A character written as its entity is not touched by the later replacements. */
  lemma EscapeHtmlChar(x: char)
    ensures EscapeHtml([x]) == EscapeChar(x)
  {
    if x == '&' {
      EscapeAmp();
    } else if x == '<' {
      EscapeLt();
    } else if x == '>' {
      EscapeGt();
    } else if x == '"' {
      EscapeQuot();
    } else if x == '\'' {
      EscapeApos();
    } else {
      EscapePlain(x);
    }
  }

  lemma EscapeAmp()
    ensures EscapeHtml("&") == "&amp;"
  {
    ReplaceAllOne('&', '&', "&amp;");
    KeepFromLt("&amp;");
  }

  lemma EscapeLt()
    ensures EscapeHtml("<") == "&lt;"
  {
    ReplaceAllKeeps("<", '&', "&amp;");
    ReplaceAllOne('<', '<', "&lt;");
    KeepFromGt("&lt;");
  }

  lemma EscapeGt()
    ensures EscapeHtml(">") == "&gt;"
  {
    ReplaceAllKeeps(">", '&', "&amp;");
    ReplaceAllKeeps(">", '<', "&lt;");
    ReplaceAllOne('>', '>', "&gt;");
    KeepFromQuot("&gt;");
  }

  lemma EscapeQuot()
    ensures EscapeHtml("\"") == "&quot;"
  {
    ReplaceAllKeeps("\"", '&', "&amp;");
    ReplaceAllKeeps("\"", '<', "&lt;");
    ReplaceAllKeeps("\"", '>', "&gt;");
    ReplaceAllOne('"', '"', "&quot;");
    KeepFromApos("&quot;");
  }

  lemma EscapeApos()
    ensures EscapeHtml("'") == "&#039;"
  {
    ReplaceAllKeeps("'", '&', "&amp;");
    ReplaceAllKeeps("'", '<', "&lt;");
    ReplaceAllKeeps("'", '>', "&gt;");
    ReplaceAllKeeps("'", '"', "&quot;");
    ReplaceAllOne('\'', '\'', "&#039;");
  }

  lemma EscapePlain(x: char)
    requires x != '&' && x != '<' && x != '>' && x != '"' && x != '\''
    ensures EscapeHtml([x]) == [x]
  {
    ReplaceAllKeeps([x], '&', "&amp;");
    KeepFromLt([x]);
  }

  /** The replacements from `<` on leave text without the characters they replace. */
  lemma KeepFromLt(e: string)
    requires '<' !in e && '>' !in e && '"' !in e && '\'' !in e
    ensures ReplaceAll(ReplaceAll(ReplaceAll(ReplaceAll(e, '<', "&lt;"), '>', "&gt;"), '"', "&quot;"), '\'', "&#039;") == e
  {
    ReplaceAllKeeps(e, '<', "&lt;");
    KeepFromGt(e);
  }

  lemma KeepFromGt(e: string)
    requires '>' !in e && '"' !in e && '\'' !in e
    ensures ReplaceAll(ReplaceAll(ReplaceAll(e, '>', "&gt;"), '"', "&quot;"), '\'', "&#039;") == e
  {
    ReplaceAllKeeps(e, '>', "&gt;");
    KeepFromQuot(e);
  }

  lemma KeepFromQuot(e: string)
    requires '"' !in e && '\'' !in e
    ensures ReplaceAll(ReplaceAll(e, '"', "&quot;"), '\'', "&#039;") == e
  {
    ReplaceAllKeeps(e, '"', "&quot;");
    KeepFromApos(e);
  }

  lemma KeepFromApos(e: string)
    requires '\'' !in e
    ensures ReplaceAll(e, '\'', "&#039;") == e
  {
    ReplaceAllKeeps(e, '\'', "&#039;");
  }

  lemma {:induction false} ReplaceAllKeeps(s: string, c: char, r: string)
    requires c !in s
    ensures ReplaceAll(s, c, r) == s
  {
    if |s| > 0 {
      assert s == [s[0]] + s[1..];
      ReplaceAllAppend([s[0]], s[1..], c, r);
      ReplaceAllOne(s[0], c, r);
      ReplaceAllKeeps(s[1..], c, r);
    }
  }

  /** The chain of replacements escapes each character on its own. */
  lemma {:induction false} EscapeHtmlPerChar(s: string)
    ensures EscapeHtml(s) == MapChars(s, EscapeChar)
  {
    if |s| > 0 {
      assert s == [s[0]] + s[1..];
      EscapeHtmlAppend([s[0]], s[1..]);
      EscapeHtmlChar(s[0]);
      EscapeHtmlPerChar(s[1..]);
    }
  }

  lemma EscapeHtmlAppend(a: string, b: string)
    ensures EscapeHtml(a + b) == EscapeHtml(a) + EscapeHtml(b)
  {
    var a1, b1 := ReplaceAll(a, '&', "&amp;"), ReplaceAll(b, '&', "&amp;");
    ReplaceAllAppend(a, b, '&', "&amp;");
    var a2, b2 := ReplaceAll(a1, '<', "&lt;"), ReplaceAll(b1, '<', "&lt;");
    ReplaceAllAppend(a1, b1, '<', "&lt;");
    var a3, b3 := ReplaceAll(a2, '>', "&gt;"), ReplaceAll(b2, '>', "&gt;");
    ReplaceAllAppend(a2, b2, '>', "&gt;");
    var a4, b4 := ReplaceAll(a3, '"', "&quot;"), ReplaceAll(b3, '"', "&quot;");
    ReplaceAllAppend(a3, b3, '"', "&quot;");
    ReplaceAllAppend(a4, b4, '\'', "&#039;");
  }

  /** Escaped text has no character that could open a tag or close an attribute. */
  lemma {:induction false} EscapeHtmlHasNoMarkup(s: string)
    ensures HasNoMarkup(EscapeHtml(s))
  {
    EscapeHtmlPerChar(s);
    MapCharsNoMarkup(s);
  }

  lemma {:induction false} MapCharsNoMarkup(s: string)
    ensures HasNoMarkup(MapChars(s, EscapeChar))
  {
    if |s| > 0 {
      MapCharsNoMarkup(s[1..]);
      EscapeCharNoMarkup(s[0]);
      NoMarkupAppend(EscapeChar(s[0]), MapChars(s[1..], EscapeChar));
    }
  }

  lemma EscapeCharNoMarkup(c: char)
    ensures HasNoMarkup(EscapeChar(c))
  {
  }

  lemma NoMarkupAppend(a: string, b: string)
    requires HasNoMarkup(a) && HasNoMarkup(b)
    ensures HasNoMarkup(a + b)
  {
    assert forall i :: |a| <= i < |a + b| ==> (a + b)[i] == b[i - |a|];
  }

  /** Escaping loses nothing: reading the entities back gives the text. */
  lemma {:induction false} UnescapeEscape(s: string)
    ensures UnescapeHtml(EscapeHtml(s)) == s
  {
    EscapeHtmlPerChar(s);
    UnescapeMapChars(s);
  }

  lemma {:induction false} UnescapeMapChars(s: string)
    ensures UnescapeHtml(MapChars(s, EscapeChar)) == s
  {
    if |s| > 0 {
      UnescapeMapChars(s[1..]);
      UnescapeCons(s[0], MapChars(s[1..], EscapeChar));
      assert [s[0]] + s[1..] == s;
    }
  }

  lemma UnescapeCons(c: char, t: string)
    ensures UnescapeHtml(EscapeChar(c) + t) == [c] + UnescapeHtml(t)
  {
    if c == '&' {
      UnescapeAmp(t);
    } else if c == '<' {
      UnescapeLt(t);
    } else if c == '>' {
      UnescapeGt(t);
    } else if c == '"' {
      UnescapeQuot(t);
    } else if c == '\'' {
      UnescapeApos(t);
    } else {
      UnescapePlainChar(c, t);
    }
  }

  lemma UnescapeAmp(t: string)
    ensures UnescapeHtml("&amp;" + t) == "&" + UnescapeHtml(t)
  {
    assert ("&amp;" + t)[..5] == "&amp;";
    assert ("&amp;" + t)[5..] == t;
  }

  lemma UnescapeLt(t: string)
    ensures UnescapeHtml("&lt;" + t) == "<" + UnescapeHtml(t)
  {
    var s := "&lt;" + t;
    assert s[1] == 'l';
    NotPrefixAt(s, "&amp;", 1);
    assert s[..4] == "&lt;";
    assert s[4..] == t;
  }

  lemma UnescapeGt(t: string)
    ensures UnescapeHtml("&gt;" + t) == ">" + UnescapeHtml(t)
  {
    var s := "&gt;" + t;
    assert s[1] == 'g';
    NotPrefixAt(s, "&amp;", 1);
    NotPrefixAt(s, "&lt;", 1);
    assert s[..4] == "&gt;";
    assert s[4..] == t;
  }

  lemma UnescapeQuot(t: string)
    ensures UnescapeHtml("&quot;" + t) == "\"" + UnescapeHtml(t)
  {
    var s := "&quot;" + t;
    assert s[1] == 'q';
    NotPrefixAt(s, "&amp;", 1);
    NotPrefixAt(s, "&lt;", 1);
    NotPrefixAt(s, "&gt;", 1);
    assert s[..6] == "&quot;";
    assert s[6..] == t;
  }

  lemma UnescapeApos(t: string)
    ensures UnescapeHtml("&#039;" + t) == "'" + UnescapeHtml(t)
  {
    var s := "&#039;" + t;
    assert s[1] == '#';
    NotPrefixAt(s, "&amp;", 1);
    NotPrefixAt(s, "&lt;", 1);
    NotPrefixAt(s, "&gt;", 1);
    NotPrefixAt(s, "&quot;", 1);
    assert s[..6] == "&#039;";
    assert s[6..] == t;
  }

  lemma UnescapePlainChar(c: char, t: string)
    requires c != '&'
    ensures UnescapeHtml([c] + t) == [c] + UnescapeHtml(t)
  {
    var s := [c] + t;
    assert s[0] == c;
    NotPrefixAt(s, "&amp;", 0);
    NotPrefixAt(s, "&lt;", 0);
    NotPrefixAt(s, "&gt;", 0);
    NotPrefixAt(s, "&quot;", 0);
    NotPrefixAt(s, "&#039;", 0);
    assert s[1..] == t;
  }

  /** A string that differs from `p` at position `i` does not start with `p`. */
  lemma NotPrefixAt(s: string, p: string, i: nat)
    requires i < |s| && i < |p| && s[i] != p[i]
    ensures !StartsWith(s, p)
  {
    if |p| <= |s| {
      assert s[..|p|][i] == s[i];
    }
  }

  /** Text with none of the five special characters is left exactly as it is. */
  lemma {:induction false} EscapeHtmlPlain(s: string)
    requires forall i :: 0 <= i < |s| ==> EscapeChar(s[i]) == [s[i]]
    ensures EscapeHtml(s) == s
  {
    EscapeHtmlPerChar(s);
    MapCharsPlain(s);
  }

  lemma {:induction false} MapCharsPlain(s: string)
    requires forall i :: 0 <= i < |s| ==> EscapeChar(s[i]) == [s[i]]
    ensures MapChars(s, EscapeChar) == s
  {
    if |s| > 0 {
      MapCharsPlain(s[1..]);
      assert [s[0]] + s[1..] == s;
    }
  }
}

=== FILE: js_value.dfy ===
/**
 * JavaScript values as the browser modules store and compare them.
 *
 * Objects and arrays carry a reference (`Ref`): `===` compares them by
 * reference, so an array mutated in place and stored again is "the same"
 * value, while a spread or filtered copy is a new one. A reference is an
 * allocation stamp plus the key path at which that allocation built the
 * object, which keeps the objects one operation creates apart from each other.
 * Numbers are integers (fractions and NaN are not modelled) and object keys
 * are own keys only (nothing inherited from `Object.prototype`).
 */
module JsValue {
  import opened Base
  import opened Text

  datatype Ref = Ref(stamp: nat, at: seq<string>)

  datatype Value =
    | Undefined
    | Null
    | Bool(b: bool)
    | Num(n: int)
    | Str(s: string)
    | Arr(ref: Ref, items: seq<Value>)
    | Obj(ref: Ref, props: map<string, Value>)

  /** What a JavaScript operation throws; `Unsupported` marks behaviour outside the model (array holes, named keys on an array, writes to `length`, deleting an array element). */
  datatype JsError = TypeError | Unsupported

  /** JavaScript truthiness: `false`, `0`, `""`, `null` and `undefined` are falsy. */
  predicate Truthy(v: Value) {
    match v
    case Undefined => false
    case Null => false
    case Bool(b) => b
    case Num(n) => n != 0
    case Str(s) => s != ""
    case Arr(_, _) => true
    case Obj(_, _) => true
  }

  /** `a || b`. */
  function Or(a: Value, b: Value): (r: Value)
    ensures Truthy(a) ==> r == a
    ensures !Truthy(a) ==> r == b
  {
    if Truthy(a) then a else b
  }

  /** `a === b`: primitives by value, objects and arrays by reference. */
  predicate StrictEq(a: Value, b: Value) {
    match (a, b)
    case (Undefined, Undefined) => true
    case (Null, Null) => true
    case (Bool(x), Bool(y)) => x == y
    case (Num(x), Num(y)) => x == y
    case (Str(x), Str(y)) => x == y
    case (Arr(r, _), Arr(q, _)) => r == q
    case (Obj(r, _), Obj(q, _)) => r == q
    case _ => false
  }

  lemma StrictEqEquivalence(a: Value, b: Value, c: Value)
    ensures StrictEq(a, a)
    ensures StrictEq(a, b) ==> StrictEq(b, a)
    ensures StrictEq(a, b) && StrictEq(b, c) ==> StrictEq(a, c)
  {
  }

  /** For primitives `===` is equality of the values. */
  lemma StrictEqPrimitive(a: Value, b: Value)
    requires !a.Arr? && !a.Obj?
    ensures StrictEq(a, b) <==> a == b
  {
  }

  /** `typeof v === 'object' && v !== null`: arrays and plain objects. */
  predicate IsObject(v: Value) {
    v.Arr? || v.Obj?
  }

  /** The index a property key names on an array: a canonical decimal numeral. */
  function ArrayIndex(k: string): (r: Option<nat>)
    ensures r.Some? ==> k == Decimal(r.value)
  {
    if |k| >= 1 && (forall i :: 0 <= i < |k| ==> IsDigit(k[i])) && (|k| == 1 || k[0] != '0') then
      var n := DigitsValue(k);
      CanonicalDigits(k);
      Some(n)
    else None
  }

  lemma {:induction false} CanonicalDigits(k: string)
    requires |k| >= 1 && forall i :: 0 <= i < |k| ==> IsDigit(k[i])
    requires |k| == 1 || k[0] != '0'
    ensures Decimal(DigitsValue(k)) == k
    decreases |k|
  {
    var n := DigitsValue(k);
    if |k| == 1 {
      assert k[..0] == "";
      assert DigitsValue(k[..0]) == 0;
      assert n == DigitValue(k[0]) < 10;
      assert k == [k[0]];
    } else {
      var front := k[..|k| - 1];
      assert forall i :: 0 <= i < |front| ==> IsDigit(front[i]);
      CanonicalDigits(front);
      var m := DigitsValue(front);
      assert m > 0 by {
        assert front[0] == k[0];
      }
      assert n == m * 10 + DigitValue(k[|k| - 1]);
      assert n / 10 == m && n % 10 == DigitValue(k[|k| - 1]);
      assert k == front + [k[|k| - 1]];
    }
  }

  /** Every index has exactly one key. */
  lemma ArrayIndexDecimal(n: nat)
    ensures ArrayIndex(Decimal(n)) == Some(n)
  {
    DecimalRoundTrip(n);
  }

  /** `k in v`; the operator throws on a value that is not an object. */
  function HasProp(v: Value, k: string): (r: Result<bool, JsError>)
    ensures r.Err? <==> !IsObject(v)
    ensures v.Obj? ==> r == Ok(k in v.props)
  {
    match v
    case Obj(_, props) => Ok(k in props)
    case Arr(_, items) =>
      Ok(k == "length" || (match ArrayIndex(k) case Some(i) => i < |items| case None => false))
    case _ => Err(TypeError)
  }

  /**
   * `v[k]` on anything but `null` and `undefined`: an own property, an array's
   * or a string's element or `length`; `undefined` when there is none.
   */
  function Lookup(v: Value, k: string): (r: Value)
    ensures v.Obj? ==> r == if k in v.props then v.props[k] else Undefined
  {
    match v
    case Obj(_, props) => if k in props then props[k] else Undefined
    case Arr(_, items) =>
      if k == "length" then Num(|items|)
      else (match ArrayIndex(k)
        case Some(i) => if i < |items| then items[i] else Undefined
        case None => Undefined)
    case Str(s) =>
      if k == "length" then Num(|s|)
      else (match ArrayIndex(k)
        case Some(i) => if i < |s| then Str([s[i]]) else Undefined
        case None => Undefined)
    case _ => Undefined
  }

  /**
   * The properties a plain object `{}` inherits from `Object.prototype`.
   * `Lookup` does not see them; each is a function or, for `__proto__`, the
   * prototype object itself, so reading one from `{}` gives a truthy value
   * that is not an array.
   */
  const ObjectPrototypeNames: set<string> := {
    "constructor", "hasOwnProperty", "isPrototypeOf", "propertyIsEnumerable",
    "toLocaleString", "toString", "valueOf", "__proto__",
    "__defineGetter__", "__defineSetter__", "__lookupGetter__", "__lookupSetter__"}

  /** `v[k]`, which throws when `v` is `null` or `undefined`. */
  function Member(v: Value, k: string): (r: Result<Value, JsError>)
    ensures r.Err? <==> v.Null? || v.Undefined?
    ensures r.Ok? ==> r.value == Lookup(v, k)
  {
    if v.Null? || v.Undefined? then Err(TypeError) else Ok(Lookup(v, k))
  }

  /**
   * `v[k] = x` in strict-mode code: an object gains or replaces the key, an
   * array replaces an element or appends one; the object keeps its reference.
   */
  function PutProp(v: Value, k: string, x: Value): (r: Result<Value, JsError>)
    ensures r.Ok? ==> IsObject(v) && IsObject(r.value) && r.value.ref == v.ref && HasProp(r.value, k) == Ok(true) && Lookup(r.value, k) == x
    ensures r.Ok? && v.Obj? ==> r.value == Obj(v.ref, v.props[k := x])
    ensures v.Obj? ==> r.Ok?
    ensures !IsObject(v) ==> r == Err(TypeError)
  {
    match v
    case Obj(ref, props) => Ok(Obj(ref, props[k := x]))
    case Arr(ref, items) =>
      if k == "length" then Err(Unsupported)
      else (match ArrayIndex(k)
        case Some(i) =>
          if i < |items| then Ok(Arr(ref, items[i := x]))
          else if i == |items| then Ok(Arr(ref, items + [x]))
          else Err(Unsupported)
        case None => Err(Unsupported))
    case _ => Err(TypeError)
  }

  /** Writing a property leaves every other property as it was. */
  lemma PutPropOthers(v: Value, k: string, x: Value, j: string)
    requires PutProp(v, k, x).Ok? && j != k
    ensures HasProp(PutProp(v, k, x).value, j) == HasProp(v, j) || (v.Arr? && j != "length")
    ensures v.Obj? ==> Lookup(PutProp(v, k, x).value, j) == Lookup(v, j)
  {
  }

  /** `delete v[k]` on a plain object. */
  function DeleteProp(v: Value, k: string): (r: Value)
    requires v.Obj?
    ensures r.Obj? && r.ref == v.ref && HasProp(r, k) == Ok(false)
    ensures forall j :: j != k ==> Lookup(r, j) == Lookup(v, j)
  {
    Obj(v.ref, v.props - {k})
  }

  /** The own enumerable properties `{...v}` copies: an object's keys, an array's or a string's indices. */
  function Spread(v: Value): (m: map<string, Value>)
    ensures v.Obj? ==> m == v.props
    ensures v.Arr? ==> forall i :: 0 <= i < |v.items| ==> Decimal(i) in m && m[Decimal(i)] == v.items[i]
    ensures !IsObject(v) && !v.Str? ==> m == map[]
  {
    match v
    case Obj(_, props) => props
    case Arr(_, items) => IndexMap(items)
    case Str(s) => IndexMap(seq(|s|, i requires 0 <= i < |s| => Str([s[i]])))
    case _ => map[]
  }

  /** The map from each index's numeral to the element there. */
  function IndexMap(items: seq<Value>): (m: map<string, Value>)
    ensures forall i :: 0 <= i < |items| ==> Decimal(i) in m && m[Decimal(i)] == items[i]
    ensures forall k :: k in m ==> exists i :: 0 <= i < |items| && k == Decimal(i)
  {
    if |items| == 0 then map[]
    else
      var n := |items| - 1;
      var m := IndexMap(items[..n]);
      IndexMapExtend(items, items[..n], m);
      m[Decimal(n) := items[n]]
  }

  /** Adding the last index's numeral to the map of the earlier ones. */
  lemma IndexMapExtend<T>(items: seq<T>, front: seq<T>, m: map<string, T>)
    requires |items| > 0 && front == items[..|items| - 1]
    requires forall i :: 0 <= i < |front| ==> Decimal(i) in m && m[Decimal(i)] == front[i]
    requires forall k :: k in m ==> exists i :: 0 <= i < |front| && k == Decimal(i)
    ensures var n := |items| - 1; var r := m[Decimal(n) := items[n]];
      (forall i :: 0 <= i < |items| ==> Decimal(i) in r && r[Decimal(i)] == items[i]) &&
      (forall k :: k in r ==> exists i :: 0 <= i < |items| && k == Decimal(i))
  {
    var n := |items| - 1;
    forall i | 0 <= i < n ensures Decimal(i) != Decimal(n) {
      if Decimal(i) == Decimal(n) { DecimalInjective(i, n); }
    }
  }

  /** `String(v)`, which is also how a value becomes a property key. */
  function JsString(v: Value): string
    decreases v, 0
  {
    match v
    case Undefined => "undefined"
    case Null => "null"
    case Bool(b) => if b then "true" else "false"
    case Num(n) => if n < 0 then "-" + Decimal(-n) else Decimal(n)
    case Str(s) => s
    case Arr(_, items) => Join(seq(|items|, i requires 0 <= i < |items| => ElementString(items[i])), ",")
    case Obj(_, _) => "[object Object]"
  }

  /** How `Array.prototype.join` writes one element: `null` and `undefined` as nothing. */
  function ElementString(v: Value): string
    decreases v, 1
  {
    if v.Null? || v.Undefined? then "" else JsString(v)
  }

  /** What a `Set` or `===` tells apart: primitives by value, objects by reference. */
  datatype Identity = Prim(p: Value) | ArrayRef(r: Ref) | ObjectRef(r: Ref)

  function IdentityOf(v: Value): (id: Identity)
    ensures !IsObject(v) ==> id == Prim(v)
  {
    match v
    case Arr(r, _) => ArrayRef(r)
    case Obj(r, _) => ObjectRef(r)
    case _ => Prim(v)
  }

  /** Two values have the same identity exactly when `===` holds between them. */
  lemma IdentityOfStrictEq(a: Value, b: Value)
    ensures IdentityOf(a) == IdentityOf(b) <==> StrictEq(a, b)
  {
    if !IsObject(a) {
      StrictEqPrimitive(a, b);
    }
  }
}

=== FILE: legacy_script.dfy ===
/**
 * The legacy single-file script: its display rules (status labels, profile
 * initials, "time ago" text, the artifact viewer's markup) and its chat list,
 * kept in plain variables with numeric ids.
 *
 * The clock, the confirmation dialog and the rename dialog's input field are
 * parameters. The rename dialog holds a reference to the chat object; the
 * model holds that chat's id.
 */
module LegacyScript {
  import opened Base
  import opened Text
  import Html
  import Lists
  import FeatureList
  import Projects

  // ---------------------------------------------------------------- display rules

  /** `formatStatus(status)`: three known statuses get a label; anything else passes through. */
  function FormatStatus(status: string): (shown: string)
    ensures status !in {"active", "planned", "completed"} ==> shown == status
    ensures status in {"active", "planned", "completed"} ==>
      shown == [UpperChar(status[0])] + status[1..]
  {
    if status == "active" then "Active"
    else if status == "planned" then "Planned"
    else if status == "completed" then "Completed"
    else status
  }

  /** The script's table is the projects module's without "paused", which it passes through unchanged. */
  lemma StatusTablesAgree(status: string)
    ensures status != "paused" ==> FormatStatus(status) == Projects.FormatStatus(status)
    ensures FormatStatus("paused") == "paused" && Projects.FormatStatus("paused") == "Paused"
  {
  }

  /** `word.charAt(0)`: the first character, or nothing for an empty word. */
  function FirstChar(word: string): (r: string)
    ensures |r| == if word == "" then 0 else 1
  {
    if word == "" then "" else [word[0]]
  }

  /** The first characters of the words, joined. */
  function FirstChars(words: seq<string>): (r: string)
    ensures |r| <= |words|
    ensures (forall i :: 0 <= i < |words| ==> words[i] != "") ==>
      |r| == |words| && forall i :: 0 <= i < |words| ==> r[i] == words[i][0]
  {
    if |words| == 0 then "" else FirstChar(words[0]) + FirstChars(words[1..])
  }

  /** `name.split(' ').map(w => w.charAt(0)).join('').toUpperCase()`. */
  function Initials(name: string): (r: string)
    ensures |r| <= |Split(name, ' ')|
    ensures (forall i :: 0 <= i < |Split(name, ' ')| ==> Split(name, ' ')[i] != "") ==>
      |r| == |Split(name, ' ')|
      && forall i :: 0 <= i < |r| ==> r[i] == UpperChar(Split(name, ' ')[i][0])
  {
    Upper(FirstChars(Split(name, ' ')))
  }

  /** Words joined by single spaces give one initial each, upper-cased. */
  lemma InitialsOfWords(words: seq<string>)
    requires |words| >= 1
    requires forall i :: 0 <= i < |words| ==> words[i] != "" && ' ' !in words[i]
    ensures |Initials(Join(words, " "))| == |words|
    ensures forall i :: 0 <= i < |words| ==> Initials(Join(words, " "))[i] == UpperChar(words[i][0])
  {
    SplitJoin(words, ' ');
  }

  /** What `formatTimeAgo` shows; older timestamps get the locale's date, which is not modelled. */
  datatype TimeAgo = Shown(text: string) | LocaleDate

  const HourMs: int := 1000 * 60 * 60

  /**
   * `formatTimeAgo(timestamp)` with both times in milliseconds: whole hours,
   * rounded down, so a timestamp in the future is "Just now".
   */
  function FormatTimeAgo(nowMs: int, timeMs: int): (r: TimeAgo)
    ensures r == Shown("Just now") <==> nowMs - timeMs < HourMs
    ensures HourMs <= nowMs - timeMs < 24 * HourMs <==> r.Shown? && EndsWith(r.text, "h ago")
    ensures HourMs <= nowMs - timeMs < 24 * HourMs ==>
      r.text == Decimal((nowMs - timeMs) / HourMs) + "h ago"
    ensures r == Shown("Yesterday") <==> 24 * HourMs <= nowMs - timeMs < 48 * HourMs
    ensures r == LocaleDate <==> nowMs - timeMs >= 48 * HourMs
  {
    var hours := (nowMs - timeMs) / HourMs;
    if hours < 1 then Shown("Just now")
    else if hours < 24 then
      var t := Decimal(hours) + "h ago";
      assert t[|t| - 5..] == "h ago";
      Shown(t)
    else if hours < 48 then Shown("Yesterday")
    else LocaleDate
  }

  /** The hour count is never shown as zero and stays below a day. */
  lemma HoursShownInRange(nowMs: int, timeMs: int)
    requires HourMs <= nowMs - timeMs < 24 * HourMs
    ensures var h := (nowMs - timeMs) / HourMs;
      1 <= h < 24 && FormatTimeAgo(nowMs, timeMs) == Shown(Decimal(h) + "h ago")
  {
  }

  // ---------------------------------------------------------------- artifact viewer

  /** `escapeHtml` is the shared one. */
  function EscapeHtml(s: string): string {
    Html.EscapeHtml(s)
  }

  /** The element that wraps an escaped content, by artifact type. */
  function OpenTag(kind: string): string {
    if kind == "html" then "<iframe srcdoc=\""
    else if kind == "css" || kind == "javascript" then "<pre class=\"code-content\">"
    else "<pre>"
  }

  function CloseTag(kind: string): string {
    if kind == "html" then "\"></iframe>"
    else if kind == "css" || kind == "javascript" then "</pre>"
    else "</pre>"
  }

  /** `viewArtifact(artifact)`: the markup put in the viewer. */
  function ViewArtifactContent(kind: string, content: string): (html: string)
    ensures kind == "markdown" ==>
      html == "<div class=\"markdown-content\">" + Html.ReplaceAll(content, '\n', "<br>") + "</div>"
    ensures kind != "markdown" ==>
      StartsWith(html, OpenTag(kind)) && EndsWith(html, CloseTag(kind))
      && |html| == |OpenTag(kind)| + |EscapeHtml(content)| + |CloseTag(kind)|
  {
    if kind == "markdown" then
      "<div class=\"markdown-content\">" + Html.ReplaceAll(content, '\n', "<br>") + "</div>"
    else
      var open, body, close := OpenTag(kind), EscapeHtml(content), CloseTag(kind);
      var html := open + body + close;
      assert html[..|open|] == open;
      assert html[|html| - |close|..] == close;
      html
  }

  /**
   * Outside markdown the content sits between its wrapper's tags with no raw
   * `<`, `>`, `"` or `'`, and reading the entities back gives the content.
   */
  lemma ViewedContentIsEscaped(kind: string, content: string)
    requires kind != "markdown"
    ensures var html := ViewArtifactContent(kind, content);
      var body := html[|OpenTag(kind)|..|html| - |CloseTag(kind)|];
      Html.HasNoMarkup(body) && Html.UnescapeHtml(body) == content
  {
    var html := ViewArtifactContent(kind, content);
    var body := html[|OpenTag(kind)|..|html| - |CloseTag(kind)|];
    assert body == EscapeHtml(content);
    Html.EscapeHtmlHasNoMarkup(content);
    Html.UnescapeEscape(content);
  }

  /**
   * A markdown artifact's content is not escaped: content without line breaks
   * reaches the viewer exactly as it is, markup included.
   */
  lemma MarkdownKeepsMarkup(content: string)
    requires '\n' !in content
    ensures ViewArtifactContent("markdown", content) == "<div class=\"markdown-content\">" + content + "</div>"
    ensures Contains(ViewArtifactContent("markdown", content), content)
  {
    Html.ReplaceAllKeeps(content, '\n', "<br>");
    var open := "<div class=\"markdown-content\">";
    var html := open + content + "</div>";
    assert html[|open|..|open| + |content|] == content;
    assert OccursAt(html, content, |open|);
    ContainsIffOccurs(html, content);
  }

  // ---------------------------------------------------------------- chats

  datatype Chat = Chat(
    id: int,
    title: string,
    lastMessage: string,
    timestamp: string,
    projectId: Option<int>,
    knowledgeBase: Option<string>)

  datatype Project = Project(id: int, title: string, knowledgeBase: string)

  /** The script's variables: the chat list, the open chat and the chat the rename dialog was opened for. */
  datatype State = State(chats: seq<Chat>, currentChatId: Option<int>, renaming: Option<int>)

  function ChatWithId(id: int): Chat -> bool {
    (c: Chat) => c.id == id
  }

  /** `deleteChat(chatId)`: when confirmed, every chat with that id goes, and an open one is closed. */
  function DeleteChat(st: State, chatId: int, confirmed: bool): (r: State)
    ensures FeatureList.Find(st.chats, ChatWithId(chatId)).None? || !confirmed ==> r == st
    ensures FeatureList.Find(st.chats, ChatWithId(chatId)).Some? && confirmed ==>
      (forall c :: c in r.chats <==> c in st.chats && c.id != chatId)
      && |r.chats| < |st.chats|
      && r.currentChatId == (if st.currentChatId == Some(chatId) then None else st.currentChatId)
      && r.renaming == st.renaming
  {
    if FeatureList.Find(st.chats, ChatWithId(chatId)).None? || !confirmed then st
    else
      st.(chats := FeatureList.RemoveAll(st.chats, ChatWithId(chatId)),
          currentChatId := if st.currentChatId == Some(chatId) then None else st.currentChatId)
  }

  /** The result of the rename dialog's confirm button. */
  datatype Renamed = Renamed(accepted: bool, state: State)

  /**
   * `renameChat()`: with no dialog open nothing happens; a blank name is
   * refused and the dialog stays open; otherwise the chat gets the trimmed
   * name and the dialog closes.
   */
  function RenameChat(st: State, input: string): (r: Renamed)
    ensures r.accepted <==> st.renaming.Some? && Trim(input) != ""
    ensures !r.accepted ==> r.state == st
    ensures r.accepted ==>
      r.state.renaming.None? && r.state.currentChatId == st.currentChatId
      && r.state.chats == FeatureList.UpdateFirst(st.chats, ChatWithId(st.renaming.value), (c: Chat) => c.(title := Trim(input)))
  {
    match st.renaming
    case None => Renamed(false, st)
    case Some(id) =>
      var title := Trim(input);
      if title == "" then Renamed(false, st)
      else
        Renamed(true, st.(chats := FeatureList.UpdateFirst(st.chats, ChatWithId(id), (c: Chat) => c.(title := title)),
                          renaming := None))
  }

  /** A name of only whitespace leaves the chats as they are; any other name is stored trimmed on the chat being renamed. */
  lemma RenameChatTitles(st: State, input: string)
    requires st.renaming.Some? && FeatureList.FindIndex(st.chats, ChatWithId(st.renaming.value)).Some?
    ensures (forall i :: 0 <= i < |input| ==> IsJsWhitespace(input[i])) <==> !RenameChat(st, input).accepted
    ensures RenameChat(st, input).accepted ==>
      var i := FeatureList.FindIndex(st.chats, ChatWithId(st.renaming.value)).value;
      var after := RenameChat(st, input).state.chats;
      after[i].title == Trim(input) && after[i].id == st.chats[i].id
      && forall j :: 0 <= j < |st.chats| && j != i ==> after[j] == st.chats[j]
  {
    TrimEmptyIff(input);
  }

  /** `addNewChat()`: an empty chat goes first and is opened. */
  function AddNewChat(st: State, newId: int, timeLabel: string, now: string): (r: State)
    ensures |r.chats| == |st.chats| + 1 && r.chats[1..] == st.chats
    ensures r.chats[0].id == newId && r.chats[0].title == "New Chat " + timeLabel
    ensures r.chats[0].projectId.None?
    ensures r.currentChatId == Some(newId) && r.renaming == st.renaming
  {
    var c := Chat(newId, "New Chat " + timeLabel, "No messages yet", now, None, None);
    st.(chats := [c] + st.chats, currentChatId := Some(newId))
  }

  function ProjectWithId(id: int): Project -> bool {
    (p: Project) => p.id == id
  }

  /** `startProjectChat(projectId)`: for a known project a chat about it goes first and is opened. */
  function StartProjectChat(st: State, projects: seq<Project>, projectId: int, newId: int, now: string): (r: State)
    ensures FeatureList.Find(projects, ProjectWithId(projectId)).None? ==> r == st
    ensures FeatureList.Find(projects, ProjectWithId(projectId)).Some? ==>
      var p := FeatureList.Find(projects, ProjectWithId(projectId)).value;
      |r.chats| == |st.chats| + 1 && r.chats[1..] == st.chats
      && r.chats[0] == Chat(newId, "Chat: " + p.title, "New chat started", now, Some(p.id), Some(p.knowledgeBase))
      && r.currentChatId == Some(newId)
  {
    match FeatureList.Find(projects, ProjectWithId(projectId))
    case None => st
    case Some(p) =>
      var c := Chat(newId, "Chat: " + p.title, "New chat started", now, Some(p.id), Some(p.knowledgeBase));
      st.(chats := [c] + st.chats, currentChatId := Some(newId))
  }

  /** Deleting a chat just added with a new id gives back the earlier list and closes it. */
  lemma AddThenDelete(st: State, newId: int, timeLabel: string, now: string)
    requires forall c :: c in st.chats ==> c.id != newId
    ensures var r := DeleteChat(AddNewChat(st, newId, timeLabel, now), newId, true);
      r.chats == st.chats && r.currentChatId.None?
  {
    var added := AddNewChat(st, newId, timeLabel, now);
    assert added.chats == [added.chats[0]] + st.chats;
    FeatureList.RemoveFirst(added.chats[0], st.chats, ChatWithId(newId));
    FeatureList.RemoveNothing(st.chats, ChatWithId(newId));
  }
}

=== FILE: lists.dfy ===
/**
 * Sequence operations the browser modules perform with `Array.prototype`
 * methods: `filter`, and counting occurrences.
 */
module Lists {

  /** `xs.filter(keep)`. */
  function Filter<T>(xs: seq<T>, keep: T -> bool): (r: seq<T>)
    ensures |r| <= |xs|
    ensures forall i :: 0 <= i < |r| ==> keep(r[i])
  {
    if |xs| == 0 then []
    else (if keep(xs[0]) then [xs[0]] else []) + Filter(xs[1..], keep)
  }

  /** A non-empty sequence is its front followed by its last element. */
  lemma FrontLast<T>(xs: seq<T>)
    requires |xs| > 0
    ensures xs == xs[..|xs| - 1] + [xs[|xs| - 1]]
  {
  }

  /** The head and tail of a concatenation. */
  lemma TailAppend<T>(a: seq<T>, b: seq<T>)
    ensures |a| == 0 ==> a + b == b
    ensures |a| > 0 ==> (a + b)[0] == a[0] && (a + b)[1..] == a[1..] + b
  {
  }

  /** Filtering works piece by piece. */
  lemma {:induction false} FilterAppend<T>(a: seq<T>, b: seq<T>, keep: T -> bool)
    ensures Filter(a + b, keep) == Filter(a, keep) + Filter(b, keep)
  {
    if |a| == 0 {
      assert a + b == b;
    } else {
      assert (a + b)[1..] == a[1..] + b;
      FilterAppend(a[1..], b, keep);
    }
  }

  /** Exactly the elements that pass are kept. */
  lemma {:induction false} FilterMembers<T>(xs: seq<T>, keep: T -> bool, x: T)
    ensures x in Filter(xs, keep) <==> x in xs && keep(x)
  {
    if |xs| > 0 {
      FilterMembers(xs[1..], keep, x);
      assert x in xs <==> x == xs[0] || x in xs[1..] by {
        assert xs == [xs[0]] + xs[1..];
      }
    }
  }

  /** Filtering with a test every element passes changes nothing. */
  lemma {:induction false} FilterAll<T>(xs: seq<T>, keep: T -> bool)
    requires forall i :: 0 <= i < |xs| ==> keep(xs[i])
    ensures Filter(xs, keep) == xs
  {
    if |xs| > 0 {
      FilterAll(xs[1..], keep);
      assert xs == [xs[0]] + xs[1..];
    }
  }

  /** Filtering out at least one element shortens the sequence. */
  lemma {:induction false} FilterDrops<T>(xs: seq<T>, keep: T -> bool, i: nat)
    requires i < |xs| && !keep(xs[i])
    ensures |Filter(xs, keep)| < |xs|
  {
    if i > 0 {
      FilterDrops(xs[1..], keep, i - 1);
    }
  }

  /** How often `x` occurs in `xs`. */
  function Count<T(==)>(xs: seq<T>, x: T): nat {
    multiset(xs)[x]
  }
}

=== FILE: plugins.dfy ===
/**
 * The plugin lifecycle (`PluginSystem`): plugins are registered, loaded
 * (which creates an instance), enabled and disabled, and unloaded, with
 * dependencies checked on the way.
 *
 * Every `await` is taken in order, so the model is sequential. What a dynamic
 * `import()` and a plugin's constructor produce is an oracle (`Loader`); an
 * instance is described by which of its properties are functions and which of
 * those throw when called.
 */
module Plugins {
  import opened Base
  import opened Lists

  /** A plugin instance: its function-valued properties, and those among them that throw. */
  datatype Instance = Instance(functions: set<string>, throwing: set<string>)

  /** What importing `name` and constructing its class gives. */
  datatype LoadResult = ImportFails | NoClass | Constructed(instance: Instance)

  /** The dynamic import, by plugin name and the `core` option (which picks the directory). */
  type Loader = (string, bool) -> LoadResult

  /** One `pluginDependencies` entry. */
  datatype Dependency = Dependency(plugin: string, needs: seq<string>)

  /**
   * `plugins` maps a name to its instance (`None` while only registered);
   * `dependencies` is the dependency map in insertion order.
   */
  datatype System = System(
    plugins: map<string, Option<Instance>>,
    loaded: set<string>,
    enabled: set<string>,
    dependencies: seq<Dependency>)

  datatype PluginError =
    | InvalidStructure
    | ImportFailed
    | NoDefaultClass
    | HookFailed(hook: string)
    | NotLoaded
    | DependenciesNotMet
    | EnabledDependents(names: seq<string>)
    | NotFound
    | NotEnabled
    | MethodNotFound

  /** The system after a call, and what the call threw, if anything (state changed before a throw stays changed). */
  datatype Outcome = Outcome(sys: System, error: Option<PluginError>)

  /** Enabled plugins are loaded, and a loaded plugin has an instance. */
  predicate Consistent(s: System) {
    && s.enabled <= s.loaded
    && (forall n :: n in s.loaded ==> n in s.plugins && s.plugins[n].Some?)
  }

  function NewSystem(): (s: System)
    ensures Consistent(s) && s.loaded == {} && s.enabled == {}
  {
    System(map[], {}, {}, [])
  }

  // ---------------------------------------------------------------- dependencies

  /** `pluginDependencies.get(name)`, with a missing entry read as no dependencies. */
  function Needs(deps: seq<Dependency>, name: string): seq<string> {
    if |deps| == 0 then []
    else if deps[0].plugin == name then deps[0].needs
    else Needs(deps[1..], name)
  }

  /** `pluginDependencies.set(name, needs)`: replaces in place, or appends a new entry. */
  function SetNeeds(deps: seq<Dependency>, name: string, needs: seq<string>): (r: seq<Dependency>)
    ensures Needs(r, name) == needs
    ensures forall p :: p != name ==> Needs(r, p) == Needs(deps, p)
  {
    if |deps| == 0 then [Dependency(name, needs)]
    else if deps[0].plugin == name then [Dependency(name, needs)] + deps[1..]
    else [deps[0]] + SetNeeds(deps[1..], name, needs)
  }

  /** Every name some plugin depends on. */
  function DependencyNames(deps: seq<Dependency>): set<string> {
    set i, j | 0 <= i < |deps| && 0 <= j < |deps[i].needs| :: deps[i].needs[j]
  }

  lemma {:induction false} NeedsListed(deps: seq<Dependency>, name: string, j: nat)
    requires j < |Needs(deps, name)|
    ensures Needs(deps, name)[j] in DependencyNames(deps)
  {
    if deps[0].plugin != name {
      NeedsListed(deps[1..], name, j);
      var x := Needs(deps, name)[j];
      var k, m :| 0 <= k < |deps[1..]| && 0 <= m < |deps[1..][k].needs| && deps[1..][k].needs[m] == x;
      assert deps[k + 1].needs[m] == x;
    } else {
      assert deps[0].needs[j] in DependencyNames(deps);
    }
  }

  /** `getDependents(name)`: the plugins whose dependency list contains the name, in insertion order. */
  function Dependents(deps: seq<Dependency>, name: string): (r: seq<string>)
    ensures forall p :: p in r <==> exists i :: 0 <= i < |deps| && deps[i].plugin == p && name in deps[i].needs
  {
    if |deps| == 0 then []
    else
      var rest := Dependents(deps[1..], name);
      assert forall i :: 1 <= i < |deps| ==> deps[i] == deps[1..][i - 1];
      (if name in deps[0].needs then [deps[0].plugin] else []) + rest
  }

  /** Names yet to be loaded among those some plugin depends on; loading a dependency shrinks it. */
  function Pending(s: System): nat {
    |DependencyNames(s.dependencies) - s.loaded|
  }

  lemma PendingShrinks(s: System, dep: string)
    requires dep in DependencyNames(s.dependencies) && dep !in s.loaded
    ensures |DependencyNames(s.dependencies) - (s.loaded + {dep})| < Pending(s)
  {
    var a := DependencyNames(s.dependencies) - s.loaded;
    assert DependencyNames(s.dependencies) - (s.loaded + {dep}) == a - {dep};
  }

  lemma PendingMonotone(s: System, t: System)
    requires t.dependencies == s.dependencies && s.loaded <= t.loaded
    ensures Pending(t) <= Pending(s)
  {
    var d := DependencyNames(s.dependencies);
    assert d - t.loaded <= d - s.loaded;
    SubsetSize(d - t.loaded, d - s.loaded);
  }

  lemma {:induction false} SubsetSize<T>(a: set<T>, b: set<T>)
    requires a <= b
    ensures |a| <= |b|
    decreases |a|
  {
    if a != {} {
      var x :| x in a;
      SubsetSize(a - {x}, b - {x});
    }
  }

  // ---------------------------------------------------------------- lifecycle

  /**
   * `register(name, plugin)`: ignored for a known name, rejected when the
   * definition is neither a class nor an object with `init`; the plugin's
   * `dependencies`, when truthy, are recorded.
   */
  function Register(s: System, name: string, valid: bool, deps: Option<seq<string>>): (r: Outcome)
    ensures name in s.plugins ==> r == Outcome(s, None)
    ensures name !in s.plugins && !valid ==> r == Outcome(s, Some(InvalidStructure))
    ensures name !in s.plugins && valid ==> r.error.None? && name in r.sys.plugins && r.sys.plugins[name].None?
    ensures Consistent(s) ==> Consistent(r.sys)
  {
    if name in s.plugins then Outcome(s, None)
    else if !valid then Outcome(s, Some(InvalidStructure))
    else
      var ds := if deps.Some? then SetNeeds(s.dependencies, name, deps.value) else s.dependencies;
      Outcome(s.(plugins := s.plugins[name := None], dependencies := ds), None)
  }

  /** Calls an optional lifecycle hook: absent is fine, a throwing hook is an error. */
  function Hook(inst: Instance, hook: string): Option<PluginError> {
    if hook in inst.functions && hook in inst.throwing then Some(HookFailed(hook)) else None
  }

  /**
   * `loadPlugin(name, {core, autoEnable})`: a loaded name is left alone;
   * otherwise the module is imported and instantiated, recorded as loaded,
   * initialised, and enabled unless `autoEnable` is `false`.
   */
  function Load(s: System, name: string, core: bool, autoEnable: bool, loader: Loader): (r: Outcome)
    ensures r.sys.dependencies == s.dependencies && s.loaded <= r.sys.loaded && s.enabled <= r.sys.enabled
    ensures Consistent(s) ==> Consistent(r.sys)
    ensures name in s.loaded ==> r == Outcome(s, None)
    ensures name !in s.loaded && r.error.None? ==> name in r.sys.loaded && (autoEnable ==> name in r.sys.enabled)
    decreases |DependencyNames(s.dependencies) - (s.loaded + {name})|, 3
  {
    if name in s.loaded then Outcome(s, None)
    else match loader(name, core)
      case ImportFails => Outcome(s, Some(ImportFailed))
      case NoClass => Outcome(s, Some(NoDefaultClass))
      case Constructed(inst) =>
        var s1 := s.(plugins := s.plugins[name := Some(inst)], loaded := s.loaded + {name});
        assert Pending(s1) == |DependencyNames(s.dependencies) - (s.loaded + {name})|;
        if Hook(inst, "init").Some? then Outcome(s1, Hook(inst, "init"))
        else if autoEnable then Enable(s1, name, loader)
        else Outcome(s1, None)
  }

  /**
   * `enablePlugin(name)`: only a loaded plugin; an enabled one is left alone;
   * the dependencies are checked (which may load them) before the `enable`
   * hook runs.
   */
  function Enable(s: System, name: string, loader: Loader): (r: Outcome)
    ensures r.sys.dependencies == s.dependencies && s.loaded <= r.sys.loaded && s.enabled <= r.sys.enabled
    ensures Consistent(s) ==> Consistent(r.sys)
    ensures name !in s.loaded ==> r == Outcome(s, Some(NotLoaded))
    ensures name in s.loaded && name in s.enabled ==> r == Outcome(s, None)
    ensures r.error.None? ==> name in r.sys.enabled
    decreases Pending(s), 2
  {
    if name !in s.loaded then Outcome(s, Some(NotLoaded))
    else if name in s.enabled then Outcome(s, None)
    else
      var (s1, met) := CheckDependencies(s, name, 0, loader);
      if !met then Outcome(s1, Some(DependenciesNotMet))
      else if name !in s1.plugins || s1.plugins[name].None? then Outcome(s1, Some(NotLoaded))
      else if Hook(s1.plugins[name].value, "enable").Some? then Outcome(s1, Hook(s1.plugins[name].value, "enable"))
      else Outcome(s1.(enabled := s1.enabled + {name}), None)
  }

  /**
   * `checkDependencies(name)` from the `i`-th dependency on: an enabled
   * dependency passes, any other is loaded with the default options (a
   * no-op for one already loaded), and the first load that throws fails the
   * check.
   */
  function CheckDependencies(s: System, name: string, i: nat, loader: Loader): (r: (System, bool))
    ensures r.0.dependencies == s.dependencies && s.loaded <= r.0.loaded && s.enabled <= r.0.enabled
    ensures Consistent(s) ==> Consistent(r.0)
    decreases Pending(s), 1, |Needs(s.dependencies, name)| - i
  {
    var needs := Needs(s.dependencies, name);
    if i >= |needs| then (s, true)
    else
      var dep := needs[i];
      if dep in s.enabled || dep in s.loaded then CheckDependencies(s, name, i + 1, loader)
      else
        NeedsListed(s.dependencies, name, i);
        PendingShrinks(s, dep);
        var o := Load(s, dep, false, true, loader);
        if o.error.Some? then (o.sys, false)
        else
          PendingMonotone(s, o.sys);
          CheckDependencies(o.sys, name, i + 1, loader)
  }

  /**
   * `disablePlugin(name)`: a plugin that is not enabled is left alone; one
   * that an enabled plugin depends on cannot be disabled.
   */
  function Disable(s: System, name: string): (r: Outcome)
    ensures r.sys.dependencies == s.dependencies && r.sys.loaded == s.loaded && r.sys.plugins == s.plugins
    ensures Consistent(s) ==> Consistent(r.sys)
    ensures name !in s.enabled ==> r == Outcome(s, None)
    ensures r.error.None? ==> r.sys.enabled == s.enabled - {name}
    ensures r.error.Some? ==> r.sys == s
  {
    if name !in s.enabled then Outcome(s, None)
    else
      var blocking := Filter(Dependents(s.dependencies, name), p => p in s.enabled);
      if |blocking| > 0 then Outcome(s, Some(EnabledDependents(blocking)))
      else if name in s.plugins && s.plugins[name].Some? && Hook(s.plugins[name].value, "disable").Some? then
        Outcome(s, Hook(s.plugins[name].value, "disable"))
      else Outcome(s.(enabled := s.enabled - {name}), None)
  }

  /** `unloadPlugin(name)`: disable first, then drop the instance and the loaded mark. */
  function Unload(s: System, name: string): (r: Outcome)
    ensures r.sys.dependencies == s.dependencies
    ensures Consistent(s) ==> Consistent(r.sys)
    ensures r.error.None? ==> (name !in r.sys.loaded && name !in r.sys.enabled &&
      (name in s.loaded ==> name !in r.sys.plugins))
  {
    var d := Disable(s, name);
    if d.error.Some? then d
    else
      var s1 := d.sys;
      if name !in s1.loaded then Outcome(s1, None)
      else if name in s1.plugins && s1.plugins[name].Some? && Hook(s1.plugins[name].value, "destroy").Some? then
        Outcome(s1, Hook(s1.plugins[name].value, "destroy"))
      else Outcome(s1.(loaded := s1.loaded - {name}, plugins := s1.plugins - {name}), None)
  }

  /**
   * `callPluginMethod(name, member)`: checked in this order — an instance
   * exists, the plugin is enabled, the method is a function. `Ok` means the
   * method was invoked.
   */
  function CallPluginMethod(s: System, name: string, member: string): (r: Result<Instance, PluginError>)
    ensures (name !in s.plugins || s.plugins[name].None?) ==> r == Err(NotFound)
    ensures name in s.plugins && s.plugins[name].Some? && name !in s.enabled ==> r == Err(NotEnabled)
    ensures r.Ok? <==> name in s.plugins && s.plugins[name].Some? && name in s.enabled && member in s.plugins[name].value.functions
  {
    if name !in s.plugins || s.plugins[name].None? then Err(NotFound)
    else if name !in s.enabled then Err(NotEnabled)
    else if member !in s.plugins[name].value.functions then Err(MethodNotFound)
    else Ok(s.plugins[name].value)
  }

  // ---------------------------------------------------------------- properties

  /**
   * The dependency check lets a dependency through when it is enabled or
   * merely loaded: with every dependency loaded it passes and changes
   * nothing, even when some of them are disabled.
   */
  lemma {:induction false} LoadedDependenciesPass(s: System, name: string, i: nat, loader: Loader)
    requires forall j :: i <= j < |Needs(s.dependencies, name)| ==> Needs(s.dependencies, name)[j] in s.loaded
    ensures CheckDependencies(s, name, i, loader) == (s, true)
    decreases |Needs(s.dependencies, name)| - i
  {
    if i < |Needs(s.dependencies, name)| {
      LoadedDependenciesPass(s, name, i + 1, loader);
    }
  }

  /**
   * So a plugin can be enabled while one of its dependencies stays disabled:
   * enabling succeeds whenever every dependency is loaded and the `enable`
   * hook does not throw.
   */
  lemma EnableWithLoadedDependencies(s: System, name: string, loader: Loader)
    requires Consistent(s) && name in s.loaded && name !in s.enabled
    requires forall j :: 0 <= j < |Needs(s.dependencies, name)| ==> Needs(s.dependencies, name)[j] in s.loaded
    requires Hook(s.plugins[name].value, "enable").None?
    ensures Enable(s, name, loader) == Outcome(s.(enabled := s.enabled + {name}), None)
  {
    LoadedDependenciesPass(s, name, 0, loader);
  }

  /** A failed dependency check means some dependency was neither enabled nor loaded, and its load threw. */
  lemma {:induction false} FailedCheckHadMissing(s: System, name: string, i: nat, loader: Loader)
    requires !CheckDependencies(s, name, i, loader).1
    ensures exists j :: i <= j < |Needs(s.dependencies, name)| && Needs(s.dependencies, name)[j] !in s.loaded
    decreases |Needs(s.dependencies, name)| - i
  {
    var needs := Needs(s.dependencies, name);
    var dep := needs[i];
    if dep in s.enabled || dep in s.loaded {
      FailedCheckHadMissing(s, name, i + 1, loader);
      var j :| i + 1 <= j < |needs| && needs[j] !in s.loaded;
    } else {
      assert needs[i] !in s.loaded;
    }
  }

  /** Disabling is refused, with nothing changed, while an enabled plugin depends on the name. */
  lemma DisableBlockedByDependent(s: System, name: string, user: string)
    requires name in s.enabled && user in s.enabled && user in Dependents(s.dependencies, name)
    ensures Disable(s, name).error.Some? && Disable(s, name).sys == s
  {
    var blocking := Filter(Dependents(s.dependencies, name), p => p in s.enabled);
    FilterMembers(Dependents(s.dependencies, name), p => p in s.enabled, user);
    assert user in blocking;
  }

  /** Unloading an enabled plugin disables it first: a plugin something enabled depends on cannot be unloaded. */
  lemma UnloadDisablesFirst(s: System, name: string)
    ensures name in s.enabled && Disable(s, name).error.Some? ==> Unload(s, name) == Disable(s, name)
    ensures name !in s.loaded && name !in s.enabled ==> Unload(s, name) == Outcome(s, None)
  {
  }
}

=== FILE: projects.dfy ===
/**
 * The projects feature's list logic: creating, updating, deleting and
 * duplicating projects, the project form's submit rule, the status labels,
 * and starting a chat from a project.
 *
 * Generated ids, clock readings and the user's answer to the delete
 * confirmation are parameters. The model writes every changed list back as
 * a new array, so the store's subscribers hear of it; `CreateProjectAsWritten`,
 * `UpdateProjectAsWritten` and `StartProjectChatAsWritten` are the source's
 * in-place writes, which they do not.
 */
module Projects {
  import opened Base
  import opened Text
  import JsValue
  import FeatureList
  import Chats

  datatype Project = Project(
    id: string,
    title: string,
    description: string,
    instructions: string,
    status: string,
    lastActive: string,
    knowledgeBase: string,
    createdAt: string)

  type Projects = FeatureList.Stored<Project>

  function WithId(id: string): Project -> bool {
    (p: Project) => p.id == id
  }

  // ---------------------------------------------------------------- create and update

  /** `createProject(data)` as written: `unshift` on the stored array, then `set` of that same array. */
  function CreateProjectAsWritten(s: Projects, p: Project): (r: Projects)
    ensures r.items == [p] + s.items
    ensures !FeatureList.Notifies(s, r)
  {
    FeatureList.UnshiftInPlace(s, p)
  }

  /** `createProject(data)`: the new project first, the others after it in their order, as a new array. */
  function CreateProject(s: Projects, p: Project, newRef: JsValue.Ref): (r: Projects)
    requires newRef != s.ref
    ensures |r.items| == |s.items| + 1 && r.items[0] == p && r.items[1..] == s.items
    ensures FeatureList.Notifies(s, r)
  {
    FeatureList.WriteNew(s, [p] + s.items, newRef)
  }

  /** `updateProject(data)` as written: the stored array changed in place, then written back. */
  function UpdateProjectAsWritten(s: Projects, p: Project): (r: Projects)
    ensures r.items == FeatureList.UpdateFirst(s.items, WithId(p.id), (q: Project) => p)
    ensures !FeatureList.Notifies(s, r)
  {
    FeatureList.MutateInPlace(s, FeatureList.UpdateFirst(s.items, WithId(p.id), (q: Project) => p))
  }

  /** `updateProject(data)`: the first project with the same id is replaced where it stands; an unknown id writes nothing. */
  function UpdateProject(s: Projects, p: Project, newRef: JsValue.Ref): (r: Projects)
    requires newRef != s.ref
    ensures FeatureList.FindIndex(s.items, WithId(p.id)).None? ==> r == s
    ensures FeatureList.FindIndex(s.items, WithId(p.id)).Some? ==>
      var i := FeatureList.FindIndex(s.items, WithId(p.id)).value;
      r.items == s.items[i := p] && FeatureList.Notifies(s, r)
  {
    if FeatureList.FindIndex(s.items, WithId(p.id)).None? then s
    else FeatureList.WriteNew(s, FeatureList.UpdateFirst(s.items, WithId(p.id), (q: Project) => p), newRef)
  }

  /** Updating a project that is not first in line leaves the earlier ones, and the length, alone. */
  lemma UpdateKeepsOthers(s: Projects, p: Project, newRef: JsValue.Ref)
    requires newRef != s.ref
    ensures var r := UpdateProject(s, p, newRef);
      |r.items| == |s.items|
      && (forall j :: 0 <= j < |s.items| && s.items[j].id != p.id ==> r.items[j] == s.items[j])
  {
  }

  // ---------------------------------------------------------------- delete and duplicate

  /** `deleteProject(id)` after the confirmation: every project with that id goes. */
  function DeleteProject(s: Projects, id: string, confirmed: bool, newRef: JsValue.Ref): (r: Projects)
    requires newRef != s.ref
    ensures FeatureList.FindIndex(s.items, WithId(id)).None? || !confirmed ==> r == s
    ensures FeatureList.FindIndex(s.items, WithId(id)).Some? && confirmed ==>
      (forall q :: q in r.items <==> q in s.items && q.id != id)
      && |r.items| < |s.items| && FeatureList.Notifies(s, r)
  {
    if FeatureList.FindIndex(s.items, WithId(id)).None? || !confirmed then s
    else FeatureList.WriteNew(s, FeatureList.RemoveAll(s.items, WithId(id)), newRef)
  }

  /** The copy `duplicateProject` makes: a new id and creation time, " (Copy)" on the title, no last activity. */
  function Copy(p: Project, newId: string, now: string): (c: Project)
    ensures c.(id := p.id, title := p.title, createdAt := p.createdAt, lastActive := p.lastActive) == p
    ensures c.title == p.title + " (Copy)" && c.id == newId && c.lastActive == ""
  {
    p.(id := newId, title := p.title + " (Copy)", createdAt := now, lastActive := "")
  }

  /** `duplicateProject(id)`: the copy of the first project with that id goes first. */
  function DuplicateProject(s: Projects, id: string, newId: string, now: string, newRef: JsValue.Ref): (r: Projects)
    requires newRef != s.ref
    ensures FeatureList.Find(s.items, WithId(id)).None? ==> r == s
    ensures FeatureList.Find(s.items, WithId(id)).Some? ==>
      r.items == [Copy(FeatureList.Find(s.items, WithId(id)).value, newId, now)] + s.items
  {
    match FeatureList.Find(s.items, WithId(id))
    case None => s
    case Some(p) => CreateProject(s, Copy(p, newId, now), newRef)
  }

  /** The copy keeps description, instructions, status and knowledge base, and differs from the original by its title. */
  lemma DuplicateCopiesFields(s: Projects, id: string, newId: string, now: string, newRef: JsValue.Ref)
    requires newRef != s.ref && FeatureList.Find(s.items, WithId(id)).Some?
    ensures var p := FeatureList.Find(s.items, WithId(id)).value;
      var c := DuplicateProject(s, id, newId, now, newRef).items[0];
      c.description == p.description && c.instructions == p.instructions
      && c.status == p.status && c.knowledgeBase == p.knowledgeBase
      && c != p && StartsWith(c.title, p.title)
  {
    var p := FeatureList.Find(s.items, WithId(id)).value;
    var c := Copy(p, newId, now);
    assert |c.title| > |p.title|;
    assert c.title[..|p.title|] == p.title;
  }

  // ---------------------------------------------------------------- status and form

  /** `formatStatus(status)`: the four known statuses get a label; anything else passes through. */
  function FormatStatus(status: string): (shown: string)
    ensures status !in {"active", "planned", "completed", "paused"} ==> shown == status
    ensures status in {"active", "planned", "completed", "paused"} ==>
      shown == [UpperChar(status[0])] + status[1..]
  {
    if status == "active" then "Active"
    else if status == "planned" then "Planned"
    else if status == "completed" then "Completed"
    else if status == "paused" then "Paused"
    else status
  }

  /** The project form's fields as submitted, and the knowledge-base choice. */
  datatype Form = Form(name: string, description: string, instructions: string, useExisting: bool, existingKnowledge: string)

  /** The generated values a submit may use: project id, knowledge-base id, the time and the date. */
  datatype Fresh = Fresh(projectId: string, knowledgeBaseId: string, now: string, today: string)

  datatype Submitted = Submitted(accepted: bool, projects: Projects)

  /** The record `handleProjectSubmit` builds from the form. */
  function FromForm(f: Form, existing: Option<Project>, g: Fresh): Project {
    Project(
      if existing.Some? then existing.value.id else g.projectId,
      Trim(f.name),
      if Trim(f.description) != "" then Trim(f.description) else "No description provided",
      Trim(f.instructions),
      if existing.Some? then existing.value.status else "active",
      g.today,
      if f.useExisting then f.existingKnowledge else g.knowledgeBaseId,
      if existing.Some? then existing.value.createdAt else g.now)
  }

  /** `handleProjectSubmit(existing)`: a blank name is refused; otherwise the project is updated or created. */
  function Submit(s: Projects, f: Form, existing: Option<Project>, g: Fresh, newRef: JsValue.Ref): (r: Submitted)
    requires newRef != s.ref
    ensures !r.accepted <==> Trim(f.name) == ""
    ensures !r.accepted ==> r.projects == s
    ensures r.accepted && existing.None? ==> r.projects == CreateProject(s, FromForm(f, existing, g), newRef)
    ensures r.accepted && existing.Some? ==> r.projects == UpdateProject(s, FromForm(f, existing, g), newRef)
  {
    if Trim(f.name) == "" then Submitted(false, s)
    else
      var p := FromForm(f, existing, g);
      if existing.Some? then Submitted(true, UpdateProject(s, p, newRef))
      else Submitted(true, CreateProject(s, p, newRef))
  }

  /** Editing keeps the project's id, status and creation time, and fills a blank description. */
  lemma EditKeepsIdentity(f: Form, e: Project, g: Fresh)
    ensures var p := FromForm(f, Some(e), g);
      p.id == e.id && p.status == e.status && p.createdAt == e.createdAt
      && (Trim(f.description) == "" ==> p.description == "No description provided")
      && p.title == Trim(f.name)
  {
  }

  // ---------------------------------------------------------------- chats

  /** The chat `startProjectChat` opens for a project. */
  function ProjectChat(p: Project, chatId: string, now: string): Chats.Chat {
    Chats.Chat(chatId, "Chat: " + p.title, "New chat started", now, Some(p.id), Some(p.knowledgeBase), None)
  }

  /** `startProjectChat(id)` as written: `unshift` on the stored chat array, then `set` of that same array. */
  function StartProjectChatAsWritten(s: Projects, chats: FeatureList.Stored<Chats.Chat>, id: string, chatId: string, now: string): (r: FeatureList.Stored<Chats.Chat>)
    ensures FeatureList.Find(s.items, WithId(id)).None? ==> r == chats
    ensures FeatureList.Find(s.items, WithId(id)).Some? ==>
      r.items == [ProjectChat(FeatureList.Find(s.items, WithId(id)).value, chatId, now)] + chats.items
      && !FeatureList.Notifies(chats, r)
  {
    match FeatureList.Find(s.items, WithId(id))
    case None => chats
    case Some(p) => FeatureList.UnshiftInPlace(chats, ProjectChat(p, chatId, now))
  }

  /** `startProjectChat(id)`: for a known project a chat about it goes first in the chat list, written as a new array. */
  function StartProjectChat(s: Projects, chats: FeatureList.Stored<Chats.Chat>, id: string, chatId: string, now: string, newRef: JsValue.Ref): (r: FeatureList.Stored<Chats.Chat>)
    requires newRef != chats.ref
    ensures FeatureList.Find(s.items, WithId(id)).None? ==> r == chats
    ensures FeatureList.Find(s.items, WithId(id)).Some? ==>
      var p := FeatureList.Find(s.items, WithId(id)).value;
      |r.items| == |chats.items| + 1 && r.items[1..] == chats.items
      && r.items[0].title == "Chat: " + p.title
      && r.items[0].projectId == Some(p.id) && r.items[0].knowledgeBase == Some(p.knowledgeBase)
      && FeatureList.Notifies(chats, r)
  {
    match FeatureList.Find(s.items, WithId(id))
    case None => chats
    case Some(p) => FeatureList.WriteNew(chats, [ProjectChat(p, chatId, now)] + chats.items, newRef)
  }
}

=== FILE: resizable_panel.dfy ===
/**
 * The width arithmetic of the resizable side panel: clamping to the
 * configured bounds, snapping to preset sizes while dragging, the preset
 * buttons' active state, the main-content margin, opening and closing, and
 * the state it saves and loads back.
 *
 * The DOM, the custom events and the animation frame are left to the
 * browser; a drag step applies its width at once.
 */
module ResizablePanel {
  import opened Base

  datatype Options = Options(
    minWidth: int,
    maxWidth: int,
    defaultWidth: int,
    snapThreshold: int,
    snapSizes: seq<int>)

  /** The defaults the constructor starts from. */
  const Defaults: Options := Options(300, 800, 400, 20, [300, 400, 500, 600])

  /** The sizes of the four preset buttons (S, M, L, XL). */
  const PresetSizes: seq<int> := [300, 400, 500, 600]

  datatype Panel = Panel(
    isOpen: bool,
    currentWidth: int,
    isResizing: bool,
    isDragging: bool,
    startX: int,
    startWidth: int)

  /** The state right after construction. */
  function NewPanel(o: Options): (p: Panel)
    ensures !p.isOpen && !p.isDragging && !p.isResizing && p.currentWidth == o.defaultWidth
  {
    Panel(false, o.defaultWidth, false, false, 0, 0)
  }

  function Abs(x: int): nat {
    if x < 0 then -x else x
  }

  /** `Math.max(minWidth, Math.min(maxWidth, w))`: the lower bound wins when the bounds cross. */
  function Clamp(o: Options, w: int): (r: int)
    ensures r >= o.minWidth
    ensures o.minWidth <= o.maxWidth ==> r <= o.maxWidth
    ensures o.minWidth <= w <= o.maxWidth ==> r == w
    ensures w < o.minWidth ==> r == o.minWidth
    ensures o.minWidth <= o.maxWidth < w ==> r == o.maxWidth
  {
    var upper := if o.maxWidth < w then o.maxWidth else w;
    if o.minWidth < upper then upper else o.minWidth
  }

  lemma ClampIdempotent(o: Options, w: int)
    requires o.minWidth <= o.maxWidth
    ensures Clamp(o, Clamp(o, w)) == Clamp(o, w)
  {
  }

  /** A snap size applies when the width is within the threshold of it, bounds included. */
  predicate Near(o: Options, width: int, size: int) {
    Abs(width - size) <= o.snapThreshold
  }

  /** `getSnapSize(width)`: the first snap size near the width, if any. */
  function SnapSize(o: Options, width: int, sizes: seq<int>): (r: Option<int>)
    ensures r.None? <==> forall i :: 0 <= i < |sizes| ==> !Near(o, width, sizes[i])
    ensures r.Some? ==>
      exists i :: 0 <= i < |sizes| && sizes[i] == r.value && Near(o, width, r.value)
        && forall j :: 0 <= j < i ==> !Near(o, width, sizes[j])
  {
    if |sizes| == 0 then None
    else if Near(o, width, sizes[0]) then Some(sizes[0])
    else
      var r := SnapSize(o, width, sizes[1..]);
      if r.Some? then
        var i :| 0 <= i < |sizes[1..]| && sizes[1..][i] == r.value && Near(o, width, r.value)
          && forall j :: 0 <= j < i ==> !Near(o, width, sizes[1..][j]);
        assert sizes[i + 1] == r.value;
        r
      else r
  }

  // ---------------------------------------------------------------- width

  /** `updateWidth(width)`: the width is applied as given. */
  function UpdateWidth(p: Panel, width: int): (q: Panel)
    ensures q.currentWidth == width
    ensures q.(currentWidth := p.currentWidth) == p
  {
    p.(currentWidth := width)
  }

  /** What `saveState` writes: the width and whether the panel is open (and a timestamp). */
  datatype Saved = Saved(width: int, isOpen: bool, timestamp: int)

  datatype Step = Step(panel: Panel, saved: Option<Saved>)

  function Save(p: Panel, now: int): Saved {
    Saved(p.currentWidth, p.isOpen, now)
  }

  /** `setWidth(width)`: clamp, apply and save. */
  function SetWidth(o: Options, p: Panel, width: int, now: int): (s: Step)
    ensures s.panel.currentWidth == Clamp(o, width)
    ensures s.panel.(currentWidth := p.currentWidth) == p
    ensures s.saved == Some(Saved(Clamp(o, width), p.isOpen, now))
  {
    var q := UpdateWidth(p, Clamp(o, width));
    Step(q, Some(Save(q, now)))
  }

  function Minimize(o: Options, p: Panel, now: int): Step {
    SetWidth(o, p, o.minWidth, now)
  }

  function Maximize(o: Options, p: Panel, now: int): Step {
    SetWidth(o, p, o.maxWidth, now)
  }

  /** Minimizing always lands on `minWidth`; maximizing lands on `maxWidth` when the bounds are ordered. */
  lemma MinimizeMaximize(o: Options, p: Panel, now: int)
    ensures Minimize(o, p, now).panel.currentWidth == o.minWidth
    ensures o.minWidth <= o.maxWidth ==> Maximize(o, p, now).panel.currentWidth == o.maxWidth
    ensures o.minWidth > o.maxWidth ==> Maximize(o, p, now).panel.currentWidth == o.minWidth
  {
  }

  // ---------------------------------------------------------------- dragging

  /** `startResize(clientX)`: both flags set, and the drag's origin remembered. */
  function StartResize(p: Panel, clientX: int): (q: Panel)
    ensures q.isDragging && q.isResizing
    ensures q.startX == clientX && q.startWidth == p.currentWidth
    ensures q.isOpen == p.isOpen && q.currentWidth == p.currentWidth
  {
    p.(isDragging := true, isResizing := true, startX := clientX, startWidth := p.currentWidth)
  }

  /** The width a drag to `clientX` asks for: dragging left widens the panel, then clamp, then snap. */
  function DragWidth(o: Options, p: Panel, clientX: int): (w: int)
    ensures var c := Clamp(o, p.startWidth + (p.startX - clientX));
      match SnapSize(o, c, o.snapSizes)
      case Some(s) => w == s && Near(o, c, s)
      case None => w == c
  {
    var c := Clamp(o, p.startWidth + (p.startX - clientX));
    match SnapSize(o, c, o.snapSizes)
    case Some(s) => s
    case None => c
  }

  /** When every snap size lies within the bounds, a drag never leaves them. */
  lemma DragWithinBounds(o: Options, p: Panel, clientX: int)
    requires o.minWidth <= o.maxWidth
    requires forall i :: 0 <= i < |o.snapSizes| ==> o.minWidth <= o.snapSizes[i] <= o.maxWidth
    ensures o.minWidth <= DragWidth(o, p, clientX) <= o.maxWidth
  {
  }

  /** A drag that ends up more than the threshold away from every snap size keeps the clamped width. */
  lemma DragWithoutSnap(o: Options, p: Panel, clientX: int)
    requires var c := Clamp(o, p.startWidth + (p.startX - clientX));
      forall i :: 0 <= i < |o.snapSizes| ==> !Near(o, c, o.snapSizes[i])
    ensures DragWidth(o, p, clientX) == Clamp(o, p.startWidth + (p.startX - clientX))
  {
  }

  /** `handleMouseMove` / `handleTouchMove` followed by `updateResize`: nothing happens outside a drag. */
  function Move(o: Options, p: Panel, clientX: int): (q: Panel)
    ensures !p.isDragging ==> q == p
    ensures p.isDragging ==> q == p.(currentWidth := DragWidth(o, p, clientX))
  {
    if !p.isDragging then p else UpdateWidth(p, DragWidth(o, p, clientX))
  }

  /** `endResize()`: both flags cleared and the state saved. */
  function EndResize(p: Panel, now: int): (s: Step)
    ensures !s.panel.isDragging && !s.panel.isResizing
    ensures s.panel.currentWidth == p.currentWidth && s.panel.isOpen == p.isOpen
    ensures s.saved == Some(Saved(p.currentWidth, p.isOpen, now))
  {
    var q := p.(isDragging := false, isResizing := false);
    Step(q, Some(Save(q, now)))
  }

  /** `handleMouseUp` / `handleTouchEnd`: ends the drag, if there is one. */
  function Release(p: Panel, now: int): (s: Step)
    ensures !p.isDragging ==> s == Step(p, None)
    ensures p.isDragging ==> s == EndResize(p, now)
  {
    if !p.isDragging then Step(p, None) else EndResize(p, now)
  }

  /** A whole drag: start, one move, release. The panel ends idle at the dragged width, which is saved. */
  lemma DragSequence(o: Options, p: Panel, x0: int, x1: int, now: int)
    ensures var s := Release(Move(o, StartResize(p, x0), x1), now);
      var w := DragWidth(o, StartResize(p, x0), x1);
      !s.panel.isDragging && !s.panel.isResizing
      && s.panel.currentWidth == w && s.panel.isOpen == p.isOpen
      && s.saved == Some(Saved(w, p.isOpen, now))
  {
  }

  /** A drag that returns to where it started gives back the width it started from, when that width is in bounds and not near another snap size. */
  lemma DragBackToStart(o: Options, p: Panel, x: int)
    requires o.minWidth <= p.currentWidth <= o.maxWidth
    requires forall i :: 0 <= i < |o.snapSizes| ==> o.snapSizes[i] == p.currentWidth || !Near(o, p.currentWidth, o.snapSizes[i])
    ensures DragWidth(o, StartResize(p, x), x) == p.currentWidth
  {
  }

  // ---------------------------------------------------------------- presets and margin

  /** `updatePresetActiveState`: a preset button is active within 10 pixels of the width, inclusive. */
  predicate PresetActive(size: int, width: int) {
    Abs(size - width) <= 10
  }

  function PresetStates(width: int): (r: seq<bool>)
    ensures |r| == |PresetSizes|
    ensures forall i :: 0 <= i < |r| ==> (r[i] <==> PresetActive(PresetSizes[i], width))
  {
    seq(|PresetSizes|, i requires 0 <= i < |PresetSizes| => PresetActive(PresetSizes[i], width))
  }

  /** After choosing a preset with the default bounds, its button and no other is active. */
  lemma ChosenPresetAlone(p: Panel, k: nat, now: int)
    requires k < |PresetSizes|
    ensures var w := SetWidth(Defaults, p, PresetSizes[k], now).panel.currentWidth;
      forall i :: 0 <= i < |PresetSizes| ==> (PresetStates(w)[i] <==> i == k)
  {
  }

  /** `updateMainContentMargin`: the main content makes room only for an open panel. */
  function Margin(p: Panel): (m: int)
    ensures p.isOpen ==> m == p.currentWidth
    ensures !p.isOpen ==> m == 0
  {
    if p.isOpen then p.currentWidth else 0
  }

  /** `open()`: only the open flag changes, and the main content makes room for the whole width. */
  function Open(p: Panel): (q: Panel)
    ensures q.isOpen && q.(isOpen := p.isOpen) == p
    ensures Margin(q) == q.currentWidth
  {
    p.(isOpen := true)
  }

  /** `close()`: only the open flag changes, and the main content takes the room back. */
  function Close(p: Panel): (q: Panel)
    ensures !q.isOpen && q.(isOpen := p.isOpen) == p
    ensures Margin(q) == 0
  {
    p.(isOpen := false)
  }

  /** `toggle()`: close an open panel, open a closed one. */
  function Toggle(p: Panel): (q: Panel)
    ensures q.isOpen == !p.isOpen
    ensures q.(isOpen := p.isOpen) == p
  {
    if p.isOpen then Close(p) else Open(p)
  }

  /** Toggling twice gives the panel back, and the margin follows the toggles. */
  lemma ToggleTwice(p: Panel)
    ensures Toggle(Toggle(p)) == p
    ensures Margin(Toggle(p)) == (if p.isOpen then 0 else p.currentWidth)
  {
  }

  // ---------------------------------------------------------------- persistence

  /**
   * What `storage.get(persistKey)` hands back: `width` and `isOpen` when
   * present. A width of 0 and an absent width are both falsy.
   */
  datatype Stored = Stored(width: Option<int>, isOpen: Option<bool>)

  /** `loadState()`: a falsy width falls back to `defaultWidth`, a falsy `isOpen` to false; no saved state keeps the panel as it is. */
  function LoadState(o: Options, p: Panel, saved: Option<Stored>): (q: Panel)
    ensures saved.None? ==> q == p
    ensures saved.Some? ==>
      q == p.(currentWidth := if saved.value.width.Some? && saved.value.width.value != 0
                              then saved.value.width.value else o.defaultWidth,
              isOpen := saved.value.isOpen == Some(true))
  {
    match saved
    case None => p
    case Some(s) =>
      var width := match s.width
        case Some(w) => if w != 0 then w else o.defaultWidth
        case None => o.defaultWidth;
      var open := match s.isOpen
        case Some(b) => b
        case None => false;
      p.(currentWidth := width, isOpen := open)
  }

  /** What a saved state reads back as. */
  function Stores(s: Saved): Stored {
    Stored(Some(s.width), Some(s.isOpen))
  }

  /** Loading what was saved restores the open state and the width, except that a saved width of 0 reads back as the default. */
  lemma SaveLoadRoundTrip(o: Options, p: Panel, q: Panel, now: int)
    ensures var r := LoadState(o, q, Some(Stores(Save(p, now))));
      r.isOpen == p.isOpen
      && r.currentWidth == (if p.currentWidth != 0 then p.currentWidth else o.defaultWidth)
  {
  }

  /** With the default bounds every width the panel saves is nonzero, so the round trip is exact. */
  lemma SetWidthLoadsBack(p: Panel, q: Panel, width: int, now: int)
    ensures var s := SetWidth(Defaults, p, width, now);
      LoadState(Defaults, q, Some(Stores(s.saved.value))) ==
        q.(currentWidth := s.panel.currentWidth, isOpen := p.isOpen)
  {
  }
}

=== FILE: router.dfy ===
/**
 * The hash router: registered routes, `navigate` with its fallback to the
 * default route and its leave/enter guards, `replace`, and the `#name?query`
 * URLs it writes and reads back.
 *
 * A guard is a user function awaited by `navigate`; the model takes its
 * settled answer as a parameter. The event bus, the browser history and the
 * DOM sections are outputs: `navigate` returns the events it emits, in order,
 * and the history entry it pushes.
 */
module Router {
  import opened Base
  import opened Text
  import JsValue
  import FormUrlencoded

  /** The `data` handed to `navigate`; it is passed along, never inspected. */
  type Data = JsValue.Value

  /** A registered route: which of the two guards its config supplied. */
  datatype Route = Route(name: string, hasEnter: bool, hasLeave: bool)

  /** `currentRoute`: the route spread together with the data it was entered with. */
  datatype Current = Current(route: Route, data: Data)

  datatype Router = Router(routes: map<string, Route>, current: Option<Current>, defaultRoute: string)

  const InitialDefault: string := "projects"

  /** Every route is registered under its own name. */
  predicate Valid(r: Router) {
    forall k :: k in r.routes ==> r.routes[k].name == k
  }

  function NewRouter(): (r: Router)
    ensures Valid(r) && r.routes == map[] && r.current == None
  {
    Router(map[], None, InitialDefault)
  }

  /** `register(name, config)`: a guard is present when the config's one is truthy; a later registration replaces an earlier one. */
  function Register(r: Router, name: string, hasEnter: bool, hasLeave: bool): (q: Router)
    ensures name in q.routes && q.routes[name] == Route(name, hasEnter, hasLeave)
    ensures forall k :: k != name ==> (k in q.routes <==> k in r.routes)
    ensures forall k :: k in r.routes && k != name ==> q.routes[k] == r.routes[k]
    ensures q.current == r.current && q.defaultRoute == r.defaultRoute
    ensures Valid(r) ==> Valid(q)
  {
    r.(routes := r.routes[name := Route(name, hasEnter, hasLeave)])
  }

  function SetDefaultRoute(r: Router, name: string): (q: Router)
    ensures q.defaultRoute == name && q.routes == r.routes && q.current == r.current
  {
    r.(defaultRoute := name)
  }

  /** How an awaited guard settled: with `false`, with anything else, or by throwing. */
  datatype GuardAnswer = Pass | Refuse | Throw

  datatype HistoryEntry = HistoryEntry(route: string, data: Data, url: string)

  /** What `navigate` emits on the event bus, named after the event. */
  datatype RouterEvent =
    | Leave(name: string)                                    // router:leave
    | SectionHidden(name: string)                            // section:hidden
    | SectionChanged(name: string)                           // section:changed
    | Enter(name: string, data: Data)                        // router:enter
    | Changed(from: Option<string>, to: string, data: Data)  // router:changed
    | NavigationError                                        // router:error

  datatype Navigation = Navigation(router: Router, ok: bool, events: seq<RouterEvent>, pushed: Option<HistoryEntry>)

  /** The name `navigate` goes on with: the requested one if registered, else the default. */
  function Target(r: Router, name: string): (t: string)
    ensures name in r.routes ==> t == name
    ensures name !in r.routes ==> t == r.defaultRoute
  {
    if name in r.routes then name else r.defaultRoute
  }

  predicate LeaveGuarded(r: Router) {
    r.current.Some? && r.current.value.route.hasLeave
  }

  function Failed(r: Router, events: seq<RouterEvent>): Navigation {
    Navigation(r, false, events, None)
  }

  /**
   * `navigate(name, data, pushState)`. The leave guard of the current route
   * runs first (even when no route is found, in which case reading the
   * missing route's enter guard throws); then the enter guard of the target.
   */
  function Navigate(r: Router, name: string, data: Data, pushState: bool, leave: GuardAnswer, enter: GuardAnswer): (n: Navigation)
    ensures !n.ok ==> n.router == r && n.pushed == None
    ensures !n.ok ==> n.events == [] || n.events == [NavigationError]
    ensures n.ok <==>
      (Target(r, name) in r.routes
       && !(LeaveGuarded(r) && !leave.Pass?)
       && !(r.routes[Target(r, name)].hasEnter && !enter.Pass?))
    ensures n.ok ==> n.router == r.(current := Some(Current(r.routes[Target(r, name)], data)))
    ensures n.ok && pushState ==> n.pushed == Some(HistoryEntry(Target(r, name), data, "#" + Target(r, name)))
    ensures n.ok && !pushState ==> n.pushed == None
  {
    var target := Target(r, name);
    if LeaveGuarded(r) && leave == Refuse then Failed(r, [])
    else if LeaveGuarded(r) && leave == Throw then Failed(r, [NavigationError])
    else if target !in r.routes then Failed(r, [NavigationError])
    else
      var route := r.routes[target];
      if route.hasEnter && enter == Refuse then Failed(r, [])
      else if route.hasEnter && enter == Throw then Failed(r, [NavigationError])
      else
        var pushed := if pushState then Some(HistoryEntry(target, data, "#" + target)) else None;
        var leaving :=
          if r.current.Some? then [Leave(r.current.value.route.name), SectionHidden(r.current.value.route.name)]
          else [];
        var from :=
          if r.current.Some? && r.current.value.route.name != "" then Some(r.current.value.route.name)
          else None;
        Navigation(r.(current := Some(Current(route, data))), true,
                   leaving + [SectionChanged(target), Enter(target, data), Changed(from, target, data)],
                   pushed)
  }

  /** Navigating to an unregistered name is navigating to the default route. */
  lemma NavigateFallsBack(r: Router, name: string, data: Data, pushState: bool, leave: GuardAnswer, enter: GuardAnswer)
    requires name !in r.routes
    ensures Navigate(r, name, data, pushState, leave, enter) == Navigate(r, r.defaultRoute, data, pushState, leave, enter)
  {
  }

  /** A guard that settles with `false` stops the navigation quietly. */
  lemma GuardRefusal(r: Router, name: string, data: Data, pushState: bool, leave: GuardAnswer, enter: GuardAnswer)
    requires (LeaveGuarded(r) && leave == Refuse)
          || (!(LeaveGuarded(r) && leave == Throw) && Target(r, name) in r.routes
              && r.routes[Target(r, name)].hasEnter && enter == Refuse)
    ensures Navigate(r, name, data, pushState, leave, enter) == Navigation(r, false, [], None)
  {
  }

  /** With neither the name nor the default registered, nothing changes and the error is reported, unless a leave guard already refused. */
  lemma NeitherRegistered(r: Router, name: string, data: Data, pushState: bool, leave: GuardAnswer, enter: GuardAnswer)
    requires name !in r.routes && r.defaultRoute !in r.routes
    ensures var n := Navigate(r, name, data, pushState, leave, enter);
      !n.ok && n.router == r
      && (n.events == [NavigationError] <==> !(LeaveGuarded(r) && leave == Refuse))
  {
  }

  /**
   * The order of a successful navigation's events: `router:leave` (with the
   * section hidden) exactly when there was a current route, then the new
   * section, `router:enter` and `router:changed`.
   */
  lemma NavigateEventOrder(r: Router, name: string, data: Data, pushState: bool, leave: GuardAnswer, enter: GuardAnswer)
    ensures var n := Navigate(r, name, data, pushState, leave, enter);
      n.ok ==>
        var t := Target(r, name);
        var k := if r.current.Some? then 2 else 0;
        |n.events| == k + 3
        && (r.current.Some? ==> n.events[..2] == [Leave(r.current.value.route.name), SectionHidden(r.current.value.route.name)])
        && n.events[k..] == [SectionChanged(t), Enter(t, data),
                             Changed(if k == 2 && r.current.value.route.name != "" then Some(r.current.value.route.name) else None, t, data)]
  {
  }

  /** `router:leave` is emitted only when a route was current, and always before `router:enter`. */
  lemma LeaveOnlyFromCurrent(r: Router, name: string, data: Data, pushState: bool, leave: GuardAnswer, enter: GuardAnswer)
    ensures var n := Navigate(r, name, data, pushState, leave, enter);
      forall i :: 0 <= i < |n.events| && n.events[i].Leave? ==>
        i == 0 && r.current.Some? && n.events[i].name == r.current.value.route.name
        && |n.events| > 3 && n.events[3].Enter?
  {
    NavigateEventOrder(r, name, data, pushState, leave, enter);
  }

  lemma NavigateValid(r: Router, name: string, data: Data, pushState: bool, leave: GuardAnswer, enter: GuardAnswer)
    requires Valid(r)
    ensures var n := Navigate(r, name, data, pushState, leave, enter);
      Valid(n.router) && (n.ok ==> n.router.current.value.route.name == Target(r, name))
  {
  }

  datatype Replacement = Replacement(replaced: HistoryEntry, navigation: Navigation)

  /** `replace(name, data)`: the history entry names the route as asked, and the navigation does not push. */
  function Replace(r: Router, name: string, data: Data, leave: GuardAnswer, enter: GuardAnswer): (p: Replacement)
    ensures p.replaced == HistoryEntry(name, data, "#" + name)
    ensures p.navigation.pushed == None
    ensures p.navigation.ok ==>
      Target(r, name) in r.routes && p.navigation.router.current == Some(Current(r.routes[Target(r, name)], data))
  {
    Replacement(HistoryEntry(name, data, "#" + name), Navigate(r, name, data, false, leave, enter))
  }

  /** Replacing with an unregistered name records that name in history while the default route is entered. */
  lemma ReplaceUnregistered(r: Router, name: string, data: Data, leave: GuardAnswer, enter: GuardAnswer)
    requires Valid(r) && name !in r.routes
    ensures var p := Replace(r, name, data, leave, enter);
      p.replaced.route == name
      && (p.navigation.ok ==> p.navigation.router.current.value.route.name == r.defaultRoute)
  {
  }

  // ---------------------------------------------------------------- URLs

  /** `url(name, params)`: the query is added only when there are parameters. */
  function Url(name: string, params: seq<(string, string)>): (u: string)
    ensures StartsWith(u, "#" + name)
    ensures |params| == 0 <==> u == "#" + name
    ensures |params| > 0 ==> u == "#" + name + "?" + FormUrlencoded.Serialize(params)
  {
    var base := "#" + name;
    if |params| > 0 then base + "?" + FormUrlencoded.Serialize(params) else base
  }

  /** `getRouteFromHash()`: the hash without its `#`, and no route when that is empty. */
  function RouteFromHash(hash: string): (r: Option<string>)
    ensures r.None? <==> |hash| <= 1
    ensures r.Some? ==> hash == [hash[0]] + r.value
  {
    if |hash| <= 1 then None else Some(hash[1..])
  }

  /** A parameterless URL reads back as its route, and an empty name as none. */
  lemma UrlRoundTrip(name: string)
    ensures RouteFromHash(Url(name, [])) == if name == "" then None else Some(name)
  {
    assert ("#" + name)[1..] == name;
  }

  /** The first `?` of `head?query` is the one after `head` when `head` has none. */
  lemma SplitAtQuestion(head: string, query: string)
    requires '?' !in head && |head| >= 1
    ensures var u := head + "?" + query;
      '?' in u && IndexOf(u, '?') == |head|
      && u[1..IndexOf(u, '?')] == head[1..] && u[IndexOf(u, '?') + 1..] == query
      && u[1..] == head[1..] + "?" + query
  {
    var u := head + "?" + query;
    assert u == head + ("?" + query);
    IndexOfPrefix(head, "?" + query, '?');
  }

  /**
   * With parameters, the part after the first `?` parses back to the same
   * parameters; the route read from such a hash keeps the query attached.
   */
  lemma UrlQueryRoundTrip(name: string, params: seq<(string, string)>)
    requires |params| > 0 && '?' !in name
    ensures var u := Url(name, params);
      '?' in u
      && u[1..IndexOf(u, '?')] == name
      && FormUrlencoded.Parse(u[IndexOf(u, '?') + 1..]) == Some(params)
      && RouteFromHash(u) == Some(name + "?" + FormUrlencoded.Serialize(params))
  {
    var head := "#" + name;
    assert head[1..] == name;
    SplitAtQuestion(head, FormUrlencoded.Serialize(params));
    FormUrlencoded.ParseSerialize(params);
  }
}

=== FILE: server.dfy ===
/**
 * The development server's request handler: `do_GET`, `do_OPTIONS`, the
 * content-type table and the custom 404 page. The working directory is a
 * file-system oracle keyed by the request path less its leading slashes, the
 * system MIME guess is a second oracle, and a response is what the handler
 * writes: a status line with headers and a body, a call to `send_error`,
 * whose page `http.server` renders, or a call to `send_404_response`. The
 * bytes that call writes are `NotFoundAsWritten`; `NotFound` is the same
 * reply with a `Content-Length` that counts them.
 *
 * The handler sees `self.path`: the request target after `http.server`'s own
 * request-line parsing, which is not part of this model.
 */
module DevServer {
  import opened Base
  import opened Text
  import opened Utf8
  import opened UrlParse

  datatype Header = Header(name: string, value: string)

  datatype Response =
    | Reply(status: int, headers: seq<Header>, body: seq<Byte>)
    | ErrorPage(status: int, message: string)
    /** `send_404_response(path)`: the custom 404 page for `path`, written as `NotFoundAsWritten(path)` (corrected: `NotFound(path)`). */
    | SendNotFound(path: string)
    /** `urlparse` raised, so the handler ended without writing a response. */
    | NoResponse

  /** Reading a file either gives its bytes or raises with a message. */
  datatype Contents = ReadOk(bytes: seq<Byte>) | ReadFail(reason: string)

  /** What the working directory holds at a relative path. */
  datatype Entry = Missing | Directory | File(contents: Contents)

  type FileSystem = string -> Entry

  /** `mimetypes.guess_type(file_path)[0]`. */
  type MimeGuess = string -> Option<string>

  const TraversalMessage: string := "Forbidden: Directory traversal not allowed"

  /** The value of the first header called `name`. */
  function HeaderValue(hs: seq<Header>, name: string): (r: Option<string>)
    ensures r.Some? ==> exists i :: 0 <= i < |hs| && hs[i] == Header(name, r.value)
    ensures r.None? ==> forall i :: 0 <= i < |hs| ==> hs[i].name != name
  {
    if |hs| == 0 then None
    else if hs[0].name == name then Some(hs[0].value)
    else HeaderValue(hs[1..], name)
  }

  /** The cross-origin headers both handlers send, in order. */
  const CorsHeaders: seq<Header> := [
    Header("Access-Control-Allow-Origin", "*"),
    Header("Access-Control-Allow-Methods", "GET, POST, PUT, DELETE, OPTIONS"),
    Header("Access-Control-Allow-Headers", "Content-Type, Authorization")]

  /** `path.lstrip('/')`. */
  function StripSlashes(path: string): (r: string)
    ensures |r| <= |path| && path[|path| - |r|..] == r
    ensures |r| > 0 ==> r[0] != '/'
    ensures forall i :: 0 <= i < |path| - |r| ==> path[i] == '/'
  {
    if |path| > 0 && path[0] == '/' then StripSlashes(path[1..]) else path
  }

  /** `get_content_type`: the first matching suffix wins, then the guess, then `text/plain`. */
  function ContentType(filePath: string, guess: Option<string>): (r: string)
    ensures EndsWith(filePath, ".js") ==> r == "text/javascript"
    ensures !EndsWith(filePath, ".js") && EndsWith(filePath, ".css") ==> r == "text/css"
    ensures !EndsWith(filePath, ".js") && !EndsWith(filePath, ".css") && EndsWith(filePath, ".html") ==> r == "text/html"
    ensures !EndsWith(filePath, ".js") && !EndsWith(filePath, ".css") && !EndsWith(filePath, ".html") && EndsWith(filePath, ".json") ==> r == "application/json"
    ensures !EndsWith(filePath, ".js") && !EndsWith(filePath, ".css") && !EndsWith(filePath, ".html") && !EndsWith(filePath, ".json")
      ==> r == guess.GetOr("text/plain")
  {
    if EndsWith(filePath, ".js") then "text/javascript"
    else if EndsWith(filePath, ".css") then "text/css"
    else if EndsWith(filePath, ".html") then "text/html"
    else if EndsWith(filePath, ".json") then "application/json"
    else match guess
      case Some(t) => t
      case None => "text/plain"
  }

  /** The headers of a served file, in the order they are sent. */
  function FileHeaders(contentType: string, length: nat): seq<Header> {
    [Header("Content-Type", contentType), Header("Content-Length", Decimal(length))]
      + CorsHeaders + [Header("Cache-Control", "no-cache")]
  }

  // ---------------------------------------------------------------- the 404 page

  const NotFoundHead: string :=
    "<!DOCTYPE html>\n" +
      "<html>\n" +
      "<head>\n" +
      "    <title>404 Not Found - Loom4</title>\n" +
      "    <style>\n" +
      "        body { \n" +
      "            font-family: -apple-system, BlinkMacSystemFont, 'Segoe UI', Roboto, sans-serif;\n" +
      "            margin: 0; padding: 40px; background: #f8fafc; color: #2d3748;\n" +
      "        }\n" +
      "        .container { \n" +
      "            max-width: 600px; margin: 0 auto; background: white; \n" +
      "            padding: 40px; border-radius: 12px; box-shadow: 0 4px 6px rgba(0,0,0,0.1);\n" +
      "        }\n" +
      "        h1 { color: #e53e3e; font-size: 2rem; margin-bottom: 20px; }\n" +
      "        .code { background: #f7fafc; padding: 10px; border-radius: 6px; font-family: monospace; }\n" +
      "        a { color: #3182ce; text-decoration: none; }\n" +
      "        a:hover { text-decoration: underline; }\n" +
      "    </style>\n" +
      "</head>\n" +
      "<body>\n" +
      "    <div class=\"container\">\n" +
      "        <h1>404 Not Found</h1>\n" +
      "        <p>The requested file <span class=\"code\">"
  const NotFoundMiddle: string :=
    "</span> was not found.</p>\n" +
      "        <p><a href=\"/\">"
  /** U+2190 LEFTWARDS ARROW, three bytes in UTF-8. */
  const Arrow: string := "\U{2190}"
  const NotFoundTail: string :=
    " Return to Loom4 Application</a></p>\n" +
      "    </div>\n" +
      "</body>\n" +
      "</html>"

  /** Everything after the path. */
  const NotFoundRest: string := NotFoundMiddle + Arrow + NotFoundTail

  /** The 404 page with `path` written into it as it is. */
  function NotFoundPage(path: string): string {
    NotFoundHead + path + NotFoundRest
  }

  /** An HTML page sent in UTF-8 under `status`, announcing `declared` as its length. */
  function HtmlReply(status: int, html: string, declared: nat): Response {
    Reply(status, [Header("Content-Type", "text/html"), Header("Content-Length", Decimal(declared))], Encode(html))
  }

  /** `send_404_response` as written: `Content-Length` counts characters of the page. */
  function NotFoundAsWritten(path: string): Response {
    HtmlReply(404, NotFoundPage(path), |NotFoundPage(path)|)
  }

  /** The 404 response with `Content-Length` counting the bytes sent. */
  function NotFound(path: string): Response {
    HtmlReply(404, NotFoundPage(path), ByteLength(NotFoundPage(path)))
  }

  // ---------------------------------------------------------------- handlers

  /** `path` after the root substitution. */
  function Resolve(path: string): string {
    if path == "/" then "/index.html" else path
  }

  /** The part of `do_GET` after `urlparse`, for the path it found. */
  function ServePath(path: string, fs: FileSystem, guess: MimeGuess): Response {
    var p := Resolve(path);
    if Contains(p, "..") then ErrorPage(403, TraversalMessage)
    else
      var filePath := StripSlashes(p);
      match fs(filePath)
      case Missing => SendNotFound(p)
      case Directory => SendNotFound(p)
      case File(ReadFail(reason)) => ErrorPage(500, "Internal Server Error: " + reason)
      case File(ReadOk(bytes)) =>
        Reply(200, FileHeaders(ContentType(filePath, guess(filePath)), |bytes|), bytes)
  }

  /** `do_GET` for `self.path`, given as `target`. */
  function HandleGet(target: string, fs: FileSystem, guess: MimeGuess): Response {
    match UrlPath(target)
    case None => NoResponse
    case Some(path) => ServePath(path, fs, guess)
  }

  /** `do_OPTIONS`, which does not look at the target. */
  function HandleOptions(target: string): Response {
    Reply(200, CorsHeaders, [])
  }

  // ---------------------------------------------------------------- properties

  /** The root path is served exactly as `/index.html` is, whatever query follows. */
  lemma RootIsIndex(rest: string, fs: FileSystem, guess: MimeGuess)
    requires rest == "" || rest[0] in "?#"
    requires forall i :: 0 <= i < |rest| ==> !IsUnsafe(rest[i])
    ensures HandleGet("/" + rest, fs, guess) == HandleGet("/index.html" + rest, fs, guess)
  {
    IndexIsOriginForm();
    QueryIgnored("/", rest, fs, guess);
    QueryIgnored("/index.html", rest, fs, guess);
    RootServesIndex(fs, guess);
  }

  lemma RootServesIndex(fs: FileSystem, guess: MimeGuess)
    ensures ServePath("/", fs, guess) == ServePath("/index.html", fs, guess)
  {
    SameResolved("/", "/index.html", fs, guess);
  }

  lemma SameResolved(a: string, b: string, fs: FileSystem, guess: MimeGuess)
    requires Resolve(a) == Resolve(b)
    ensures ServePath(a, fs, guess) == ServePath(b, fs, guess)
  {
  }

  lemma IndexIsOriginForm()
    ensures var p := "/index.html";
      |p| >= 1 && p[0] == '/' && (|p| == 1 || p[1] != '/') &&
      forall i :: 0 <= i < |p| ==> !IsUnsafe(p[i]) && p[i] !in "?#;"
  {
  }

  /** A query or fragment never changes which file is served. */
  lemma QueryIgnored(p: string, rest: string, fs: FileSystem, guess: MimeGuess)
    requires |p| >= 1 && p[0] == '/' && (|p| == 1 || p[1] != '/')
    requires forall i :: 0 <= i < |p| ==> !IsUnsafe(p[i]) && p[i] !in "?#;"
    requires rest == "" || rest[0] in "?#"
    requires forall i :: 0 <= i < |rest| ==> !IsUnsafe(rest[i])
    ensures HandleGet(p + rest, fs, guess) == ServePath(p, fs, guess)
  {
    OriginFormPath(p, rest);
  }

  /** A path with `..` is refused with 403, and the file system is never consulted. */
  lemma TraversalForbidden(target: string, path: string, fs: FileSystem, guess: MimeGuess, fs2: FileSystem, guess2: MimeGuess)
    ensures UrlPath(target) == Some(path) && Contains(path, "..") ==>
      HandleGet(target, fs, guess) == ErrorPage(403, TraversalMessage) &&
      HandleGet(target, fs, guess) == HandleGet(target, fs2, guess2)
  {
    if UrlPath(target) == Some(path) && Contains(path, "..") {
      ContainsNoLonger(path, "..");
    }
  }

  lemma {:induction false} ContainsNoLonger(s: string, needle: string)
    requires Contains(s, needle)
    ensures |needle| <= |s|
    decreases |s|
  {
    if !StartsWith(s, needle) {
      ContainsNoLonger(s[1..], needle);
    }
  }

  /** A missing path or a directory gets the custom 404 page for the path after the root substitution. */
  lemma MissingIsNotFound(target: string, path: string, file: string, fs: FileSystem, guess: MimeGuess)
    ensures UrlPath(target) == Some(path) && Resolve(path) == file && !Contains(file, "..") ==>
      (fs(StripSlashes(file)) == Missing || fs(StripSlashes(file)) == Directory) ==>
      HandleGet(target, fs, guess) == SendNotFound(file)
  {
  }

  /**
   * The 404 response, as written and corrected alike, is HTML whose body
   * decodes to the page with the path in it; the two differ only in
   * `Content-Length`.
   */
  lemma NotFoundRendersPage(path: string)
    ensures var r := NotFound(path);
      r.Reply? && r.status == 404 && HeaderValue(r.headers, "Content-Type") == Some("text/html") &&
      Decode(r.body) == Some(NotFoundPage(path)) && OccursAt(NotFoundPage(path), path, |NotFoundHead|)
    ensures var w := NotFoundAsWritten(path);
      w.Reply? && w.status == 404 && w.body == NotFound(path).body && w.headers[0] == NotFound(path).headers[0]
  {
    HtmlReplyDecodes(404, NotFoundPage(path), ByteLength(NotFoundPage(path)));
    InfixOccurs(NotFoundHead, path, NotFoundRest);
  }

  /** The request path sits in the 404 page between the fixed text around it. */
  lemma NotFoundPageShowsPath(path: string)
    ensures OccursAt(NotFoundPage(path), path, |NotFoundHead|)
    ensures Contains(NotFoundPage(path), path)
  {
    InfixOccurs(NotFoundHead, path, NotFoundRest);
  }

  lemma InfixOccurs(a: string, x: string, b: string)
    ensures OccursAt(a + x + b, x, |a|) && Contains(a + x + b, x)
  {
    assert (a + x + b)[|a|..|a| + |x|] == x;
    assert OccursAt(a + x + b, x, |a|);
    ContainsIffOccurs(a + x + b, x);
  }

  /** A read failure after the existence check gives 500 naming the failure. */
  lemma ReadFailureIsServerError(target: string, path: string, file: string, fs: FileSystem, guess: MimeGuess, reason: string)
    ensures UrlPath(target) == Some(path) && Resolve(path) == file && !Contains(file, "..") ==>
      fs(StripSlashes(file)) == File(ReadFail(reason)) ==>
      HandleGet(target, fs, guess) == ErrorPage(500, "Internal Server Error: " + reason)
  {
    ServeReadFail(path, fs, guess, reason);
  }

  lemma ServeReadFail(path: string, fs: FileSystem, guess: MimeGuess, reason: string)
    ensures !Contains(Resolve(path), "..") && fs(StripSlashes(Resolve(path))) == File(ReadFail(reason)) ==>
      ServePath(path, fs, guess) == ErrorPage(500, "Internal Server Error: " + reason)
  {
  }

  /**
   * A 200 answer to a GET happens exactly for a readable file at a path without
   * `..`; its body is that file's bytes, its `Content-Length` their number, and
   * it carries the cross-origin headers and `Cache-Control: no-cache`.
   */
  lemma SuccessfulGet(target: string, fs: FileSystem, guess: MimeGuess)
    ensures var r := HandleGet(target, fs, guess);
      (r.Reply? && r.status == 200) <==>
        (UrlPath(target).Some? && !Contains(Resolve(UrlPath(target).value), "..") &&
         fs(StripSlashes(Resolve(UrlPath(target).value))).File? &&
         fs(StripSlashes(Resolve(UrlPath(target).value))).contents.ReadOk?)
    ensures var r := HandleGet(target, fs, guess);
      r.Reply? && r.status == 200 ==>
        var filePath := StripSlashes(Resolve(UrlPath(target).value));
        r.body == fs(filePath).contents.bytes &&
        HeaderValue(r.headers, "Content-Type") == Some(ContentType(filePath, guess(filePath))) &&
        HeaderValue(r.headers, "Content-Length") == Some(Decimal(|r.body|)) &&
        HeaderValue(r.headers, "Cache-Control") == Some("no-cache") &&
        r.headers[2..5] == CorsHeaders
  {
    match UrlPath(target)
    case None =>
    case Some(path) =>
      ServePathOk(path, fs, guess);
      var r := ServePath(path, fs, guess);
      if r.Reply? && r.status == 200 {
        var filePath := StripSlashes(Resolve(path));
        FileHeadersValues(ContentType(filePath, guess(filePath)), |r.body|);
      }
  }

  /** `ServePath` answers 200 exactly for a readable file, with that file's bytes. */
  lemma ServePathOk(path: string, fs: FileSystem, guess: MimeGuess)
    ensures var r := ServePath(path, fs, guess);
      var filePath := StripSlashes(Resolve(path));
      ((r.Reply? && r.status == 200) <==>
        (!Contains(Resolve(path), "..") && fs(filePath).File? && fs(filePath).contents.ReadOk?)) &&
      (r.Reply? && r.status == 200 ==>
        r.body == fs(filePath).contents.bytes &&
        r.headers == FileHeaders(ContentType(filePath, guess(filePath)), |r.body|))
  {
    var p := Resolve(path);
    if !Contains(p, "..") {
      var filePath := StripSlashes(p);
      match fs(filePath)
      case Missing => assert ServePath(path, fs, guess) == SendNotFound(p);
      case Directory => assert ServePath(path, fs, guess) == SendNotFound(p);
      case File(_) =>
    }
  }

  lemma FileHeadersValues(contentType: string, n: nat)
    ensures var hs := FileHeaders(contentType, n);
      HeaderValue(hs, "Content-Type") == Some(contentType) &&
      HeaderValue(hs, "Content-Length") == Some(Decimal(n)) &&
      HeaderValue(hs, "Cache-Control") == Some("no-cache") &&
      hs[2..5] == CorsHeaders
  {
    var hs := FileHeaders(contentType, n);
    assert hs[1..][1..][1..][1..][1..][1..] == [];
    assert hs[1..][1..][1..][1..][1..][0] == Header("Cache-Control", "no-cache");
  }

  /** The declared length of a body is the number it decodes to. */
  function DeclaredLength(r: Response): Option<nat>
    requires r.Reply?
  {
    match HeaderValue(r.headers, "Content-Length")
    case Some(v) =>
      if forall i :: 0 <= i < |v| ==> IsDigit(v[i]) then Some(DigitsValue(v)) else None
    case None => None
  }

  /** The 404 page spends at least two bytes more than characters, on the arrow. */
  lemma NotFoundPageBytes(path: string)
    ensures ByteLength(NotFoundPage(path)) >= |NotFoundPage(path)| + 2
  {
    ArrowInside(NotFoundHead + path, NotFoundMiddle, NotFoundTail);
  }

  lemma ArrowInside(a: string, m: string, t: string)
    ensures ByteLength(a + (m + Arrow + t)) >= |a + (m + Arrow + t)| + 2
  {
    ByteLengthAppend(a, m + Arrow + t);
    ByteLengthAppend(m + Arrow, t);
    ByteLengthAppend(m, Arrow);
    ByteLengthAscii(a);
    ByteLengthAscii(m);
    ByteLengthAscii(t);
    assert ByteLength(Arrow) == 3;
  }

  /** As written, the 404 response announces fewer bytes than it sends. */
  lemma NotFoundAsWrittenUndercounts(path: string)
    ensures NotFoundAsWritten(path).Reply?
    ensures DeclaredLength(NotFoundAsWritten(path)) == Some(|NotFoundPage(path)|)
    ensures |NotFoundAsWritten(path).body| >= |NotFoundPage(path)| + 2
  {
    HtmlReplyDeclares(404, NotFoundPage(path), |NotFoundPage(path)|);
    NotFoundPageBytes(path);
  }

  /** The corrected 404 response announces exactly the bytes it sends. */
  lemma NotFoundLengthExact(path: string)
    ensures NotFound(path).Reply?
    ensures DeclaredLength(NotFound(path)) == Some(|NotFound(path).body|)
    ensures Decode(NotFound(path).body) == Some(NotFoundPage(path))
  {
    HtmlReplyExact(404, NotFoundPage(path));
  }

  /** Declaring the byte count makes the declared length that of the body. */
  lemma HtmlReplyExact(status: int, html: string)
    ensures HtmlReply(status, html, ByteLength(html)).Reply?
    ensures DeclaredLength(HtmlReply(status, html, ByteLength(html))) == Some(|HtmlReply(status, html, ByteLength(html)).body|)
    ensures Decode(HtmlReply(status, html, ByteLength(html)).body) == Some(html)
  {
    HtmlReplyDecodes(status, html, ByteLength(html));
  }

  lemma HtmlReplyDeclares(status: int, html: string, n: nat)
    ensures HtmlReply(status, html, n).Reply?
    ensures DeclaredLength(HtmlReply(status, html, n)) == Some(n)
    ensures |HtmlReply(status, html, n).body| == ByteLength(html)
  {
    HtmlReplyDecodes(status, html, n);
  }

  /** An HTML reply declares the length it was given and carries the page's UTF-8 bytes. */
  lemma HtmlReplyDecodes(status: int, html: string, n: nat)
    ensures var r := HtmlReply(status, html, n);
      r.Reply? && r.status == status && HeaderValue(r.headers, "Content-Type") == Some("text/html") &&
      DeclaredLength(r) == Some(n) && |r.body| == ByteLength(html) && Decode(r.body) == Some(html)
  {
    var r := HtmlReply(status, html, n);
    assert r.headers[1..][0] == Header("Content-Length", Decimal(n));
    assert HeaderValue(r.headers, "Content-Length") == Some(Decimal(n));
    DeclaredFromHeader(r, n);
    DecodeEncode(html);
  }

  /** Every 200 file response announces exactly the bytes it sends. */
  lemma FileLengthExact(target: string, fs: FileSystem, guess: MimeGuess)
    ensures var r := HandleGet(target, fs, guess);
      r.Reply? && r.status == 200 ==> DeclaredLength(r) == Some(|r.body|)
  {
    var r := HandleGet(target, fs, guess);
    SuccessfulGet(target, fs, guess);
    if r.Reply? && r.status == 200 {
      DeclaredFromHeader(r, |r.body|);
    }
  }

  lemma DeclaredFromHeader(r: Response, n: nat)
    requires r.Reply? && HeaderValue(r.headers, "Content-Length") == Some(Decimal(n))
    ensures DeclaredLength(r) == Some(n)
  {
    DecimalRoundTrip(n);
  }

  /** The preflight answer is the same for every target: 200, the three cross-origin headers, no body. */
  lemma OptionsIgnoresTarget(t1: string, t2: string)
    ensures HandleOptions(t1) == HandleOptions(t2)
    ensures HandleOptions(t1) == Reply(200, CorsHeaders, [])
    ensures var r := HandleOptions(t1);
      r.Reply? && r.status == 200 && |r.body| == 0 && |r.headers| == 3 &&
      (forall i :: 0 <= i < 3 ==> StartsWith(r.headers[i].name, "Access-Control-Allow-"))
  {
    assert StartsWith("Access-Control-Allow-Origin", "Access-Control-Allow-");
    assert StartsWith("Access-Control-Allow-Methods", "Access-Control-Allow-");
    assert StartsWith("Access-Control-Allow-Headers", "Access-Control-Allow-");
  }

  /** A known suffix decides the content type whatever the system guesses. */
  lemma KnownSuffixIgnoresGuess(filePath: string, g1: Option<string>, g2: Option<string>)
    requires EndsWith(filePath, ".js") || EndsWith(filePath, ".css") || EndsWith(filePath, ".html") || EndsWith(filePath, ".json")
    ensures ContentType(filePath, g1) == ContentType(filePath, g2)
  {
  }
}

=== FILE: state_store.dfy ===
/**
 * The application's state store (`StateManager`): one nested object read and
 * written through dot paths, and listeners subscribed to a path, to a prefix
 * wildcard `a.*`, or to everything with `*`.
 *
 * A callback is known by its identity; what it does when called is outside
 * the model, so a notification is the list of calls it makes. Objects the
 * store creates get references stamped with the store's allocation counter.
 */
module StateStore {
  import opened Base
  import opened Text
  import opened JsValue
  import opened Lists
  import DotPath

  /** A subscribed callback, by identity. */
  type Callback = nat

  /** Each watched path's `Set` of callbacks, in insertion order. */
  type Listeners = map<string, seq<Callback>>

  datatype Store = Store(state: Value, listeners: Listeners, stamp: nat)

  /** What a write reports: the path, the value written and the value it replaced. */
  datatype Change = Change(path: string, newValue: Value, oldValue: Value)

  /** One callback invocation `callback(newValue, oldValue, path)`. */
  datatype Call = Call(callback: Callback, newValue: Value, oldValue: Value, path: string)

  /** Listener sets are never empty and never hold a callback twice. */
  predicate WellFormed(ls: Listeners) {
    forall p :: p in ls ==> |ls[p]| > 0 && NoDuplicates(ls[p])
  }

  predicate NoDuplicates<T(==)>(xs: seq<T>) {
    forall i, j :: 0 <= i < j < |xs| ==> xs[i] != xs[j]
  }

  function Watchers(ls: Listeners, key: string): seq<Callback> {
    if key in ls then ls[key] else []
  }

  // ---------------------------------------------------------------- subscriptions

  /** `subscribe(path, callback)`: the callback joins the path's set unless it is there already. */
  function Subscribe(ls: Listeners, path: string, cb: Callback): (r: Listeners)
    ensures cb in Watchers(r, path)
    ensures forall p :: p != path ==> Watchers(r, p) == Watchers(ls, p)
    ensures WellFormed(ls) ==> WellFormed(r)
  {
    var w := Watchers(ls, path);
    ls[path := if cb in w then w else w + [cb]]
  }

  /** The callback that `subscribe` returns: leave the set, and drop the set once it is empty. */
  function Unsubscribe(ls: Listeners, path: string, cb: Callback): (r: Listeners)
    ensures cb !in Watchers(r, path) || (cb in Watchers(ls, path) && !NoDuplicates(ls[path]))
    ensures forall p :: p != path ==> Watchers(r, p) == Watchers(ls, p)
    ensures WellFormed(ls) ==> WellFormed(r)
  {
    if path !in ls then ls
    else
      var rest := Without(ls[path], cb);
      if |rest| == 0 then ls - {path} else ls[path := rest]
  }

  /** `Set.prototype.delete` on the ordered set. */
  function Without(xs: seq<Callback>, cb: Callback): (r: seq<Callback>)
    ensures NoDuplicates(xs) ==> cb !in r && NoDuplicates(r)
    ensures forall x :: x in r ==> x in xs
    ensures cb !in xs ==> r == xs
    ensures NoDuplicates(xs) && cb in xs ==> |r| == |xs| - 1
  {
    if |xs| == 0 then []
    else if xs[0] == cb then xs[1..]
    else
      var rest := Without(xs[1..], cb);
      assert NoDuplicates(xs) ==> NoDuplicates(xs[1..]) && xs[0] !in xs[1..];
      [xs[0]] + rest
  }

  /** Subscribing a new callback and unsubscribing it gives the listeners back. */
  lemma UnsubscribeSubscribe(ls: Listeners, path: string, cb: Callback)
    requires WellFormed(ls) && cb !in Watchers(ls, path)
    ensures Unsubscribe(Subscribe(ls, path, cb), path, cb) == ls
  {
    var w := Watchers(ls, path);
    WithoutLast(w, cb);
    if path !in ls {
      assert Subscribe(ls, path, cb)[path] == [cb];
      AddThenRemove(ls, path, [cb]);
    } else {
      SetToSame(ls, path);
    }
  }

  lemma AddThenRemove<K, V>(m: map<K, V>, k: K, v: V)
    requires k !in m
    ensures m[k := v] - {k} == m
  {
  }

  lemma SetToSame<K, V>(m: map<K, V>, k: K)
    requires k in m
    ensures m[k := m[k]] == m
  {
  }

  lemma {:induction false} WithoutLast(xs: seq<Callback>, cb: Callback)
    requires cb !in xs
    ensures Without(xs + [cb], cb) == xs
  {
    if |xs| > 0 {
      assert (xs + [cb])[1..] == xs[1..] + [cb];
      WithoutLast(xs[1..], cb);
      assert xs == [xs[0]] + xs[1..];
    }
  }

  // ---------------------------------------------------------------- notification order

  /** The keys `notifyListeners` looks up, in order: the path, its wildcards, then `*`. */
  function WatchKeys(path: string): seq<string> {
    [path] + DotPath.WildcardKeys(path) + ["*"]
  }

  /** The callbacks of `keys`' sets, one set after another. */
  function CallbacksFor(ls: Listeners, keys: seq<string>): seq<Callback> {
    if |keys| == 0 then [] else Watchers(ls, keys[0]) + CallbacksFor(ls, keys[1..])
  }

  /** `notifyListeners(path, newValue, oldValue)`. */
  function Notify(ls: Listeners, c: Change): (calls: seq<Call>)
    ensures |calls| == |CallbacksFor(ls, WatchKeys(c.path))|
    ensures forall i :: 0 <= i < |calls| ==>
      calls[i] == Call(CallbacksFor(ls, WatchKeys(c.path))[i], c.newValue, c.oldValue, c.path)
  {
    var cbs := CallbacksFor(ls, WatchKeys(c.path));
    seq(|cbs|, i requires 0 <= i < |cbs| => Call(cbs[i], c.newValue, c.oldValue, c.path))
  }

  /** The calls for a list of changes, change after change. */
  function Deliver(ls: Listeners, changes: seq<Change>): seq<Call> {
    if |changes| == 0 then [] else Notify(ls, changes[0]) + Deliver(ls, changes[1..])
  }

  lemma {:induction false} CallbacksForAppend(ls: Listeners, a: seq<string>, b: seq<string>)
    ensures CallbacksFor(ls, a + b) == CallbacksFor(ls, a) + CallbacksFor(ls, b)
  {
    if |a| == 0 {
      assert a + b == b;
    } else {
      assert (a + b)[1..] == a[1..] + b;
      CallbacksForAppend(ls, a[1..], b);
    }
  }

  /** Exact listeners come first, then the wildcard sets from the shortest prefix, then `*`. */
  lemma NotifyOrder(ls: Listeners, path: string)
    ensures CallbacksFor(ls, WatchKeys(path)) ==
      Watchers(ls, path) + CallbacksFor(ls, DotPath.WildcardKeys(path)) + Watchers(ls, "*")
  {
    CallbacksForAppend(ls, [path] + DotPath.WildcardKeys(path), ["*"]);
    CallbacksForAppend(ls, [path], DotPath.WildcardKeys(path));
    assert CallbacksFor(ls, ["*"]) == Watchers(ls, "*") by {
      assert ["*"][1..] == [];
    }
    assert CallbacksFor(ls, [path]) == Watchers(ls, path) by {
      assert [path][1..] == [];
    }
  }

  /** A callback is called exactly when it watches one of the notified keys. */
  lemma {:induction false} CalledIffWatching(ls: Listeners, keys: seq<string>, cb: Callback)
    ensures cb in CallbacksFor(ls, keys) <==> exists j :: 0 <= j < |keys| && cb in Watchers(ls, keys[j])
  {
    if |keys| > 0 {
      CalledIffWatching(ls, keys[1..], cb);
      if cb in Watchers(ls, keys[0]) {
      } else if exists j :: 0 <= j < |keys[1..]| && cb in Watchers(ls, keys[1..][j]) {
        var j :| 0 <= j < |keys[1..]| && cb in Watchers(ls, keys[1..][j]);
        assert keys[j + 1] == keys[1..][j];
      } else {
        forall j | 0 <= j < |keys| ensures cb !in Watchers(ls, keys[j]) {
          if j > 0 { assert keys[j] == keys[1..][j - 1]; }
        }
      }
    }
  }

  /** Notifying `*` itself, as `import` does, calls each `*` subscriber twice. */
  lemma StarNotifiedTwice(ls: Listeners, cb: Callback)
    requires cb in Watchers(ls, "*")
    ensures Count(CallbacksFor(ls, WatchKeys("*")), cb) >= 2
  {
    SplitNoSeparator("*", '.');
    assert Join(["*"][..1], ".") == "*";
    var k := DotPath.WildcardKeys("*");
    assert |k| == 1 && k[0] == "*.*";
    assert k == ["*.*"];
    NotifyOrder(ls, "*");
    assert CallbacksFor(ls, ["*.*"]) == Watchers(ls, "*.*") by {
      assert ["*.*"][1..] == [];
    }
    var w := Watchers(ls, "*");
    var all := w + Watchers(ls, "*.*") + w;
    assert multiset(all) == multiset(w) + multiset(Watchers(ls, "*.*")) + multiset(w);
    assert Count(w, cb) >= 1;
  }

  // ---------------------------------------------------------------- reads and writes

  /** `get(path, defaultValue)`. */
  function Get(s: Store, path: string, default: Value): Result<Value, JsError> {
    DotPath.Get(s.state, path, default)
  }

  /**
   * `set(path, value, notify)`: the write, and the change it reports when
   * `notify` is set and the value replaced is not `===` the value written.
   */
  function SetAt(s: Store, path: string, x: Value, notify: bool): (r: Result<(Store, seq<Change>), JsError>)
    ensures r.Ok? ==> r.value.0.listeners == s.listeners && |r.value.1| <= 1
    ensures r.Ok? ==> (DotPath.Set(s.state, path, x, s.stamp).Ok? &&
      var prev := DotPath.Set(s.state, path, x, s.stamp).value.1;
      r.value.1 == if notify && !StrictEq(prev, x) then [Change(path, x, prev)] else [])
    ensures r.Err? <==> DotPath.Set(s.state, path, x, s.stamp).Err?
  {
    match DotPath.Set(s.state, path, x, s.stamp)
    case Err(e) => Err(e)
    case Ok((state, prev)) =>
      var s' := s.(state := state, stamp := s.stamp + 1);
      Ok((s', if notify && !StrictEq(prev, x) then [Change(path, x, prev)] else []))
  }

  /** After a write, reading the path gives the value written. */
  lemma GetAfterSetAt(s: Store, path: string, x: Value, notify: bool, d: Value)
    requires SetAt(s, path, x, notify).Ok?
    ensures Get(SetAt(s, path, x, notify).value.0, path, d) == Ok(x)
  {
    DotPath.GetAfterSet(s.state, path, x, s.stamp, d);
  }

  /**
   * The change a write reports names the value the path held before, and it is
   * reported exactly when `notify` is set and that value is not `===` the new one.
   */
  lemma SetAtReportsChange(s: Store, path: string, x: Value, notify: bool)
    requires SetAt(s, path, x, notify).Ok? && Get(s, path, Undefined).Ok?
    ensures var prev := Get(s, path, Undefined).value;
      SetAt(s, path, x, notify).value.1 == if notify && !StrictEq(prev, x) then [Change(path, x, prev)] else []
  {
    DotPath.SetKeysOldValue(s.state, DotPath.Keys(path), x, s.stamp, []);
  }

  /** `update(path, updates)`: a new object with the old properties, overwritten by the updates. */
  function Update(s: Store, path: string, updates: Value): (r: Result<(Store, seq<Change>), JsError>)
    ensures r.Ok? ==> Get(s, path, Obj(Ref(s.stamp, []), map[])).Ok?
  {
    match Get(s, path, Obj(Ref(s.stamp, []), map[]))
    case Err(e) => Err(e)
    case Ok(current) =>
      SetAt(s.(stamp := s.stamp + 1), path, Merged(s.stamp, current, updates), true)
  }

  /** `{ ...current, ...updates }`, allocated with `stamp`. */
  function Merged(stamp: nat, current: Value, updates: Value): (m: Value)
    ensures m.Obj? && m.ref == Ref(stamp, [])
    ensures forall k :: k in Spread(updates) ==> k in m.props && m.props[k] == Spread(updates)[k]
    ensures forall k :: k in Spread(current) && k !in Spread(updates) ==> k in m.props && m.props[k] == Spread(current)[k]
    ensures forall k :: k in m.props ==> k in Spread(current) || k in Spread(updates)
  {
    Obj(Ref(stamp, []), Spread(current) + Spread(updates))
  }

  /** After `update`, the path holds the merge of what it held and the updates. */
  lemma GetAfterUpdate(s: Store, path: string, updates: Value, d: Value)
    requires Update(s, path, updates).Ok?
    ensures var current := Get(s, path, Obj(Ref(s.stamp, []), map[])).value;
      Get(Update(s, path, updates).value.0, path, d) == Ok(Merged(s.stamp, current, updates))
  {
    var current := Get(s, path, Obj(Ref(s.stamp, []), map[])).value;
    GetAfterSetAt(s.(stamp := s.stamp + 1), path, Merged(s.stamp, current, updates), true, d);
  }

  /** The elements `[...v]` spreads: an array's items or a string's characters; anything else throws. */
  function Elements(v: Value): (r: Result<seq<Value>, JsError>)
    ensures v.Arr? ==> r == Ok(v.items)
    ensures r.Err? <==> !v.Arr? && !v.Str?
  {
    match v
    case Arr(_, items) => Ok(items)
    case Str(s) => Ok(seq(|s|, i requires 0 <= i < |s| => Str([s[i]])))
    case _ => Err(TypeError)
  }

  /** `push(path, item, prepend)`: a new array with the item at the front or the back. */
  function Push(s: Store, path: string, item: Value, prepend: bool): Result<(Store, seq<Change>), JsError> {
    match Get(s, path, Arr(Ref(s.stamp, []), []))
    case Err(e) => Err(e)
    case Ok(current) =>
      match Elements(current)
      case Err(e) => Err(e)
      case Ok(items) =>
        var next := Arr(Ref(s.stamp, []), if prepend then [item] + items else items + [item]);
        SetAt(s.(stamp := s.stamp + 1), path, next, true)
  }

  /** After `push`, the path holds the old items with the item added at the chosen end. */
  lemma GetAfterPush(s: Store, path: string, item: Value, prepend: bool, d: Value)
    requires Push(s, path, item, prepend).Ok?
    ensures var current := Get(s, path, Arr(Ref(s.stamp, []), [])).value;
      Elements(current).Ok? &&
      var items := Elements(current).value;
      var after := Get(Push(s, path, item, prepend).value.0, path, d);
      after.Ok? && after.value.Arr? && |after.value.items| == |items| + 1 &&
      (prepend ==> after.value.items[0] == item && after.value.items[1..] == items) &&
      (!prepend ==> after.value.items[|items|] == item && after.value.items[..|items|] == items)
  {
    var current := Get(s, path, Arr(Ref(s.stamp, []), [])).value;
    var items := Elements(current).value;
    var next := Arr(Ref(s.stamp, []), if prepend then [item] + items else items + [item]);
    GetAfterSetAt(s.(stamp := s.stamp + 1), path, next, true, d);
  }

  /** `remove`'s second argument: a predicate function, or a value compared with `===`. */
  datatype Matcher = Test(f: Value -> bool) | Same(v: Value)

  predicate Matches(m: Matcher, x: Value) {
    match m
    case Test(f) => f(x)
    case Same(v) => StrictEq(x, v)
  }

  /** `remove(path, predicate)`: a new array of the items that do not match. */
  function Remove(s: Store, path: string, m: Matcher): Result<(Store, seq<Change>), JsError> {
    match Get(s, path, Arr(Ref(s.stamp, []), []))
    case Err(e) => Err(e)
    case Ok(current) =>
      if !current.Arr? then Err(TypeError)
      else
        var kept := Filter(current.items, x => !Matches(m, x));
        SetAt(s.(stamp := s.stamp + 1), path, Arr(Ref(s.stamp, []), kept), true)
  }

  /** After `remove`, an item is in the array exactly when it was there and does not match. */
  lemma GetAfterRemove(s: Store, path: string, m: Matcher, d: Value, x: Value)
    requires Remove(s, path, m).Ok?
    ensures var current := Get(s, path, Arr(Ref(s.stamp, []), [])).value;
      current.Arr? &&
      var after := Get(Remove(s, path, m).value.0, path, d);
      after.Ok? && after.value.Arr? &&
      after.value.items == Filter(current.items, y => !Matches(m, y)) &&
      (x in after.value.items <==> x in current.items && !Matches(m, x))
  {
    var current := Get(s, path, Arr(Ref(s.stamp, []), [])).value;
    var kept := Filter(current.items, y => !Matches(m, y));
    GetAfterSetAt(s.(stamp := s.stamp + 1), path, Arr(Ref(s.stamp, []), kept), true, d);
    FilterMembers(current.items, y => !Matches(m, y), x);
  }

  // ---------------------------------------------------------------- merge and import

  /** `deepMerge(target, source)`: a new object; plain-object values merge recursively, anything else is replaced. */
  function DeepMerge(target: Value, source: Value, stamp: nat, at: seq<string>): (r: Value)
    ensures r.Obj? && r.ref == Ref(stamp, at)
    ensures forall k :: k in r.props <==> k in Spread(target) || k in Spread(source)
    ensures forall k :: k in Spread(target) && k !in Spread(source) ==> r.props[k] == Spread(target)[k]
    ensures forall k :: k in Spread(source) && !Spread(source)[k].Obj? ==> r.props[k] == Spread(source)[k]
    decreases source
  {
    var base := Spread(target);
    var src := Spread(source);
    Obj(Ref(stamp, at), map k | k in base.Keys + src.Keys ::
      if k !in src then base[k]
      else if src[k].Obj? then
        assert src[k] < source by { SpreadSmaller(source, k); }
        DeepMerge(Or(if k in base then base[k] else Undefined, Obj(Ref(stamp, at + [k, ""]), map[])), src[k], stamp, at + [k])
      else src[k])
  }

  /** The values `{...v}` or `for…in` finds in `v` are parts of `v`. */
  lemma SpreadSmaller(v: Value, k: string)
    requires k in Spread(v) && Spread(v)[k].Obj?
    ensures Spread(v)[k] < v
  {
    if v.Arr? {
      var i :| 0 <= i < |v.items| && k == Decimal(i);
      assert Spread(v)[k] == v.items[i];
    }
  }

  /** A plain-object value of the source is merged into what the target held at that key. */
  lemma DeepMergeNested(target: Value, source: Value, stamp: nat, at: seq<string>, k: string)
    requires k in Spread(source) && Spread(source)[k].Obj?
    ensures var base := Spread(target);
      DeepMerge(target, source, stamp, at).props[k] ==
        DeepMerge(Or(if k in base then base[k] else Undefined, Obj(Ref(stamp, at + [k, ""]), map[])), Spread(source)[k], stamp, at + [k])
  {
  }

  /** `keys` lead through plain objects of `v` to a value that is not a plain object. */
  predicate LeafPath(v: Value, keys: seq<string>)
    decreases |keys|
  {
    v.Obj? && |keys| >= 1 && keys[0] in v.props &&
    if |keys| == 1 then !v.props[keys[0]].Obj? else LeafPath(v.props[keys[0]], keys[1..])
  }

  /** Every path of the source that ends in something other than a plain object reads the same in the merge. */
  lemma {:induction false} DeepMergeSourceWins(target: Value, source: Value, stamp: nat, at: seq<string>, keys: seq<string>, d: Value)
    requires LeafPath(source, keys)
    ensures DotPath.GetKeys(DeepMerge(target, source, stamp, at), keys, d) == DotPath.GetKeys(source, keys, d)
    decreases |keys|
  {
    var k := keys[0];
    var merged := DeepMerge(target, source, stamp, at);
    assert k in Spread(source);
    assert k in merged.props;
    assert DotPath.GetKeys(merged, keys, d) == DotPath.GetKeys(merged.props[k], keys[1..], d);
    assert DotPath.GetKeys(source, keys, d) == DotPath.GetKeys(source.props[k], keys[1..], d);
    if |keys| > 1 {
      var child := source.props[k];
      var base := Spread(target);
      var inner := Or(if k in base then base[k] else Undefined, Obj(Ref(stamp, at + [k, ""]), map[]));
      DeepMergeNested(target, source, stamp, at, k);
      DeepMergeSourceWins(inner, child, stamp, at + [k], keys[1..], d);
    } else {
      assert merged.props[k] == source.props[k];
    }
  }

  /** `import(importState, merge)`: the new state and the calls of the `*` notification. */
  function Import(s: Store, importState: Value, merge: bool): (r: (Store, seq<Call>))
    ensures r.0.listeners == s.listeners && r.0.state.Obj?
    ensures !merge ==> r.0.state.props == Spread(importState)
  {
    var state := if merge then DeepMerge(s.state, importState, s.stamp, []) else Obj(Ref(s.stamp, []), Spread(importState));
    var s' := s.(state := state, stamp := s.stamp + 2);
    (s', Notify(s.listeners, Change("*", state, Obj(Ref(s.stamp + 1, []), map[]))))
  }

  /** Every `*` subscriber hears about an import at least twice. */
  lemma ImportNotifiesStarTwice(s: Store, importState: Value, merge: bool, cb: Callback)
    requires cb in Watchers(s.listeners, "*")
    ensures |Import(s, importState, merge).1| == |CallbacksFor(s.listeners, WatchKeys("*"))|
    ensures Count(CallbacksFor(s.listeners, WatchKeys("*")), cb) >= 2
  {
    StarNotifiedTwice(s.listeners, cb);
  }

  // ---------------------------------------------------------------- batches

  /** The store operations an update function performs. */
  datatype Op =
    | SetOp(path: string, value: Value, notify: bool)
    | UpdateOp(path: string, updates: Value)
    | PushOp(path: string, item: Value, prepend: bool)
    | RemoveOp(path: string, matcher: Matcher)

  function Apply(s: Store, op: Op): (r: Result<(Store, seq<Change>), JsError>)
    ensures r.Ok? ==> r.value.0.listeners == s.listeners
  {
    match op
    case SetOp(path, x, notify) => SetAt(s, path, x, notify)
    case UpdateOp(path, updates) => Update(s, path, updates)
    case PushOp(path, item, prepend) => Push(s, path, item, prepend)
    case RemoveOp(path, m) => Remove(s, path, m)
  }

  /** What an observer sees, in order: a write to the state, or a listener being called. */
  datatype Event = Wrote(path: string) | Called(call: Call)

  /** The final store, the events, and the exception that ended the run, if any. */
  datatype Outcome = Outcome(store: Store, events: seq<Event>, error: Option<JsError>)

  function CallEvents(calls: seq<Call>): (es: seq<Event>)
    ensures |es| == |calls| && forall i :: 0 <= i < |es| ==> es[i] == Called(calls[i])
  {
    seq(|calls|, i requires 0 <= i < |calls| => Called(calls[i]))
  }

  /** The calls among `events`, in order. */
  function CallsOf(events: seq<Event>): seq<Call> {
    if |events| == 0 then []
    else (if events[0].Called? then [events[0].call] else []) + CallsOf(events[1..])
  }

  /** The operations run one after another outside a batch: each write's listeners are called at once. */
  function Direct(s: Store, ops: seq<Op>): Outcome
    decreases |ops|
  {
    if |ops| == 0 then Outcome(s, [], None)
    else match Apply(s, ops[0])
      case Err(e) => Outcome(s, [], Some(e))
      case Ok((s1, changes)) =>
        var rest := Direct(s1, ops[1..]);
        Outcome(rest.store, [Wrote(ops[0].path)] + CallEvents(Deliver(s.listeners, changes)) + rest.events, rest.error)
  }

  /** The batch's replacement `notifyListeners`: the writes, and the changes queued for later. */
  function Collect(s: Store, ops: seq<Op>): (r: (Store, seq<string>, seq<Change>, Option<JsError>))
    ensures r.0.listeners == s.listeners
    decreases |ops|
  {
    if |ops| == 0 then (s, [], [], None)
    else match Apply(s, ops[0])
      case Err(e) => (s, [], [], Some(e))
      case Ok((s1, changes)) =>
        var (last, written, pending, error) := Collect(s1, ops[1..]);
        (last, [ops[0].path] + written, changes + pending, error)
  }

  /**
   * `batch(updateFn)`: the writes happen, and only when the function has
   * returned or thrown are the queued changes delivered, in the order they
   * were made.
   */
  function Batch(s: Store, ops: seq<Op>): Outcome {
    var (last, written, pending, error) := Collect(s, ops);
    Outcome(last, seq(|written|, i requires 0 <= i < |written| => Wrote(written[i])) + CallEvents(Deliver(s.listeners, pending)), error)
  }

  /** In a batch no listener is called before the last write. */
  lemma BatchDefersCalls(s: Store, ops: seq<Op>)
    ensures var es := Batch(s, ops).events;
      forall i, j :: 0 <= i < j < |es| && es[j].Wrote? ==> es[i].Wrote?
  {
  }

  /**
   * A batch ends in the same store and with the same exception as running the
   * operations one by one, and calls the same listeners with the same values
   * in the same order.
   */
  lemma BatchMatchesDirect(s: Store, ops: seq<Op>)
    ensures Batch(s, ops).store == Direct(s, ops).store
    ensures Batch(s, ops).error == Direct(s, ops).error
    ensures CallsOf(Batch(s, ops).events) == CallsOf(Direct(s, ops).events)
  {
    var (last, written, pending, error) := Collect(s, ops);
    var ws := seq(|written|, i requires 0 <= i < |written| => Wrote(written[i]));
    CallsOfAppend(ws, CallEvents(Deliver(s.listeners, pending)));
    CallsOfWrites(ws);
    CallsOfCalls(Deliver(s.listeners, pending));
    DirectCalls(s, ops);
  }

  lemma {:induction false} DirectCalls(s: Store, ops: seq<Op>)
    ensures Direct(s, ops).store == Collect(s, ops).0
    ensures Direct(s, ops).error == Collect(s, ops).3
    ensures CallsOf(Direct(s, ops).events) == Deliver(s.listeners, Collect(s, ops).2)
    decreases |ops|
  {
    if |ops| > 0 {
      match Apply(s, ops[0])
      case Err(e) =>
      case Ok((s1, changes)) =>
        DirectCalls(s1, ops[1..]);
        DirectStep(s, ops, s1, changes);
        var rest := Direct(s1, ops[1..]);
        CallsOfStep(ops[0].path, Deliver(s.listeners, changes), rest.events);
        DeliverAppend(s.listeners, changes, Collect(s1, ops[1..]).2);
    }
  }

  /** One successful operation: its write, its calls, then the rest of the run. */
  lemma DirectStep(s: Store, ops: seq<Op>, s1: Store, changes: seq<Change>)
    requires |ops| > 0 && Apply(s, ops[0]) == Ok((s1, changes))
    ensures s1.listeners == s.listeners
    ensures var rest := Direct(s1, ops[1..]);
      Direct(s, ops) == Outcome(rest.store, [Wrote(ops[0].path)] + CallEvents(Deliver(s.listeners, changes)) + rest.events, rest.error)
    ensures var c := Collect(s1, ops[1..]);
      Collect(s, ops) == (c.0, [ops[0].path] + c.1, changes + c.2, c.3)
  {
  }

  /** The calls among a write, some calls, and more events. */
  lemma CallsOfStep(path: string, calls: seq<Call>, more: seq<Event>)
    ensures CallsOf([Wrote(path)] + CallEvents(calls) + more) == calls + CallsOf(more)
  {
    var w, cs := [Wrote(path)], CallEvents(calls);
    CallsOfAppend(w + cs, more);
    CallsOfAppend(w, cs);
    CallsOfCalls(calls);
    CallsOfWrites(w);
    TailAppend(CallsOf(w), calls);
  }

  lemma {:induction false} DeliverAppend(ls: Listeners, a: seq<Change>, b: seq<Change>)
    ensures Deliver(ls, a + b) == Deliver(ls, a) + Deliver(ls, b)
  {
    TailAppend(a, b);
    if |a| > 0 {
      DeliverAppend(ls, a[1..], b);
    }
  }

  lemma {:induction false} CallsOfAppend(a: seq<Event>, b: seq<Event>)
    ensures CallsOf(a + b) == CallsOf(a) + CallsOf(b)
  {
    TailAppend(a, b);
    if |a| > 0 {
      CallsOfAppend(a[1..], b);
    }
  }

  lemma {:induction false} CallsOfCalls(calls: seq<Call>)
    ensures CallsOf(CallEvents(calls)) == calls
  {
    if |calls| > 0 {
      assert CallEvents(calls)[1..] == CallEvents(calls[1..]);
      CallsOfCalls(calls[1..]);
    }
  }

  lemma {:induction false} CallsOfWrites(es: seq<Event>)
    requires forall i :: 0 <= i < |es| ==> es[i].Wrote?
    ensures CallsOf(es) == []
  {
    if |es| > 0 {
      CallsOfWrites(es[1..]);
    }
  }
}

=== FILE: storage.dfy ===
/**
 * The prefixed key/value store (`StorageManager`) over `localStorage`.
 *
 * `localStorage` is a map from keys to what its stored string parses to: a
 * record the manager wrote, or something `JSON.parse` rejects. Values travel
 * through JSON, so they are JSON values here, and anything read back is a
 * fresh copy. The clock (`Date.now()`) is a parameter, and whether
 * `localStorage` works at all is fixed when the manager is made.
 */
module Storage {
  import opened Base
  import opened Text
  import opened Lists

  /** A value after a JSON round trip. */
  datatype Json =
    | JNull
    | JBool(b: bool)
    | JNum(n: int)
    | JStr(s: string)
    | JArr(items: seq<Json>)
    | JObj(props: map<string, Json>)

  /** What the manager stores under a key: the value, when it was written, when it expires, a version. */
  datatype Item =
    | Record(value: Json, timestamp: int, expires: Option<int>, version: int)
    | Corrupt

  type LocalStorage = map<string, Item>

  /** A manager: its prefix, and whether `localStorage` accepted the availability probe. */
  datatype Manager = Manager(prefix: string, available: bool)

  /** A changed `localStorage` and what the call returned. */
  datatype Done<T> = Done(storage: LocalStorage, result: T)

  /** `new StorageManager()` uses the prefix `loom4`. */
  const DefaultPrefix: string := "loom4"

  /** `getKey(key)`: `prefix_key`. */
  function KeyOf(m: Manager, key: string): (k: string)
    ensures StartsWith(k, m.prefix + "_") && k[|m.prefix| + 1..] == key
  {
    m.prefix + "_" + key
  }

  /** Different keys of one manager never share a `localStorage` slot. */
  lemma KeyOfInjective(m: Manager, a: string, b: string)
    ensures KeyOf(m, a) == KeyOf(m, b) <==> a == b
  {
    if KeyOf(m, a) == KeyOf(m, b) {
      assert a == KeyOf(m, a)[|m.prefix| + 1..];
    }
  }

  /**
   * `set(key, value, {expires, version})` at time `now`: a falsy `expires`
   * (absent or 0) is stored as none, a falsy `version` as 1.
   */
  function Set(m: Manager, ls: LocalStorage, key: string, value: Json, now: int, expires: Option<int>, version: Option<int>): (r: Done<bool>)
    ensures r.result <==> m.available
    ensures r.result ==> (KeyOf(m, key) in r.storage && r.storage[KeyOf(m, key)].Record? &&
      r.storage[KeyOf(m, key)].value == value && r.storage[KeyOf(m, key)].timestamp == now)
    ensures forall k :: k != KeyOf(m, key) ==> (k in r.storage <==> k in ls) && (k in ls ==> r.storage[k] == ls[k])
    ensures !m.available ==> r.storage == ls
  {
    if !m.available then Done(ls, false)
    else
      var stored := Record(value, now, if expires == Some(0) then None else expires,
        if version.None? || version == Some(0) then 1 else version.value);
      Done(ls[KeyOf(m, key) := stored], true)
  }

  /**
   * A record has expired when its expiry is truthy (present and not 0) and
   * the clock is past it.
   */
  predicate Expired(item: Item, now: int) {
    item.Record? && item.expires.Some? && item.expires.value != 0 && now > item.expires.value
  }

  /**
   * `get(key, defaultValue)` at time `now`: the stored value, or the default
   * when the key is absent, unreadable or expired; an expired record is
   * removed on the way.
   */
  function Get(m: Manager, ls: LocalStorage, key: string, default: Json, now: int): (r: Done<Json>)
    ensures r.storage == ls || (KeyOf(m, key) in ls && Expired(ls[KeyOf(m, key)], now) && r.storage == ls - {KeyOf(m, key)})
    ensures r.result != default ==> m.available && KeyOf(m, key) in ls && ls[KeyOf(m, key)].Record? && !Expired(ls[KeyOf(m, key)], now)
  {
    var k := KeyOf(m, key);
    if !m.available || k !in ls then Done(ls, default)
    else match ls[k]
      case Corrupt => Done(ls, default)
      case Record(value, _, _, _) =>
        if Expired(ls[k], now) then Done(Remove(m, ls, key).storage, default)
        else Done(ls, value)
  }

  /** `remove(key)`. */
  function Remove(m: Manager, ls: LocalStorage, key: string): (r: Done<bool>)
    ensures r.result <==> m.available
    ensures m.available ==> r.storage == ls - {KeyOf(m, key)}
    ensures !m.available ==> r.storage == ls
  {
    if !m.available then Done(ls, false) else Done(ls - {KeyOf(m, key)}, true)
  }

  /** `has(key)`: something is stored under the key, readable or not. */
  predicate Has(m: Manager, ls: LocalStorage, key: string) {
    m.available && KeyOf(m, key) in ls
  }

  /** `clear()`: every key beginning with `prefix_` goes. */
  function Clear(m: Manager, ls: LocalStorage): (r: Done<bool>)
    ensures r.result <==> m.available
    ensures m.available ==> forall k :: k in r.storage <==> k in ls && !StartsWith(k, m.prefix + "_")
    ensures m.available ==> forall k :: k in r.storage ==> r.storage[k] == ls[k]
    ensures !m.available ==> r.storage == ls
  {
    if !m.available then Done(ls, false)
    else Done(map k | k in ls && !StartsWith(k, m.prefix + "_") :: ls[k], true)
  }

  /** `keys()`: the keys under the prefix, with the prefix taken off (in no particular order). */
  function Keys(m: Manager, ls: LocalStorage): (keys: set<string>)
    ensures forall key :: key in keys <==> m.available && KeyOf(m, key) in ls
  {
    if !m.available then {}
    else
      var p := m.prefix + "_";
      var keys := set k | k in ls && StartsWith(k, p) :: k[|p|..];
      forall key ensures key in keys <==> KeyOf(m, key) in ls {
        if KeyOf(m, key) in ls {
          assert KeyOf(m, key)[|p|..] == key;
        }
        if key in keys {
          var k :| k in ls && StartsWith(k, p) && k[|p|..] == key;
          assert k == p + k[|p|..];
        }
      }
      keys
  }

  /** `scope(s)`: a manager whose prefix is `prefix_s`. */
  function Scope(m: Manager, s: string): (r: Manager)
    ensures r.available == m.available
    ensures forall key :: KeyOf(r, key) == KeyOf(m, s + "_" + key)
  {
    Manager(m.prefix + "_" + s, m.available)
  }

  /**
   * A scope shares the parent's storage: every scoped key appears in the
   * parent's `keys()` as `s_key`, and the parent's `clear()` removes it.
   */
  lemma ScopeSharesParent(m: Manager, ls: LocalStorage, s: string, key: string)
    requires m.available && KeyOf(Scope(m, s), key) in ls
    ensures s + "_" + key in Keys(m, ls)
    ensures KeyOf(Scope(m, s), key) !in Clear(m, ls).storage
  {
    assert KeyOf(Scope(m, s), key) == KeyOf(m, s + "_" + key);
  }

  /** Reading back what was just written, before it expires, gives the value. */
  lemma GetAfterSet(m: Manager, ls: LocalStorage, key: string, value: Json, now: int, expires: Option<int>, version: Option<int>, later: int, d: Json)
    requires m.available
    requires expires.None? || expires == Some(0) || later <= expires.value
    ensures Get(m, Set(m, ls, key, value, now, expires, version).storage, key, d, later).result == value
  {
  }

  /** An absent key reads as the default, and nothing changes. */
  lemma GetAbsent(m: Manager, ls: LocalStorage, key: string, d: Json, now: int)
    requires KeyOf(m, key) !in ls
    ensures Get(m, ls, key, d, now) == Done(ls, d)
  {
  }

  /** An expired record reads as the default and is removed. */
  lemma GetExpired(m: Manager, ls: LocalStorage, key: string, d: Json, now: int)
    requires m.available && KeyOf(m, key) in ls && Expired(ls[KeyOf(m, key)], now)
    ensures Get(m, ls, key, d, now) == Done(ls - {KeyOf(m, key)}, d)
  {
  }

  /** A stored record whose expiry is 0 (`set` never writes one, another writer of the key may) is live at every time. */
  lemma GetZeroExpiryLive(m: Manager, ls: LocalStorage, key: string, d: Json, now: int)
    requires m.available && KeyOf(m, key) in ls && ls[KeyOf(m, key)].Record? && ls[KeyOf(m, key)].expires == Some(0)
    ensures Get(m, ls, key, d, now) == Done(ls, ls[KeyOf(m, key)].value)
  {
  }

  /** With no expiry (absent, `null` or 0) a record never expires. */
  lemma NoExpiryNeverExpires(m: Manager, ls: LocalStorage, key: string, value: Json, now: int, expires: Option<int>, later: int)
    requires m.available && (expires.None? || expires == Some(0))
    ensures !Expired(Set(m, ls, key, value, now, expires, None).storage[KeyOf(m, key)], later)
  {
  }

  // ---------------------------------------------------------------- array and number helpers

  /** `increment(key, amount)`: a missing or non-numeric value counts as 0; the sum is written and returned. */
  function Increment(m: Manager, ls: LocalStorage, key: string, amount: int, now: int): (r: Done<int>)
  {
    var current := Get(m, ls, key, JNum(0), now);
    var n := (match current.result case JNum(x) => x case _ => 0) + amount;
    Done(Set(m, current.storage, key, JNum(n), now, None, None).storage, n)
  }

  lemma IncrementValue(m: Manager, ls: LocalStorage, key: string, amount: int, now: int, later: int)
    requires m.available
    ensures var k := KeyOf(m, key);
      var before := if k in ls && ls[k].Record? && !Expired(ls[k], now) && ls[k].value.JNum? then ls[k].value.n else 0;
      var r := Increment(m, ls, key, amount, now);
      r.result == before + amount && Get(m, r.storage, key, JNull, later).result == JNum(before + amount)
  {
  }

  /**
   * Keeps the last `maxLength` items when `maxLength` is truthy and exceeded:
   * `splice(0, length - maxLength)`, which empties the array for a negative
   * bound.
   */
  function Bounded(items: seq<Json>, maxLength: int): (r: seq<Json>)
    ensures maxLength > 0 && |items| > maxLength ==> |r| == maxLength
    ensures maxLength < 0 ==> r == []
    ensures maxLength == 0 || |items| <= maxLength ==> r == items
    ensures exists i :: 0 <= i <= |items| && r == items[i..]
  {
    if maxLength != 0 && |items| > maxLength then
      var drop := |items| - maxLength;
      if drop >= |items| then (assert items[|items|..] == []; []) else items[drop..]
    else (assert items[0..] == items; items)
  }

  /** `push(key, item, maxLength)`; a value that is not an array starts over from `[]`. */
  function Push(m: Manager, ls: LocalStorage, key: string, item: Json, maxLength: int, now: int): (r: Done<seq<Json>>)
  {
    var current := Get(m, ls, key, JArr([]), now);
    var items := if current.result.JArr? then current.result.items else [];
    var updated := Bounded(items + [item], maxLength);
    Done(Set(m, current.storage, key, JArr(updated), now, None, None).storage, updated)
  }

  /** `push` appends the item, keeps the earlier items in order, and trims from the front only. */
  lemma PushAppends(m: Manager, ls: LocalStorage, key: string, item: Json, maxLength: int, now: int)
    requires m.available
    ensures var r := Push(m, ls, key, item, maxLength, now);
      var current := Get(m, ls, key, JArr([]), now).result;
      var before := if current.JArr? then current.items else [];
      && (maxLength >= 0 ==> |r.result| > 0 && r.result[|r.result| - 1] == item)
      && (maxLength == 0 || |before| < maxLength ==> r.result == before + [item])
      && (maxLength > 0 && |before| >= maxLength ==> r.result == (before + [item])[|before| + 1 - maxLength..])
      && Get(m, r.storage, key, JNull, now).result == JArr(r.result)
  {
    var current := Get(m, ls, key, JArr([]), now);
    var before := if current.result.JArr? then current.result.items else [];
    BoundedKeepsLast(before + [item], maxLength);
    GetAfterSet(m, current.storage, key, JArr(Bounded(before + [item], maxLength)), now, None, None, now, JNull);
  }

  /** Trimming a non-empty list to a non-negative bound keeps its last element. */
  lemma BoundedKeepsLast(items: seq<Json>, maxLength: int)
    requires |items| > 0
    ensures maxLength >= 0 ==> |Bounded(items, maxLength)| > 0 && Bounded(items, maxLength)[|Bounded(items, maxLength)| - 1] == items[|items| - 1]
  {
    if maxLength > 0 && |items| > maxLength {
      var r := Bounded(items, maxLength);
      assert r == items[|items| - maxLength..];
    }
  }

  /** What `pull` removes: elements satisfying a predicate, or elements `===` a given item. */
  datatype Matcher = Test(f: Json -> bool) | Same(v: Json)

  /**
   * `===` between an element read back from storage and the caller's item:
   * the element was just parsed, so an array or object element is a fresh
   * object and never the caller's.
   */
  predicate SameAsParsed(element: Json, item: Json) {
    !element.JArr? && !element.JObj? && element == item
  }

  predicate Pulled(t: Matcher, x: Json) {
    match t
    case Test(f) => f(x)
    case Same(v) => SameAsParsed(x, v)
  }

  /** `pull(key, item)`: keeps the elements not matched; a value that is not an array yields `[]` and is left alone. */
  function Pull(m: Manager, ls: LocalStorage, key: string, t: Matcher, now: int): (r: Done<seq<Json>>)
  {
    var current := Get(m, ls, key, JArr([]), now);
    if !current.result.JArr? then Done(current.storage, [])
    else
      var kept := Filter(current.result.items, x => !Pulled(t, x));
      Done(Set(m, current.storage, key, JArr(kept), now, None, None).storage, kept)
  }

  /** `pull` removes exactly the matched elements and keeps the rest in order. */
  lemma PullKeeps(m: Manager, ls: LocalStorage, key: string, t: Matcher, now: int, x: Json)
    ensures var r := Pull(m, ls, key, t, now);
      var current := Get(m, ls, key, JArr([]), now).result;
      && (current.JArr? ==> r.result == Filter(current.items, y => !Pulled(t, y)))
      && (current.JArr? ==> (x in r.result <==> x in current.items && !Pulled(t, x)))
      && (!current.JArr? ==> r.result == [] && r.storage == Get(m, ls, key, JArr([]), now).storage)
  {
    var current := Get(m, ls, key, JArr([]), now).result;
    if current.JArr? {
      FilterMembers(current.items, y => !Pulled(t, y), x);
    }
  }

  /** Pulling an array or object by value removes nothing: the stored copies are never the caller's. */
  lemma PullObjectRemovesNothing(m: Manager, ls: LocalStorage, key: string, v: Json, now: int)
    requires v.JArr? || v.JObj?
    ensures var current := Get(m, ls, key, JArr([]), now).result;
      current.JArr? ==> Pull(m, ls, key, Same(v), now).result == current.items
  {
    var current := Get(m, ls, key, JArr([]), now).result;
    if current.JArr? {
      FilterAll(current.items, y => !Pulled(Same(v), y));
    }
  }

  // ---------------------------------------------------------------- import

  /**
   * `import(importData, overwrite)`: `data` is `importData.data`, `None` when
   * it is falsy. Each entry is written (with no expiry) when `overwrite` is
   * set or nothing is stored under its key yet.
   */
  function Import(m: Manager, ls: LocalStorage, data: Option<map<string, Json>>, overwrite: bool, now: int): (r: Done<bool>)
    ensures r.result <==> m.available && data.Some?
    ensures !r.result ==> r.storage == ls
  {
    if !m.available || data.None? then Done(ls, false)
    else
      var entries := data.value;
      var written := map k | k in entries && (overwrite || !Has(m, ls, k)) :: KeyOf(m, k);
      Done(map s | s in ls.Keys + written.Values ::
        if exists k :: k in written && written[k] == s then
          var k :| k in written && written[k] == s; Record(entries[k], now, None, 1)
        else ls[s], true)
  }

  /**
   * Without `overwrite` an existing key is never changed; every other entry
   * of the data ends up stored; keys outside the data are untouched.
   */
  lemma ImportKeepsExisting(m: Manager, ls: LocalStorage, data: map<string, Json>, overwrite: bool, now: int, key: string)
    requires m.available
    ensures var r := Import(m, ls, Some(data), overwrite, now).storage;
      && (!overwrite && KeyOf(m, key) in ls ==> r[KeyOf(m, key)] == ls[KeyOf(m, key)])
      && (key in data && (overwrite || KeyOf(m, key) !in ls) ==> KeyOf(m, key) in r && r[KeyOf(m, key)] == Record(data[key], now, None, 1))
      && (key !in data ==> (KeyOf(m, key) in r <==> KeyOf(m, key) in ls) && (KeyOf(m, key) in ls ==> r[KeyOf(m, key)] == ls[KeyOf(m, key)]))
  {
    var written := map k | k in data && (overwrite || !Has(m, ls, k)) :: KeyOf(m, k);
    var s := KeyOf(m, key);
    forall k | k in written && written[k] == s ensures k == key {
      KeyOfInjective(m, k, key);
    }
    if key in written {
      assert written[key] == s;
      assert s in written.Values;
    }
  }
}

=== FILE: text.dfy ===
/**
 * String helpers standing for the JavaScript and Python string primitives the
 * source calls (`startsWith`, `includes`, `split`, `join`, `trim`,
 * `substring`, `toUpperCase`, `str(int)`). A string is a `seq<char>`; for text
 * inside the Basic Multilingual Plane a `char` is one UTF-16 code unit, which
 * is what JavaScript's indices and `length` count. Case mapping covers the
 * ASCII letters only.
 */
module Text {

  predicate StartsWith(s: string, prefix: string) {
    |prefix| <= |s| && s[..|prefix|] == prefix
  }

  predicate EndsWith(s: string, suffix: string) {
    |suffix| <= |s| && s[|s| - |suffix|..] == suffix
  }

  /** `needle` occurs in `s` at position `i`. */
  predicate OccursAt(s: string, needle: string, i: int) {
    0 <= i && i + |needle| <= |s| && s[i..i + |needle|] == needle
  }

  /** The needle occurs somewhere in `s`. */
  ghost predicate Occurs(s: string, needle: string) {
    exists i :: OccursAt(s, needle, i)
  }

  /** Where a needle occurs, each prefix of it occurs too. */
  lemma OccursAtPrefix(s: string, needle: string, pre: string, i: int)
    requires OccursAt(s, needle, i) && |pre| <= |needle| && pre == needle[..|pre|]
    ensures OccursAt(s, pre, i)
  {
    assert s[i..i + |pre|] == s[i..i + |needle|][..|pre|];
  }

  /** JavaScript `s.includes(needle)` / Python `needle in s`, by a left-to-right scan. */
  predicate Contains(s: string, needle: string)
    decreases |s|
  {
    StartsWith(s, needle) || (|s| > 0 && Contains(s[1..], needle))
  }

  lemma {:induction false} ContainsIffOccurs(s: string, needle: string)
    ensures Contains(s, needle) <==> exists i :: OccursAt(s, needle, i)
    decreases |s|
  {
    if StartsWith(s, needle) {
      assert OccursAt(s, needle, 0);
    } else if |s| == 0 {
    } else {
      ContainsIffOccurs(s[1..], needle);
      if exists i :: OccursAt(s[1..], needle, i) {
        var i :| OccursAt(s[1..], needle, i);
        assert s[i + 1..i + 1 + |needle|] == s[1..][i..i + |needle|];
        assert OccursAt(s, needle, i + 1);
      }
      if exists i :: OccursAt(s, needle, i) {
        var i :| OccursAt(s, needle, i);
        assert i != 0;
        assert s[1..][i - 1..i - 1 + |needle|] == s[i..i + |needle|];
        assert OccursAt(s[1..], needle, i - 1);
      }
    }
  }

  /** JavaScript `s.substring(0, n)` for `n >= 0`. */
  function Take(s: string, n: nat): (r: string)
    ensures |r| == if n < |s| then n else |s|
    ensures StartsWith(s, r)
  {
    if n < |s| then s[..n] else s
  }

  // ---------------------------------------------------------------- split / join

  /** JavaScript `pieces.join(sep)`. */
  function Join(pieces: seq<string>, sep: string): string {
    if |pieces| == 0 then ""
    else if |pieces| == 1 then pieces[0]
    else pieces[0] + sep + Join(pieces[1..], sep)
  }

  /**
   * JavaScript `s.split(sep)` for a one-character separator, read character
   * by character: a separator starts a new piece, any other character joins
   * the first piece of what follows.
   */
  function Split(s: string, sep: char): (pieces: seq<string>)
    ensures |pieces| >= 1
    ensures forall i :: 0 <= i < |pieces| ==> sep !in pieces[i]
  {
    SplitFrom(s, sep, 0)
  }

  /** The pieces of `s[k..]`, read by position in `s`. */
  function SplitFrom(s: string, sep: char, k: nat): (pieces: seq<string>)
    requires k <= |s|
    ensures |pieces| >= 1
    ensures forall i :: 0 <= i < |pieces| ==> sep !in pieces[i]
    decreases |s| - k
  {
    if k == |s| then [""]
    else
      var rest := SplitFrom(s, sep, k + 1);
      if s[k] == sep then [""] + rest
      else [[s[k]] + rest[0]] + rest[1..]
  }

  /** One step of `SplitFrom`: the character at `k` either is the separator or joins the first piece. */
  lemma SplitFromStep(s: string, sep: char, k: nat)
    requires k < |s|
    ensures SplitFrom(s, sep, k) ==
      if s[k] == sep then [""] + SplitFrom(s, sep, k + 1)
      else [[s[k]] + SplitFrom(s, sep, k + 1)[0]] + SplitFrom(s, sep, k + 1)[1..]
  {
  }

  /** Index of the first occurrence of `c`. */
  function IndexOf(s: string, c: char): (i: nat)
    requires c in s
    ensures i < |s| && s[i] == c && c !in s[..i]
  {
    if s[0] == c then 0 else
      assert c in s[1..] by { var k :| 0 <= k < |s| && s[k] == c; assert s[1..][k - 1] == c; }
      var j := IndexOf(s[1..], c);
      assert s[..j + 1] == [s[0]] + s[1..][..j];
      j + 1
  }

  /** Putting a character in front of the first piece of a join. */
  lemma JoinCons(c: char, pieces: seq<string>, sep: string)
    requires |pieces| >= 1
    ensures Join([[c] + pieces[0]] + pieces[1..], sep) == [c] + Join(pieces, sep)
  {
    var q := [[c] + pieces[0]] + pieces[1..];
    assert q[1..] == pieces[1..];
  }

  lemma {:induction false} JoinSplitFrom(s: string, sep: char, k: nat)
    requires k <= |s|
    ensures Join(SplitFrom(s, sep, k), [sep]) == s[k..]
    decreases |s| - k
  {
    if k < |s| {
      var rest := SplitFrom(s, sep, k + 1);
      JoinSplitFrom(s, sep, k + 1);
      SplitFromStep(s, sep, k);
      if s[k] == sep {
        assert ([""] + rest)[1..] == rest;
      } else {
        JoinCons(s[k], rest, [sep]);
      }
      assert s[k..] == [s[k]] + s[k + 1..];
    }
  }

  /** Joining the pieces with the separator gives the string back. */
  lemma JoinSplit(s: string, sep: char)
    ensures Join(Split(s, sep), [sep]) == s
  {
    JoinSplitFrom(s, sep, 0);
  }

  /** Joining two non-empty lists puts one separator between their joins. */
  lemma {:induction false} JoinAppend(a: seq<string>, b: seq<string>, sep: string)
    requires |a| >= 1 && |b| >= 1
    ensures Join(a + b, sep) == Join(a, sep) + sep + Join(b, sep)
    decreases |a|
  {
    if |a| == 1 {
      assert (a + b)[1..] == b;
    } else {
      assert (a + b)[1..] == a[1..] + b;
      JoinAppend(a[1..], b, sep);
    }
  }

  /** Only the characters from the starting position on matter. */
  lemma {:induction false} SplitFromShift(x: string, y: string, sep: char, j: nat)
    requires j <= |y|
    ensures SplitFrom(x + y, sep, |x| + j) == SplitFrom(y, sep, j)
    decreases |y| - j
  {
    if j < |y| {
      SplitFromShift(x, y, sep, j + 1);
      assert (x + y)[|x| + j] == y[j];
    }
  }

  /** Putting a character in front of the first piece commutes with appending more pieces. */
  lemma ConsFirstAppend(c: char, left: seq<string>, right: seq<string>)
    requires |left| >= 1
    ensures ([[c] + left[0]] + left[1..]) + right == [[c] + (left + right)[0]] + (left + right)[1..]
  {
    assert (left + right)[0] == left[0];
    assert (left + right)[1..] == left[1..] + right;
  }

  lemma {:induction false} SplitFromAround(a: string, z: string, sep: char, k: nat)
    requires k <= |a|
    ensures SplitFrom(a + [sep] + z, sep, k) == SplitFrom(a, sep, k) + Split(z, sep)
    decreases |a| - k
  {
    var s := a + [sep] + z;
    if k == |a| {
      assert s[k] == sep;
      assert s == (a + [sep]) + z;
      SplitFromShift(a + [sep], z, sep, 0);
      SplitFromStep(s, sep, k);
    } else {
      SplitFromAround(a, z, sep, k + 1);
      SplitFromStep(s, sep, k);
      SplitFromStep(a, sep, k);
      assert s[k] == a[k];
      if a[k] != sep {
        ConsFirstAppend(a[k], SplitFrom(a, sep, k + 1), Split(z, sep));
      }
    }
  }

  /** Splitting at a separator splits the two sides apart. */
  lemma SplitAround(a: string, z: string, sep: char)
    ensures Split(a + [sep] + z, sep) == Split(a, sep) + Split(z, sep)
  {
    SplitFromAround(a, z, sep, 0);
  }

  /** The first occurrence in a concatenation. */
  lemma IndexOfPrefix(a: string, z: string, c: char)
    requires c in a + z
    ensures IndexOf(a + z, c) == if c in a then IndexOf(a, c) else |a| + IndexOf(z, c)
  {
    var s := a + z;
    var i := IndexOf(s, c);
    if c in a {
      var j := IndexOf(a, c);
      assert s[j] == c;
    } else {
      assert c in z by {
        var k :| 0 <= k < |s| && s[k] == c;
        assert z[k - |a|] == c;
      }
      var j := IndexOf(z, c);
      assert s[|a| + j] == c;
    }
  }

  lemma {:induction false} SplitFromNoSeparator(s: string, sep: char, k: nat)
    requires k <= |s| && sep !in s[k..]
    ensures SplitFrom(s, sep, k) == [s[k..]]
    decreases |s| - k
  {
    if k < |s| {
      assert s[k] == s[k..][0];
      assert s[k + 1..] == s[k..][1..];
      SplitFromNoSeparator(s, sep, k + 1);
      SplitFromStep(s, sep, k);
      assert SplitFrom(s, sep, k + 1)[1..] == [];
      assert s[k..] == [s[k]] + s[k + 1..];
    } else {
      assert s[k..] == "";
    }
  }

  /** A string without the separator splits into itself. */
  lemma SplitNoSeparator(s: string, sep: char)
    requires sep !in s
    ensures Split(s, sep) == [s]
  {
    assert s[0..] == s;
    SplitFromNoSeparator(s, sep, 0);
  }

  /** Splitting a join of separator-free pieces gives the pieces back. */
  lemma {:induction false} SplitJoin(pieces: seq<string>, sep: char)
    requires |pieces| >= 1
    requires forall i :: 0 <= i < |pieces| ==> sep !in pieces[i]
    ensures Split(Join(pieces, [sep]), sep) == pieces
    decreases |pieces|
  {
    if |pieces| == 1 {
      SplitNoSeparator(pieces[0], sep);
    } else {
      var rest := Join(pieces[1..], [sep]);
      assert Join(pieces, [sep]) == pieces[0] + [sep] + rest;
      SplitJoin(pieces[1..], sep);
      SplitAround(pieces[0], rest, sep);
      SplitNoSeparator(pieces[0], sep);
      assert pieces == [pieces[0]] + pieces[1..];
    }
  }

  // ---------------------------------------------------------------- trim

  /** The characters ECMAScript's `String.prototype.trim` removes: WhiteSpace and LineTerminator. */
  predicate IsJsWhitespace(c: char) {
    || c == '\t' || c == '\n' || c == '\U{000B}' || c == '\U{000C}' || c == '\r' || c == ' '
    || c == '\U{00A0}' || c == '\U{1680}' || ('\U{2000}' <= c <= '\U{200A}')
    || c == '\U{2028}' || c == '\U{2029}' || c == '\U{202F}' || c == '\U{205F}'
    || c == '\U{3000}' || c == '\U{FEFF}'
  }

  function TrimStart(s: string): (r: string)
    ensures |r| <= |s| && s[|s| - |r|..] == r
    ensures |r| > 0 ==> !IsJsWhitespace(r[0])
    ensures forall i :: 0 <= i < |s| - |r| ==> IsJsWhitespace(s[i])
  {
    if |s| > 0 && IsJsWhitespace(s[0]) then TrimStart(s[1..]) else s
  }

  function TrimEnd(s: string): (r: string)
    ensures |r| <= |s| && s[..|r|] == r
    ensures |r| > 0 ==> !IsJsWhitespace(r[|r| - 1])
    ensures forall i :: |r| <= i < |s| ==> IsJsWhitespace(s[i])
  {
    if |s| > 0 && IsJsWhitespace(s[|s| - 1]) then TrimEnd(s[..|s| - 1]) else s
  }

  /** JavaScript `s.trim()`. */
  function Trim(s: string): (r: string)
    ensures |r| > 0 ==> !IsJsWhitespace(r[0]) && !IsJsWhitespace(r[|r| - 1])
  {
    TrimEnd(TrimStart(s))
  }

  /** A string trims to "" exactly when every character in it is whitespace. */
  lemma TrimEmptyIff(s: string)
    ensures Trim(s) == "" <==> forall i :: 0 <= i < |s| ==> IsJsWhitespace(s[i])
  {
    var t := TrimStart(s);
    if Trim(s) == "" {
      assert |t| == 0;
    } else {
      var r := Trim(s);
      assert t[0] == r[0];
      assert s[|s| - |t|] == t[0];
    }
  }

  // ---------------------------------------------------------------- case

  function UpperChar(c: char): char {
    if 'a' <= c <= 'z' then (c as int - 32) as char else c
  }

  function LowerChar(c: char): char {
    if 'A' <= c <= 'Z' then (c as int + 32) as char else c
  }

  /** `s.toUpperCase()` restricted to ASCII letters. */
  function Upper(s: string): (r: string)
    ensures |r| == |s| && forall i :: 0 <= i < |s| ==> r[i] == UpperChar(s[i])
  {
    if |s| == 0 then "" else [UpperChar(s[0])] + Upper(s[1..])
  }

  /** `s.toLowerCase()` restricted to ASCII letters. */
  function Lower(s: string): (r: string)
    ensures |r| == |s| && forall i :: 0 <= i < |s| ==> r[i] == LowerChar(s[i])
  {
    if |s| == 0 then "" else [LowerChar(s[0])] + Lower(s[1..])
  }

  lemma LowerOfUpper(s: string)
    ensures Lower(Upper(s)) == Lower(s)
  {
    forall j | 0 <= j < |s| ensures Lower(Upper(s))[j] == Lower(s)[j] {
      assert Upper(s)[j] == UpperChar(s[j]);
    }
  }

  lemma LowerOfLower(s: string)
    ensures Lower(Lower(s)) == Lower(s)
  {
    forall j | 0 <= j < |s| ensures Lower(Lower(s))[j] == Lower(s)[j] {
      assert Lower(s)[j] == LowerChar(s[j]);
    }
  }

  // ---------------------------------------------------------------- character maps

  /** Replaces every character `c` of `s` by the string `f(c)`, as a global one-character `replace` does. */
  function MapChars(s: string, f: char -> string): (r: string)
    ensures |s| == 0 ==> r == ""
  {
    if |s| == 0 then "" else f(s[0]) + MapChars(s[1..], f)
  }

  lemma {:induction false} MapCharsAppend(a: string, b: string, f: char -> string)
    ensures MapChars(a + b, f) == MapChars(a, f) + MapChars(b, f)
  {
    if |a| > 0 {
      assert (a + b)[1..] == a[1..] + b;
      MapCharsAppend(a[1..], b, f);
    } else {
      assert a + b == b;
    }
  }

  // ---------------------------------------------------------------- decimal numerals

  predicate IsDigit(c: char) {
    '0' <= c <= '9'
  }

  function DigitChar(d: nat): char
    requires d < 10
  {
    ('0' as int + d) as char
  }

  /** Python `str(n)` / JavaScript `String(n)` for a non-negative integer. */
  function Decimal(n: nat): (r: string)
    ensures |r| >= 1 && forall i :: 0 <= i < |r| ==> IsDigit(r[i])
    ensures |r| > 1 ==> r[0] != '0'
  {
    if n < 10 then [DigitChar(n)] else Decimal(n / 10) + [DigitChar(n % 10)]
  }

  /** The value of a string of decimal digits. */
  function DigitsValue(s: string): nat
    requires forall i :: 0 <= i < |s| ==> IsDigit(s[i])
  {
    if |s| == 0 then 0 else DigitsValue(s[..|s| - 1]) * 10 + DigitValue(s[|s| - 1])
  }

  function DigitValue(c: char): (d: nat)
    requires IsDigit(c)
    ensures d < 10 && DigitChar(d) == c
  {
    c as int - '0' as int
  }

  /** Reading a rendered number back yields the number. */
  lemma {:induction false} DecimalRoundTrip(n: nat)
    ensures DigitsValue(Decimal(n)) == n
  {
    if n >= 10 {
      var d := Decimal(n);
      assert d[..|d| - 1] == Decimal(n / 10);
      DecimalRoundTrip(n / 10);
    }
  }

  /** Distinct numbers render distinctly. */
  lemma DecimalInjective(m: nat, n: nat)
    requires Decimal(m) == Decimal(n)
    ensures m == n
  {
    DecimalRoundTrip(m);
    DecimalRoundTrip(n);
  }
}

=== FILE: url_parse.dfy ===
/**
 * The part of Python 3.12's `urllib.parse.urlparse` the dev server uses: the
 * `path` component of a request target. The target is cleaned (leading C0
 * controls and spaces dropped, tabs and line breaks removed), a scheme and a
 * `//` network location are split off when present, then the fragment, the
 * query and the last segment's `;params`. Only the unbalanced-bracket check
 * of the network location is modelled among the checks that make `urlparse`
 * raise `ValueError`.
 */
module UrlParse {
  import opened Base
  import opened Text

  /** The characters `urlsplit` strips from the front: U+0000 to U+0020. */
  predicate IsC0OrSpace(c: char) {
    c as int <= 0x20
  }

  function StripLeadingC0(s: string): (r: string)
    ensures |r| <= |s| && s[|s| - |r|..] == r
    ensures |r| > 0 ==> !IsC0OrSpace(r[0])
  {
    if |s| > 0 && IsC0OrSpace(s[0]) then StripLeadingC0(s[1..]) else s
  }

  /** The characters removed anywhere in the target. */
  predicate IsUnsafe(c: char) {
    c == '\t' || c == '\r' || c == '\n'
  }

  function RemoveUnsafe(s: string): (r: string)
    ensures forall i :: 0 <= i < |r| ==> !IsUnsafe(r[i])
    ensures (forall i :: 0 <= i < |s| ==> !IsUnsafe(s[i])) ==> r == s
  {
    if |s| == 0 then ""
    else
      var rest := RemoveUnsafe(s[1..]);
      if IsUnsafe(s[0]) then rest else [s[0]] + rest
  }

  predicate IsAsciiAlpha(c: char) {
    'a' <= c <= 'z' || 'A' <= c <= 'Z'
  }

  predicate IsSchemeChar(c: char) {
    IsAsciiAlpha(c) || '0' <= c <= '9' || c == '+' || c == '-' || c == '.'
  }

  /** The schemes whose last path segment may carry `;params`, the empty scheme included. */
  const UsesParams: set<string> := {"", "ftp", "hdl", "prospero", "http", "imap", "https", "shttp",
    "rtsp", "rtsps", "rtspu", "sip", "sips", "mms", "sftp", "tel"}

  /** `s.find(c, start)`. */
  function FindFrom(s: string, c: char, start: nat): (r: Option<nat>)
    ensures r.Some? ==> start <= r.value < |s| && s[r.value] == c
    ensures r.Some? ==> forall i :: start <= i < r.value ==> s[i] != c
    ensures r.None? ==> forall i :: start <= i < |s| ==> s[i] != c
    decreases |s| - start
  {
    if start >= |s| then None
    else if s[start] == c then Some(start)
    else FindFrom(s, c, start + 1)
  }

  /** `s.rfind(c)`. */
  function FindLast(s: string, c: char): (r: Option<nat>)
    ensures r.Some? ==> r.value < |s| && s[r.value] == c && forall i :: r.value < i < |s| ==> s[i] != c
    ensures r.None? ==> c !in s
  {
    if |s| == 0 then None
    else if s[|s| - 1] == c then Some(|s| - 1)
    else FindLast(s[..|s| - 1], c)
  }

  /** Everything before the first `c`, or all of `s`. */
  function Before(s: string, c: char): (r: string)
    ensures c !in r && StartsWith(s, r)
    ensures c !in s ==> r == s
  {
    match FindFrom(s, c, 0)
    case Some(i) => s[..i]
    case None => s
  }

  /** The scheme split: lower-cased scheme and the rest, when the text before the first `:` is a scheme. */
  function SplitScheme(url: string): (r: (string, string))
    ensures (r.0 == "" && r.1 == url) || (|r.0| > 0 && |r.0| < |url| && url[|r.0|] == ':' && r.1 == url[|r.0| + 1..])
  {
    match FindFrom(url, ':', 0)
    case Some(i) =>
      if i > 0 && IsAsciiAlpha(url[0]) && forall j :: 0 <= j < i ==> IsSchemeChar(url[j])
      then (Lower(url[..i]), url[i + 1..])
      else ("", url)
    case None => ("", url)
  }

  /** The end of a network location: the first `/`, `?` or `#` after the leading `//`. */
  function NetlocEnd(url: string, i: nat): (r: nat)
    requires i <= |url|
    ensures i <= r <= |url|
    ensures forall j :: i <= j < r ==> url[j] != '/' && url[j] != '?' && url[j] != '#'
    ensures r < |url| ==> url[r] == '/' || url[r] == '?' || url[r] == '#'
    decreases |url| - i
  {
    if i == |url| || url[i] == '/' || url[i] == '?' || url[i] == '#' then i else NetlocEnd(url, i + 1)
  }

  /** The network location and the rest, when `url` starts with `//`. */
  function SplitNetloc(url: string): (r: (string, string))
    ensures !StartsWith(url, "//") ==> r == ("", url)
    ensures StartsWith(url, "//") ==> url == "//" + r.0 + r.1
    ensures |r.1| > 0 && StartsWith(url, "//") ==> r.1[0] in "/?#"
  {
    if StartsWith(url, "//") then
      var e := NetlocEnd(url, 2);
      assert url == "//" + url[2..e] + url[e..];
      (url[2..e], url[e..])
    else ("", url)
  }

  /** The `;params` split of the last path segment. */
  function DropParams(url: string): (r: string)
    ensures StartsWith(url, r)
    ensures ';' !in url ==> r == url
  {
    if ';' !in url then url
    else match FindLast(url, '/')
      case Some(slash) =>
        (match FindFrom(url, ';', slash) case Some(i) => url[..i] case None => url)
      case None => Before(url, ';')
  }

  /**
   * `urlparse(target).path`, or `None` when `urlparse` raises `ValueError`
   * for a network location with an unmatched `[` or `]`.
   */
  function UrlPath(target: string): (r: Option<string>)
    ensures r.Some? ==> '?' !in r.value && '#' !in r.value
    ensures r.Some? ==> forall i :: 0 <= i < |r.value| ==> !IsUnsafe(r.value[i])
  {
    var url := RemoveUnsafe(StripLeadingC0(target));
    var (scheme, afterScheme) := SplitScheme(url);
    var (netloc, afterNetloc) := SplitNetloc(afterScheme);
    if ('[' in netloc) != (']' in netloc) then None
    else
      var path := Before(Before(afterNetloc, '#'), '?');
      PathClean(url);
      PrefixAvoids(path, DropParams(path), '?');
      PrefixAvoids(path, DropParams(path), '#');
      Some(if scheme in UsesParams then DropParams(path) else path)
  }

  /** No tab or line break anywhere. */
  predicate Clean(s: string) {
    forall i :: 0 <= i < |s| ==> !IsUnsafe(s[i])
  }

  lemma CleanPrefix(s: string, p: string)
    requires Clean(s) && StartsWith(s, p)
    ensures Clean(p)
  {
    assert forall i :: 0 <= i < |p| ==> p[i] == s[i];
  }

  lemma PrefixAvoids(s: string, p: string, c: char)
    requires StartsWith(s, p) && c !in s
    ensures c !in p
  {
    assert forall i :: 0 <= i < |p| ==> p[i] == s[i];
  }

  lemma CleanSuffix(s: string, k: nat)
    requires Clean(s) && k <= |s|
    ensures Clean(s[k..])
  {
    assert forall i :: 0 <= i < |s| - k ==> s[k..][i] == s[k + i];
  }

  lemma SchemeRestClean(url: string)
    requires Clean(url)
    ensures Clean(SplitScheme(url).1)
  {
    var r := SplitScheme(url);
    if r.0 != "" {
      CleanSuffix(url, |r.0| + 1);
    }
  }

  lemma NetlocRestClean(url: string)
    requires Clean(url)
    ensures Clean(SplitNetloc(url).1)
  {
    var r := SplitNetloc(url);
    if StartsWith(url, "//") {
      assert url == "//" + r.0 + r.1;
      CleanSuffix(url, 2 + |r.0|);
      assert url[2 + |r.0|..] == r.1;
    }
  }

  /** The path and its `;params` cut are free of tabs and line breaks when the cleaned target is. */
  lemma PathClean(url: string)
    requires Clean(url)
    ensures var path := Before(Before(SplitNetloc(SplitScheme(url).1).1, '#'), '?');
      Clean(path) && Clean(DropParams(path))
  {
    var afterScheme := SplitScheme(url).1;
    SchemeRestClean(url);
    var afterNetloc := SplitNetloc(afterScheme).1;
    NetlocRestClean(afterScheme);
    var noFragment := Before(afterNetloc, '#');
    CleanPrefix(afterNetloc, noFragment);
    var path := Before(noFragment, '?');
    CleanPrefix(noFragment, path);
    CleanPrefix(path, DropParams(path));
  }

  /** A prefix without `c` passes through `Before` untouched. */
  lemma BeforeAppend(p: string, rest: string, c: char)
    requires c !in p
    ensures Before(p + rest, c) == p + Before(rest, c)
  {
    var t := p + rest;
    assert forall j :: 0 <= j < |rest| ==> t[|p| + j] == rest[j];
    assert forall i :: 0 <= i < |p| ==> t[i] == p[i];
    match FindFrom(rest, c, 0) {
      case Some(j) =>
        assert t[..|p| + j] == p + rest[..j];
      case None =>
    }
  }

  /** The cleaning, scheme and network-location steps leave an origin-form target as it is. */
  lemma OriginFormSteps(t: string)
    requires |t| >= 1 && t[0] == '/' && (|t| == 1 || t[1] != '/')
    requires forall i :: 0 <= i < |t| ==> !IsUnsafe(t[i])
    ensures RemoveUnsafe(StripLeadingC0(t)) == t
    ensures SplitScheme(t) == ("", t)
    ensures SplitNetloc(t) == ("", t)
  {
    CleanKeeps(t);
    NoSchemeAfterSlash(t);
    NoNetlocAfterSlash(t);
  }

  lemma CleanKeeps(t: string)
    requires |t| >= 1 && !IsC0OrSpace(t[0])
    requires forall i :: 0 <= i < |t| ==> !IsUnsafe(t[i])
    ensures RemoveUnsafe(StripLeadingC0(t)) == t
  {
  }

  lemma NoSchemeAfterSlash(t: string)
    requires |t| >= 1 && t[0] == '/'
    ensures SplitScheme(t) == ("", t)
  {
  }

  lemma NoNetlocAfterSlash(t: string)
    requires |t| >= 1 && t[0] == '/' && (|t| == 1 || t[1] != '/')
    ensures SplitNetloc(t) == ("", t)
  {
    assert !StartsWith(t, "//") by {
      if |t| >= 2 { assert t[..2][1] == t[1]; }
    }
  }

  /** Without a query or fragment, an origin-form target's path is the target less its `;params`. */
  lemma OriginFormNoQuery(t: string)
    requires |t| >= 1 && t[0] == '/' && (|t| == 1 || t[1] != '/')
    requires forall i :: 0 <= i < |t| ==> !IsUnsafe(t[i]) && t[i] != '#' && t[i] != '?'
    ensures UrlPath(t) == Some(DropParams(t))
  {
    OriginFormSteps(t);
    assert SplitScheme(RemoveUnsafe(StripLeadingC0(t))) == ("", t);
    assert Before(t, '#') == t;
    assert Before(t, '?') == t;
    assert "" in UsesParams;
  }

  /** What follows the path, from a `?` or `#` on, is not part of it. */
  lemma QueryDropped(p: string, rest: string)
    requires forall i :: 0 <= i < |p| ==> p[i] !in "?#"
    requires rest == "" || rest[0] in "?#"
    ensures Before(Before(p + rest, '#'), '?') == p
  {
    BeforeAppend(p, rest, '#');
    var x := Before(rest, '#');
    BeforeAppend(p, x, '?');
    assert Before(x, '?') == "" by {
      if |x| > 0 {
        assert x[0] == rest[0];
        assert FindFrom(x, '?', 0) == Some(0);
      }
    }
    assert p + "" == p;
  }

  /**
   * An origin-form target — a `/`, then no tab or line break, `;`, `?` or `#` —
   * is its own path, and whatever follows a `?` or `#` is dropped.
   */
  lemma OriginFormPath(p: string, rest: string)
    requires |p| >= 1 && p[0] == '/' && (|p| == 1 || p[1] != '/')
    requires forall i :: 0 <= i < |p| ==> !IsUnsafe(p[i]) && p[i] !in "?#;"
    requires rest == "" || rest[0] in "?#"
    requires forall i :: 0 <= i < |rest| ==> !IsUnsafe(rest[i])
    ensures UrlPath(p + rest) == Some(p)
  {
    var t := p + rest;
    assert t[0] == p[0];
    assert forall i :: 0 <= i < |t| ==> !IsUnsafe(t[i]) by {
      forall i | 0 <= i < |t| ensures !IsUnsafe(t[i]) {
        if i >= |p| { assert t[i] == rest[i - |p|]; } else { assert t[i] == p[i]; }
      }
    }
    assert |t| >= 2 ==> t[1] != '/' by {
      if |t| >= 2 { if |p| >= 2 { assert t[1] == p[1]; } else { assert t[1] == rest[0]; } }
    }
    OriginFormSteps(t);
    QueryDropped(p, rest);
    assert SplitScheme(RemoveUnsafe(StripLeadingC0(t))) == ("", t);
    assert "" in UsesParams;
    assert DropParams(p) == p;
  }

  /** `http:` is split off as the scheme. */
  lemma HttpScheme(x: string)
    ensures SplitScheme("http:" + x) == ("http", x)
  {
    var t := "http:" + x;
    assert t[0] == 'h' && t[1] == 't' && t[2] == 't' && t[3] == 'p' && t[4] == ':';
    var f := FindFrom(t, ':', 0);
    assert f.Some? && f.value <= 4;
    assert f.value == 4;
    assert t[..4] == "http";
    var l := Lower("http");
    assert l[0] == 'h' && l[1] == 't' && l[2] == 't' && l[3] == 'p';
    assert l == "http";
    assert t[5..] == x;
  }

  /** A `//host` is split off up to the path's `/`. */
  lemma HostSplit(host: string, after: string)
    requires forall i :: 0 <= i < |host| ==> host[i] !in "/?#"
    requires |after| >= 1 && after[0] == '/'
    ensures SplitNetloc("//" + host + after) == (host, after)
  {
    var u := "//" + host + after;
    assert u[..2] == "//";
    assert forall j :: 2 <= j < 2 + |host| ==> u[j] == host[j - 2];
    assert u[2 + |host|] == '/';
    var e := NetlocEnd(u, 2);
    assert e == 2 + |host|;
    assert u[2..e] == host;
    assert u[e..] == after;
  }

  /**
   * An absolute-form `http` target loses its scheme and host: its path is the
   * path an origin-form target would have.
   */
  lemma AbsoluteFormPath(host: string, p: string, rest: string)
    requires forall i :: 0 <= i < |host| ==> host[i] !in "/?#[]" && !IsUnsafe(host[i])
    requires |p| >= 1 && p[0] == '/'
    requires forall i :: 0 <= i < |p| ==> !IsUnsafe(p[i]) && p[i] !in "?#;"
    requires rest == "" || rest[0] in "?#"
    requires forall i :: 0 <= i < |rest| ==> !IsUnsafe(rest[i])
    ensures UrlPath("http://" + host + p + rest) == Some(p)
  {
    var t := "http://" + host + p + rest;
    var x := "//" + host + (p + rest);
    assert t == "http:" + x;
    assert forall i :: 0 <= i < |t| ==> !IsUnsafe(t[i]) by {
      forall i | 0 <= i < |t| ensures !IsUnsafe(t[i]) {
        if i < 7 { }
        else if i < 7 + |host| { assert t[i] == host[i - 7]; }
        else if i < 7 + |host| + |p| { assert t[i] == p[i - 7 - |host|]; }
        else { assert t[i] == rest[i - 7 - |host| - |p|]; }
      }
    }
    CleanKeeps(t);
    HttpScheme(x);
    HostSplit(host, p + rest);
    assert '[' !in host && ']' !in host;
    QueryDropped(p, rest);
    assert "http" in UsesParams;
    assert DropParams(p) == p;
  }

  /** `;params` after the last segment are not part of the path. */
  lemma ParamsDropped(p: string, params: string)
    requires |p| >= 1 && p[0] == '/' && (|p| == 1 || p[1] != '/')
    requires forall i :: 0 <= i < |p| ==> !IsUnsafe(p[i]) && p[i] !in "?#;"
    requires forall i :: 0 <= i < |params| ==> !IsUnsafe(params[i]) && params[i] !in "?#/"
    ensures UrlPath(p + ";" + params) == Some(p)
  {
    var t := p + ";" + params;
    forall i | 0 <= i < |t| ensures !IsUnsafe(t[i]) && t[i] != '#' && t[i] != '?' {
      if i > |p| { assert t[i] == params[i - |p| - 1]; }
    }
    assert |t| == 1 || t[1] != '/' by { if |p| == 1 { assert t[1] == ';'; } }
    OriginFormNoQuery(t);
    DropParamsAt(p, params);
  }

  lemma DropParamsAt(p: string, params: string)
    requires |p| >= 1 && p[0] == '/' && ';' !in p && '/' !in params
    ensures DropParams(p + ";" + params) == p
  {
    var t := p + ";" + params;
    assert t[0] == '/' && t[|p|] == ';';
    var slash := FindLast(t, '/').value;
    assert forall i :: |p| < i < |t| ==> t[i] == params[i - |p| - 1];
    assert forall i :: slash <= i < |p| ==> t[i] == p[i];
    assert FindFrom(t, ';', slash) == Some(|p|);
    assert t[..|p|] == p;
  }
}

=== FILE: utf8.dfy ===
/**
 * UTF-8, as Python's `str.encode('utf-8')` and a browser `Blob` produce it.
 * A Dafny `char` is a Unicode scalar value (surrogates excluded), so every
 * string has exactly one encoding, and decoding it gives the string back.
 */
module Utf8 {
  import opened Base

  type Byte = x: int | 0 <= x < 256

  /** Number of bytes UTF-8 spends on `c`. */
  function CharWidth(c: char): nat {
    if c as int < 0x80 then 1
    else if c as int < 0x800 then 2
    else if c as int < 0x10000 then 3
    else 4
  }

  /** Number of bytes of `Encode(s)`, character by character. */
  function ByteLength(s: string): nat {
    if |s| == 0 then 0 else CharWidth(s[0]) + ByteLength(s[1..])
  }

  function EncodeChar(c: char): (b: seq<Byte>)
    ensures |b| == CharWidth(c)
  {
    var n := c as int;
    if n < 0x80 then [n]
    else if n < 0x800 then [0xC0 + n / 64, 0x80 + n % 64]
    else if n < 0x10000 then [0xE0 + n / 4096, 0x80 + (n / 64) % 64, 0x80 + n % 64]
    else [0xF0 + n / 262144, 0x80 + (n / 4096) % 64, 0x80 + (n / 64) % 64, 0x80 + n % 64]
  }

  function Encode(s: string): (b: seq<Byte>)
    ensures |b| == ByteLength(s)
  {
    if |s| == 0 then [] else EncodeChar(s[0]) + Encode(s[1..])
  }

  predicate IsContinuation(b: Byte) {
    0x80 <= b < 0xC0
  }

  /** The scalar value `n` as a `char`, when it is one. */
  function ScalarChar(n: int): Option<char> {
    if 0 <= n < 0xD800 || 0xE000 <= n < 0x110000 then Some(n as char) else None
  }

  /**
   * Decodes the first character of `b`, returning it with the number of bytes
   * it used; overlong forms, surrogates and values past U+10FFFF are rejected.
   */
  function DecodeFirst(b: seq<Byte>): (r: Option<(char, nat)>)
    ensures r.Some? ==> 1 <= r.value.1 <= |b| && r.value.1 <= 4
  {
    if |b| == 0 then None
    else if b[0] < 0x80 then Some((b[0] as char, 1))
    else if 0xC0 <= b[0] < 0xE0 && |b| >= 2 && IsContinuation(b[1]) then
      var n := (b[0] as int - 0xC0) * 64 + (b[1] as int - 0x80);
      if n < 0x80 then None else Some((n as char, 2))
    else if 0xE0 <= b[0] < 0xF0 && |b| >= 3 && IsContinuation(b[1]) && IsContinuation(b[2]) then
      var n := (b[0] as int - 0xE0) * 4096 + (b[1] as int - 0x80) * 64 + (b[2] as int - 0x80);
      if n < 0x800 then None
      else match ScalarChar(n) case Some(c) => Some((c, 3)) case None => None
    else if 0xF0 <= b[0] < 0xF8 && |b| >= 4 && IsContinuation(b[1]) && IsContinuation(b[2]) && IsContinuation(b[3]) then
      var n := (b[0] as int - 0xF0) * 262144 + (b[1] as int - 0x80) * 4096 + (b[2] as int - 0x80) * 64 + (b[3] as int - 0x80);
      if n < 0x10000 then None
      else match ScalarChar(n) case Some(c) => Some((c, 4)) case None => None
    else None
  }

  /** Decodes a whole byte string, or fails on the first malformed sequence. */
  function Decode(b: seq<Byte>): Option<string>
    decreases |b|
  {
    if |b| == 0 then Some("")
    else match DecodeFirst(b)
      case None => None
      case Some((c, k)) =>
        match Decode(b[k..])
        case None => None
        case Some(rest) => Some([c] + rest)
  }

  lemma DivMod64(n: int)
    requires 0 <= n
    ensures n == (n / 64) * 64 + n % 64
    ensures (n / 64) / 64 == n / 4096 && (n / 4096) / 64 == n / 262144
  {
  }

  lemma DecodeFirstEncodeChar(c: char, rest: seq<Byte>)
    ensures DecodeFirst(EncodeChar(c) + rest) == Some((c, CharWidth(c)))
  {
    var n := c as int;
    var b := EncodeChar(c) + rest;
    DivMod64(n);
    DivMod64(n / 64);
    DivMod64(n / 4096);
    if n < 0x80 {
    } else if n < 0x800 {
      assert b[0] == 0xC0 + n / 64 && b[1] == 0x80 + n % 64;
    } else if n < 0x10000 {
      assert b[0] == 0xE0 + n / 4096 && b[1] == 0x80 + (n / 64) % 64 && b[2] == 0x80 + n % 64;
      assert (b[0] as int - 0xE0) * 4096 + (b[1] as int - 0x80) * 64 + (b[2] as int - 0x80) == n;
    } else {
      assert b[0] == 0xF0 + n / 262144 && b[1] == 0x80 + (n / 4096) % 64;
      assert b[2] == 0x80 + (n / 64) % 64 && b[3] == 0x80 + n % 64;
      assert (b[0] as int - 0xF0) * 262144 + (b[1] as int - 0x80) * 4096 + (b[2] as int - 0x80) * 64 + (b[3] as int - 0x80) == n;
    }
  }

  /** Decoding an encoding gives back the string. */
  lemma {:induction false} DecodeEncode(s: string)
    ensures Decode(Encode(s)) == Some(s)
  {
    if |s| > 0 {
      var head := EncodeChar(s[0]);
      DecodeFirstEncodeChar(s[0], Encode(s[1..]));
      assert (head + Encode(s[1..]))[|head|..] == Encode(s[1..]);
      DecodeEncode(s[1..]);
      assert [s[0]] + s[1..] == s;
    }
  }

  lemma {:induction false} ByteLengthAppend(a: string, b: string)
    ensures ByteLength(a + b) == ByteLength(a) + ByteLength(b)
  {
    if |a| > 0 {
      assert (a + b)[1..] == a[1..] + b;
      ByteLengthAppend(a[1..], b);
    } else {
      assert a + b == b;
    }
  }

  /** A string has as many UTF-8 bytes as characters exactly when it is ASCII. */
  lemma {:induction false} ByteLengthAscii(s: string)
    ensures ByteLength(s) >= |s|
    ensures ByteLength(s) == |s| <==> forall i :: 0 <= i < |s| ==> s[i] as int < 0x80
  {
    if |s| > 0 {
      ByteLengthAscii(s[1..]);
      assert forall i :: 1 <= i < |s| ==> s[1..][i - 1] == s[i];
    }
  }
}
